=== FILE: README.md ===
# pig_translate in Dafny

pig_translate turns a SQL `SELECT` statement into an Apache Pig Latin
script. `select_parser.py` is a pyparsing grammar for SQLite's `SELECT`. It
yields a parse result with named parts (`where_expr`, `group_terms`, ...).
`pig_translator.py` reads those parts and prints several statements:
a block of jar registrations, a `LOAD`/`FOREACH` pair, a `FILTER` for the
WHERE expression and a `GROUP` for the grouping terms. The
statements are chained through generated relation symbols `A`, `B`, `C`, ...

The project models both halves:

- **Lexical**, **LexicalFacts**: the single-token recognisers (keywords,
  identifiers, integer, numeric, string, blob and bind-parameter literals),
  with the regular expression of `numeric_literal` read greedily and
  proved equal to its declarative shape.
- **Trees**, **ParseBase**, **Tokens**, **Grammar**: the grammar as
  ordered-choice parsers over a token sequence. Each parser takes a start
  position and returns the parse results (strings and nested groups) and the
  position after them, or nothing. Every parser keeps one invariant: the
  flattened results render, in order, the tokens it consumed, minus the
  suppressed `(`, `)` and `,`. A result renders its token verbatim, as the
  upper-case defining string when the token is a caseless keyword, or as a
  quoted string without its quotes. The operator table is modelled row by row,
  as pyparsing builds it.
- **GrammarFacts**, **Scenarios**: what the table does to common
  expressions. A row passes its operand through unchanged when no operator
  of the row follows. `z > 100` is one group. `a or b and c` is one flat
  group, because AND and OR share a row. `a - 1` reads `-` as a postfix
  operator. `x between lo and hi` never forms the BETWEEN row. An ordering
  term that is an identifier leaves a following `DESC` untaken.
- **Statement**: the named parts of a parsed statement, and how a name set
  in several compound cores resolves (the last setter wins).
- **Symbols**, **Translator**: the symbol formula of `get_new_symbol`. The
  generator state is threaded through pure functions. Then `basic_load`,
  `where_filter`, `group_by`, `check_fields`, `gen_register` and the clause
  order of `get_pig`.
- **Script**: the statement list of `get_pig` for a parsed statement, with
  the corrected builders and with the builders as written.
- **Driver**: `PigGenerator(sql).get_pig()` from tokens to statements, and
  how the FILTER condition relates to the tokens of the WHERE clause.
- **Query**, **GroupQuery**, **PlainQuery**: queries taken through end to
  end: `select * from xyzzy where z > 100` and
  `select a, d from b where c = 1 group by d` from the parser's test list,
  `select a from b`, and `select from where`, which fails to parse.

Printing is left out. `get_pig` returns the list of statements it would
print, in order. As written, the source emits a FILTER and a GROUP
statement for every query, even one without WHERE or GROUP BY (see
Findings). The main pipeline (`Translate`, `GetPig`, `Pipeline`) uses
corrected builders, for which a missing clause gives `None`. The
`...AsWritten` members state what the source itself emits.

## Model

| member | source | states |
|---|---|---|
| Symbols.Decimal | pig_translator.py:50 | `str(n)` of a natural number is a non-empty run of digits with no leading zero |
| Symbols.DecimalRoundTrip | pig_translator.py:50 | reading the decimal spelling of `n` back gives `n` |
| Symbols.Symbol | pig_translator.py:47-50 | counters 1 to 25 give one letter; from 26 on, a letter followed by digits; every symbol starts with an upper-case letter |
| Symbols.SymbolRoundTrip | pig_translator.py:45-53 | the counter value can be recovered from the symbol it produced |
| Symbols.SymbolInjective | pig_translator.py:45-53 | two different counter values never produce the same symbol, including across the switch to two-part symbols at 26 |
| Symbols.SymbolExamples | pig_translator.py:47-50 | 1, 2, 25 give A, B, Y; 26, 51, 52 give A1, Z1, A2, so a lone `Z` is never produced |
| Trees.Flatten | pig_translator.py:25-31 | a group flattens to the atoms of its elements; a bare string is iterable and yields one atom per character |
| Trees.FlattenSeqConcat | pig_translator.py:25-31 | flattening two element sequences one after the other is flattening their concatenation |
| Trees.FlattenGroup | pig_translator.py:25-31 | a group boundary leaves no trace in the flattened output |
| Trees.FlattenSeq | pig_translator.py:25-31 | flattening a sequence of elements yields exactly one atom per string leaf below it |
| Trees.FlattenContents | pig_translator.py:25-31 | the flattened atoms are exactly the leaf strings: none lost, none invented |
| Statement.WhereExpr | select_parser.py:106-112 | in a one-core statement `where_expr` is that core's WHERE expression; in any statement it is absent exactly when no core has one |
| Statement.GroupTerms | select_parser.py:109-112 | in a one-core statement `group_terms` is that core's grouping terms; in any statement they are absent exactly when no core has them |
| Statement.LastWhere | select_parser.py:106-112 | `where_expr` of a compound statement is absent exactly when no core sets it; otherwise it is the value set by the last core that sets it |
| Statement.LastGroup | select_parser.py:109-112 | `group_terms` of a compound statement resolves like `where_expr`: absent exactly when no core sets it, otherwise the last core's terms |
| Lexical.DigitsEnd | select_parser.py:45 | the `\d+` scanner ends a run of digits at the first non-digit or the end of the token |
| Lexical.BlobDigits | select_parser.py:47 | the digits of a blob literal are a non-empty hex string |
| LexicalFacts.DigitsEndExact | select_parser.py:45 | given the end of a digit run, the scanner stops exactly there |
| LexicalFacts.ExponentEndExact | select_parser.py:45 | an optional exponent part `([eE][+-]?\d+)?` is consumed to the end of the token |
| LexicalFacts.ExponentEndSound | select_parser.py:45 | whatever the exponent scanner consumes to the end is a well-formed exponent part |
| LexicalFacts.NumericIff | select_parser.py:45 | the greedy left-to-right reading of `numeric_literal` accepts exactly the tokens made of digits, an optional fraction and an optional exponent |
| LexicalFacts.NumericSound | select_parser.py:45 | every token the greedy reading accepts has the digits/fraction/exponent shape |
| LexicalFacts.NumericComplete | select_parser.py:45 | every token of the digits/fraction/exponent shape is accepted by the greedy reading |
| LexicalFacts.NumericStartsWithDigit | select_parser.py:45 | `numeric_literal` has no sign: it always starts with a digit |
| LexicalFacts.UnsignedIntegerIsNumeric | select_parser.py:44-45 | an `integer` without a sign is also a `numeric_literal` |
| LexicalFacts.SignedIntegerIsNotNumeric | select_parser.py:44-45 | `-` followed by digits is an `integer` but never a `numeric_literal` |
| LexicalFacts.IdentifierIsNoLiteral | select_parser.py:30-53 | no identifier is also a numeric, integer, string, blob or bind-parameter literal |
| LexicalFacts.BlobIsNoWord | select_parser.py:30-47 | a blob literal is never a `Word`, because of its quote |
| LexicalFacts.SelectionIsIdentifier | select_parser.py:24-30 | keywords are excluded as whole words only: `selection` is an identifier, `Select` is not |
| LexicalFacts.AndIsIdentifier | select_parser.py:14-30 | `AND` is declared as a keyword but is missing from the `keyword` list, so it passes as an identifier in any letter case |
| LexicalFacts.KeywordIsNoIdentifier | select_parser.py:24-30 | every word in the `keyword` list, in any letter case, is refused as an identifier |
| LexicalFacts.BlobRoundTrip | select_parser.py:47 | spelling a hex string as a blob literal and reading its digits back gives the string |
| LexicalFacts.BlobSpelling | select_parser.py:47 | every blob literal is the spelling of its own digits |
| LexicalFacts.LetterIsIdentifier | select_parser.py:24-30 | every single letter is an identifier, since all excluded words are longer |
| ParseBase.VisibleConcat | select_parser.py:10 | dropping the suppressed punctuation from two runs one after the other drops it from their concatenation |
| ParseBase.YieldsConcat | select_parser.py:10 | two adjacent parse steps that each render their tokens compose into one step rendering both |
| ParseBase.Then | select_parser.py:10 | sequencing two steps concatenates their results and keeps the rendering invariant |
| ParseBase.Grouped | select_parser.py:10 | `Group` nests the results as one element without changing what they render |
| ParseBase.Nothing | select_parser.py:10 | the empty match of `Optional`/`ZeroOrMore` consumes and returns nothing |
| ParseBase.Extend | select_parser.py:10 | a sequence step fails exactly when its second part fails, and otherwise ends where the second part ends |
| ParseBase.ExtendOpt | select_parser.py:10 | an `Optional` second part that fails leaves the first part's results untouched |
| ParseBase.First | select_parser.py:24 | in `a \| b` the first alternative that matches wins, and `b` is taken only when `a` fails |
| ParseBase.Token | select_parser.py:10 | one visible token read as one leaf that renders it |
| ParseBase.Keyword | select_parser.py:14-23 | a `CaselessKeyword`, defined only for the declared keyword strings, matches exactly the tokens equal to it up to letter case, and returns the upper-case defining string |
| ParseBase.IdentifierVerbatim | select_parser.py:24-30 | a leaf stands for an identifier token only as the token itself, or as `AND` when the token spells `and`, the one caseless keyword the identifier rule lets through |
| ParseBase.LowerIdentifierKept | select_parser.py:30 | the identifier `z` is yielded as `z` and never as `Z` |
| ParseBase.Literal | select_parser.py:105 | a literal token matches only itself and is returned as one leaf |
| ParseBase.Punct | select_parser.py:10 | `(`, `)` and `,` are matched but return nothing |
| Tokens.NotPunctuation | select_parser.py:30-54 | no word or literal token is suppressed punctuation |
| Tokens.Ident | select_parser.py:30 | an identifier parse succeeds exactly on identifier tokens and returns the token as written |
| Tokens.Integer | select_parser.py:44 | `integer` succeeds exactly on signed or unsigned digit tokens |
| Tokens.Numeric | select_parser.py:45 | `numeric_literal` succeeds exactly on numeric tokens |
| Tokens.StringLit | select_parser.py:46 | a quoted string succeeds exactly on quoted tokens and returns the text between the quotes |
| Tokens.Blob | select_parser.py:47 | `blob_literal` succeeds exactly on blob tokens |
| Tokens.LiteralValue | select_parser.py:48-49 | a matched literal value consumes at least one token, returns a result, and renders the tokens it took |
| Tokens.NotNull | select_parser.py:49 | `NOT NULL` is two tokens returned as `NOT`, `NULL` |
| Tokens.LiteralList | select_parser.py:56 | a comma-separated list of literal values consumes at least one token and returns its values without the commas |
| Tokens.ValList | select_parser.py:56 | a parenthesised value list returns the values without parentheses or commas |
| Tokens.BindParameter | select_parser.py:50-53 | a bind parameter succeeds exactly on one combined parameter token |
| Tokens.TypeName | select_parser.py:54 | `type_name` succeeds exactly on the five case-sensitive type names |
| Tokens.CountTerm | select_parser.py:58 | `COUNT ( x )` spans four tokens and returns two results, with the parentheses suppressed |
| Tokens.AtomTerm | select_parser.py:64-67 | the operand alternatives without a nested expression consume and return at least one token |
| Tokens.LevelOp | select_parser.py:72-84 | an operator of a table row is returned as written when it is a symbol, or upper-cased when it is a keyword, so it always renders its token |
| Tokens.Operator | select_parser.py:72-84 | a row's operator matches exactly when the token is one of the row's operators, as one leaf |
| Tokens.UnaryRun | select_parser.py:74 | the unary row's operators after an operand form a run of at least one token |
| Tokens.CompoundOp | select_parser.py:87 | a compound operator consumes at least one token |
| Tokens.UnionOp | select_parser.py:87 | `UNION [ALL]` consumes at least one token |
| Tokens.JoinKind | select_parser.py:93 | the join kind keywords keep the rendering invariant |
| Tokens.LeftOuter | select_parser.py:93 | `LEFT OUTER` keeps the rendering invariant |
| Tokens.JoinOp | select_parser.py:93 | a join operator, a comma or a `... JOIN`, consumes at least one token |
| Tokens.Alias | select_parser.py:97 | an optional alias renders what it consumes; `AS` with no name after it consumes nothing |
| Tokens.IndexHint | select_parser.py:98 | the optional index hint renders what it consumes |
| Tokens.IndexedBy | select_parser.py:98 | `INDEXED BY name` renders what it consumes |
| Tokens.NotIndexed | select_parser.py:98 | `NOT INDEXED` renders what it consumes |
| Tokens.TableRef | select_parser.py:96 | a table reference, qualified or not, consumes at least one token |
| Tokens.QualifiedTable | select_parser.py:96 | `db.table` consumes at least one token and is returned as one group |
| Tokens.TableSource | select_parser.py:96-98 | the table alternative of `single_source` consumes at least one token |
| Tokens.ColumnNames | select_parser.py:91 | a comma-separated column list consumes at least one token |
| Tokens.UsingColumns | select_parser.py:91 | `USING ( columns )` keeps the rendering invariant |
| Tokens.LimitClause | select_parser.py:114 | `LIMIT` matches exactly when an integer follows it, and always stops after that integer, so the `OFFSET` and comma forms are never the ones taken |
| Grammar.NamedValue | select_parser.py:108-110 | a name given to an expression holds the expression's first result, and is absent when there is none |
| Grammar.Expr | select_parser.py:72-84 | a parsed expression consumes at least one token, returns at least one result, and renders the tokens it took |
| Grammar.Level | select_parser.py:72-84 | every row of the operator table, built on the row before, renders what it consumes and returns at least one result |
| Grammar.Parenthesised | select_parser.py:72 | a parenthesised expression returns the inner expression without the parentheses |
| Grammar.BinaryRun | select_parser.py:75-82 | the operator/operand pairs of a binary row consume at least one token |
| Grammar.BetweenRest | select_parser.py:83 | `BETWEEN lo AND hi` after an operand consumes at least one token |
| Grammar.ExprTerm | select_parser.py:59-69 | an operand consumes at least one token and returns at least one result |
| Grammar.CastTerm | select_parser.py:60 | `CAST ( e AS type )` renders what it consumes |
| Grammar.ExistsTerm | select_parser.py:61 | `EXISTS ( select )` renders what it consumes |
| Grammar.CallTerm | select_parser.py:63 | a function call returns the name and its arguments without the parentheses |
| Grammar.ExprList | select_parser.py:63 | a comma-separated expression list renders what it consumes |
| Grammar.StmtPart | select_parser.py:61 | a nested statement contributes exactly its tokens part |
| Grammar.WithAlias | select_parser.py:105 | an expression with an optional alias matches exactly when the expression does, and ends no earlier |
| Grammar.TableStar | select_parser.py:105 | `table.*` renders what it consumes |
| Grammar.ResultColumn | select_parser.py:105 | a result column consumes at least one token |
| Grammar.ColumnList | select_parser.py:106 | the result column list consumes at least one token |
| Grammar.Ordered | select_parser.py:89 | the expression alternative of `ordering_term` matches exactly when its expression does |
| Grammar.OrderingTerm | select_parser.py:89 | an ordering term consumes at least one token |
| Grammar.OrderingList | select_parser.py:109-113 | an ordering list consumes at least one token |
| Grammar.JoinSource | select_parser.py:102 | a join source consumes at least one token |
| Grammar.JoinRun | select_parser.py:102 | the repeated join part renders what it consumes |
| Grammar.JoinConstraint | select_parser.py:91 | the optional join constraint renders what it consumes |
| Grammar.SingleSource | select_parser.py:96-100 | a single source consumes at least one token |
| Grammar.SubSelect | select_parser.py:99 | a parenthesised sub-select consumes at least one token |
| Grammar.NestedJoin | select_parser.py:100 | a parenthesised join source consumes at least one token |
| Grammar.FromClause | select_parser.py:107 | the optional FROM clause renders what it consumes |
| Grammar.ExprClause | select_parser.py:108-110 | a `WHERE`/`HAVING` clause is present exactly when the keyword and an expression follow; its name then holds all the expression's results, which are non-empty and render the expression's tokens, and the clause ends where the expression does; an absent clause consumes nothing |
| Grammar.GroupClause | select_parser.py:109-110 | `group_terms` is present exactly when `GROUP BY` and an ordering list follow; it then holds the list's results, which render the list's tokens, and `having_expr` is what the HAVING clause after the list names; without grouping terms there is no HAVING expression and nothing is consumed |
| Grammar.OrderByClause | select_parser.py:113 | `order_by_terms` is present exactly when `ORDER BY` and an ordering list follow, and then holds the list's results, which render its tokens; an absent clause consumes nothing |
| Grammar.SelectCore | select_parser.py:106-110 | a core matches exactly when `SELECT` in any letter case, an optional `DISTINCT`/`ALL` and a column list follow; its columns are the list's results (at least one), and `where_expr`, `group_terms` and `having_expr` are what the WHERE clause after the FROM clause and the grouping clause after it name |
| Grammar.CompoundRun | select_parser.py:112 | no further core exactly when nothing is consumed; otherwise a compound operator comes first and the first further core is the core after it |
| Grammar.SelectStmt | select_parser.py:112-114 | a statement matches exactly when its first core does; its cores are that core and then the compound cores, its ORDER BY terms are what the ORDER BY clause after them names, and its LIMIT terms are present exactly when a LIMIT clause follows, holding that clause's results |
| GrammarFacts.LevelUnfold | select_parser.py:72-84 | a row is its operand alone when nothing of the row follows, else one group of the operand and what follows |
| GrammarFacts.LevelEnd | select_parser.py:72-84 | a row's result ends within the input |
| GrammarFacts.LevelPass | select_parser.py:72-84 | a row returns its operand unchanged when nothing of the row follows it |
| GrammarFacts.NoRowRest | select_parser.py:72-84 | without one of the row's operators next, nothing of the row follows |
| GrammarFacts.NoOperatorUpToIn | select_parser.py:72-84 | "no operator of rows 1 to k" holds row by row |
| GrammarFacts.PassThrough | select_parser.py:72-84 | an operand followed by no operator of the rows above it is the result of all those rows |
| GrammarFacts.PassRest | select_parser.py:72-84 | the pass-through when rows remain: the next row passes the operand on, and so do the rest |
| GrammarFacts.PassUpTo | select_parser.py:72-84 | the same, with the rows' operators excluded all at once |
| GrammarFacts.PassOne | select_parser.py:72-84 | a row without its operator next returns its operand |
| GrammarFacts.BinaryLeaves | select_parser.py:75-82 | three single tokens `x op y` form one group `x OP y` |
| GrammarFacts.BinaryStep | select_parser.py:75-82 | operand, operator, operand and no further operator of the row form one group of the three parts |
| GrammarFacts.LevelGroup | select_parser.py:72-84 | when the row's operator follows, the operand and the rest form one group |
| GrammarFacts.RowRestIsBinary | select_parser.py:75-82 | the rows between the first and the last are binary |
| GrammarFacts.BinaryHead | select_parser.py:75-82 | a binary row's pairs are concatenated flat, not nested |
| GrammarFacts.BinaryRunOnce | select_parser.py:75-82 | one operator/operand pair with nothing after it |
| GrammarFacts.BinaryRunMore | select_parser.py:75-82 | further pairs of the same row join the first pair flat |
| GrammarFacts.LevelFail | select_parser.py:72-84 | a row fails where the row below it fails |
| GrammarFacts.NoOperandNoLevel | select_parser.py:72-84 | where no operand starts, no row of the table matches |
| GrammarFacts.IdentOperand | select_parser.py:59-69 | an identifier not followed by `(` is an operand on its own |
| GrammarFacts.NumberOperand | select_parser.py:59-69 | a numeric literal is an operand on its own |
| GrammarFacts.LoneOperand | select_parser.py:59-84 | a lone operand followed by no operator of rows 1 to k is the result of every row up to k |
| GrammarFacts.OrderingTermIdentFirst | select_parser.py:89 | the bare identifier alternative is tried first, so an identifier is a whole ordering term on its own |
| GrammarFacts.DescendingNotTaken | select_parser.py:89-113 | `ORDER BY a DESC` names only `a`, and the clause stops before `DESC` |
| GrammarFacts.ClauseValueRenders | select_parser.py:108-110 | a WHERE or HAVING clause that names a value: the keyword stands there, the value is the first result of the expression after it, and when that is the expression's only result and a group, its atoms render the expression's tokens in order: suppressed punctuation left out, caseless keywords upper-cased, string quotes removed, every other token verbatim |
| Scenarios.GreaterRow | select_parser.py:79 | `>` belongs to the comparison row only |
| Scenarios.NameBeforeGreater | select_parser.py:72-79 | a name followed by `>` is an operand up to row 5 |
| Scenarios.NumberAtEnd | select_parser.py:72-84 | a number that ends the input is an operand of every row |
| Scenarios.ComparisonExpr | select_parser.py:72-84 | `z > 100` is one group of its three tokens |
| Scenarios.ComparisonRow | select_parser.py:79 | the comparison row groups `z > 100` |
| Scenarios.AndOrRow | select_parser.py:81 | `and` and `or` belong to the shared row 8 only |
| Scenarios.OperandBeforeAndOr | select_parser.py:72-81 | an operand followed by `or`/`and` is the result of rows 1 to 7 |
| Scenarios.AndTail | select_parser.py:81 | the `and c` tail of a row-8 run |
| Scenarios.OrAndRun | select_parser.py:81 | `or b and c` is one run of two pairs at the same row |
| Scenarios.OrThenTail | select_parser.py:81 | an `or` pair followed by an `and` pair concatenate flat |
| Scenarios.AndOrGroup | select_parser.py:81 | row 8 makes `a or b and c` one group of five |
| Scenarios.AndOrShareRow | select_parser.py:81 | `a or b and c` is one flat group read left to right, not `a or (b and c)` |
| Scenarios.NumberIsNoOperator | select_parser.py:72-84 | a numeric literal is never an operator of the table |
| Scenarios.DigitLedIsNoOperator | select_parser.py:72-84 | no operator of the table starts with a digit |
| Scenarios.PostfixRun | select_parser.py:74 | `-` after an operand is the unary row's operator |
| Scenarios.MinusIsPostfix | select_parser.py:74-77 | in `a - 1` the left-associative unary row reads `-` as postfix, binding tighter than binary minus: the expression is `a -` and the number is left over |
| Scenarios.MinusGroup | select_parser.py:74 | row 1 of `a - 1` is the group `a -` |
| Scenarios.BetweenRow | select_parser.py:83 | `between` belongs to the last row only |
| Scenarios.AndPair | select_parser.py:81-82 | `lo and hi` at the end of the input is a row-8 group, also at row 9 |
| Scenarios.AndPairRow | select_parser.py:81 | row 8 groups `lo and hi` |
| Scenarios.BetweenRestFails | select_parser.py:81-83 | after `between` the lower bound takes `and hi` as a conjunction, so the row finds no `AND` of its own |
| Scenarios.BetweenNeverForms | select_parser.py:81-83 | `x between lo and hi` never forms the BETWEEN row: the expression is `x` alone |
| Translator.NewSymbol | pig_translator.py:45-53 | a new symbol advances the counter by one and decodes to the new counter; the old current symbol becomes the last one; the pool is untouched; consistency is kept |
| Translator.NewAndLast | pig_translator.py:56-57 | the second component is the symbol that was current before the call, not the new one |
| Translator.ReuseSymbol | pig_translator.py:59-60 | the pool grows by the symbol and nothing else changes |
| Translator.PoolIgnored | pig_translator.py:45-60 | the pool and the `reuse` flag never influence the next symbol |
| Translator.FreshSymbolIsNew | pig_translator.py:45-53 | a consistent generator never hands out a symbol it handed out before |
| Translator.Show | pig_translator.py:92 | a symbol is formatted as itself, and a missing one as `None` |
| Translator.Join | pig_translator.py:91-101 | joining no pieces gives the empty text; otherwise the text starts with the first piece, followed by the separator when there are more, and is as long as the pieces plus one separator between each two |
| Translator.JoinSplit | pig_translator.py:91-101 | for any non-empty separator, joining pieces none of which contains the separator's first character loses nothing: splitting the text at the separator gives the pieces back; this covers both the ` ` and the `, ` join |
| Translator.SpelledOut | pig_translator.py:25-31 | a WHERE value that is a bare string is iterated per character, so the condition is its characters in order with one space between each two |
| Translator.SpelledOutExample | pig_translator.py:25-31 | `ok` gives the condition `o k` |
| Translator.DateSuffix | pig_translator.py:72-76 | the path suffix is empty exactly when no date is given; otherwise `/date`, followed by `/hour.*` only when an hour is given |
| Translator.BasicLoad | pig_translator.py:71-80 | the load takes two fresh symbols: LOAD into the first, FOREACH from the first into the second |
| Translator.WhereFilter | pig_translator.py:85-92 | no statement and no symbol without a WHERE expression; otherwise one new symbol, filtering the previous relation by the expression's atoms joined with spaces |
| Translator.GroupBy | pig_translator.py:94-102 | no statement and no symbol without grouping terms; otherwise one new symbol, grouping the previous relation by every atom of every term joined with `, ` |
| Translator.CheckFields | pig_translator.py:63-66 | fails exactly when some field is outside `QUERY_FIELD`, with the message left unformatted |
| Translator.FirstSymbols | pig_translator.py:47-48 | the first four symbols are A, B, C, D |
| Translator.LoadOnFresh | pig_translator.py:71-80 | on a fresh generator the load pair is A then B, with the FOREACH reading A |
| Translator.FilterAfterLoad | pig_translator.py:85-92 | right after the load, the filter makes C from B |
| Translator.GroupAfterLoad | pig_translator.py:94-102 | with no filter, the group makes C from B |
| Translator.GroupAfterFilter | pig_translator.py:94-102 | after a filter, the group makes D from C |
| Translator.Pipeline | pig_translator.py:122-127 | after the registrations come three statements: the load pair always, a filter exactly when there is a WHERE expression, a group exactly when there are grouping terms |
| Translator.PipelineStatements | pig_translator.py:122-127 | after the registrations: load A/B; a filter exactly when there is a WHERE, reading B; a group exactly when there are terms, reading the relation made just before it |
| Translator.ReadName | pig_translator.py:87-91 | a name the parse never set reads as the empty string, which flattens to nothing |
| Translator.ReadTerms | pig_translator.py:96-101 | likewise for the grouping terms |
| Translator.WhereFilterAsWritten | pig_translator.py:85-92 | as written, the filter is emitted whether or not there is a WHERE expression |
| Translator.GroupByAsWritten | pig_translator.py:94-102 | as written, the group is emitted whether or not there are grouping terms |
| Translator.EmptyFilterAsWritten | pig_translator.py:85-92 | as written, a query without WHERE gets `C = FILTER B BY ` with an empty condition |
| Translator.EmptyGroupAsWritten | pig_translator.py:94-102 | as written, a query without GROUP BY gets `D = GROUP C BY ();` |
| Translator.PipelineAsWritten | pig_translator.py:85-102 | as written, the load pair, the filter and the group are always all emitted, and with a WHERE expression the filter is the corrected one |
| Translator.PipelineAsWrittenStatements | pig_translator.py:85-127 | as written, the filter reads B with the expression's atoms, none without WHERE, and the group always makes D from C, with an empty key list without grouping terms |
| Script.GetPig | pig_translator.py:122-127 | the registrations, the A/B load pair, a FILTER of B exactly when the statement has a WHERE expression, with its atoms joined by spaces, and a GROUP exactly when it has grouping terms, making D from C after a filter and C from B without one |
| Script.GetPigAsWritten | pig_translator.py:85-127 | as written: the same registrations and load pair, then always a FILTER of B on the expression's atoms (an empty condition without WHERE), and always `D = GROUP C BY (...)` (an empty key list without GROUP BY) |
| Driver.Parse | select_parser.py:136-142 | parsing succeeds exactly when the statement grammar matches a prefix of the input, which starts with `SELECT`; the statement has at least one core |
| Driver.Translate | pig_translator.py:122-127 | translation fails exactly when the parse fails, which is exactly when the input does not start with `SELECT`, an optional `DISTINCT`/`ALL` and a column list; otherwise it emits the four `get_pig` statements of the parsed statement, the registrations first, with a FILTER exactly when some core has a WHERE expression |
| Driver.TranslateAsWritten | pig_translator.py:122-127 | as written, translation fails exactly when the corrected one does, and otherwise always emits both a FILTER and a GROUP statement |
| Driver.SingleCoreWhere | select_parser.py:106-108 | in a one-core statement `where_expr` is the first result of the WHERE clause after the columns and the FROM clause |
| Driver.FilterOfQuery | pig_translator.py:85-92 | a parsed statement with a WHERE expression translates, and its third statement filters B by the expression's atoms joined with spaces |
| Driver.FilterRendersWhere | pig_translator.py:85-92 | for one core with a WHERE clause: the keyword stands after the FROM clause, `where_expr` is the first result of the expression after it, the FILTER condition is its atoms joined by spaces, and when the expression is one group those atoms render the expression's tokens in order: suppressed punctuation left out, caseless keywords upper-cased, string quotes removed, every other token verbatim |
| Driver.FilterSpellsLeaf | pig_translator.py:85-92 | when `where_expr` is a bare string, the FILTER condition after `C = FILTER B BY ` spells it out character by character, one space between each two |
| Query.WhereWord | select_parser.py:25-30 | `where` is a keyword and not an identifier |
| Query.TableWord | select_parser.py:30 | `xyzzy` is an identifier |
| Query.TableOfQuery | select_parser.py:96-98 | `xyzzy` before `where` is a plain table: no `.`, no alias, no index hint |
| Query.NoJoinInQuery | select_parser.py:93-102 | no join follows the table |
| Query.SourceOfQuery | select_parser.py:96-102 | the join source is the table alone |
| Query.FromEnd | select_parser.py:107 | a FROM clause ends where its join source ends |
| Query.FromOfQuery | select_parser.py:107 | `from xyzzy` stops before `where` |
| Query.ComparisonOfQuery | select_parser.py:72-84 | the query's expression is the group `z > 100` |
| Query.WhereOfQuery | select_parser.py:108 | `where z > 100` names the comparison and ends the input |
| Query.ColumnsOfQuery | select_parser.py:105-106 | the result columns are `*` alone |
| Query.NoGroupInQuery | select_parser.py:109-110 | nothing is left for a GROUP BY |
| Query.HeadOfQuery | select_parser.py:106 | `select` is followed by neither `distinct` nor `all` |
| Query.CoreOfQuery | select_parser.py:106-110 | the query is one core: columns `*`, the comparison as `where_expr`, no grouping terms, no HAVING |
| Query.StmtOfQuery | select_parser.py:112-114 | the statement is that core, with no ORDER BY and no LIMIT |
| Query.ComparisonText | pig_translator.py:25-31 | the comparison flattens to `z`, `>`, `100`, which join to `z > 100` |
| Query.ParseQuery | select_parser.py:136-142 | `parse` of the query succeeds with that statement |
| Query.PipelineOfQuery | pig_translator.py:71-102 | the query gives the load pair and `C = FILTER B BY z > 100`, and no group |
| Query.PigOfQuery | pig_translator.py:122-127 | `get_pig` of the parsed query emits the registrations, the load pair, the filter and nothing for the group |
| Query.TranslateQuery | pig_translator.py:122-127 | `select * from xyzzy where z > 100` translates end to end to the registrations, the A/B load pair, `C = FILTER B BY z > 100` and no group |
| Query.PigAsWrittenOfQuery | pig_translator.py:85-127 | as written, `get_pig` of the parsed query also emits `D = GROUP C BY ();` |
| Query.TranslateAsWrittenQuery | pig_translator.py:122-127 | what the source emits for `select * from xyzzy where z > 100`: the registrations, the A/B load pair, `C = FILTER B BY z > 100` and `D = GROUP C BY ();`, although the query has no GROUP BY |
| GroupQuery.StopIsNoOperator | select_parser.py:72-84 | `,`, `from`, `where` and `group` are operators of no row |
| GroupQuery.EqualsRow | select_parser.py:80 | `=` is an operator of row 7 and of no row below it |
| GroupQuery.Letters | select_parser.py:30 | `a`, `b`, `c` and `d` are identifiers |
| GroupQuery.LoneColumn | select_parser.py:105 | an identifier followed by a token that no row, alias, `(` or `.` takes is a whole result column |
| GroupQuery.SecondColumn | select_parser.py:105-106 | `d` before `from` is the last column |
| GroupQuery.ColumnsOfGroup | select_parser.py:105-106 | the columns are `a` and `d`, the comma suppressed |
| GroupQuery.CommaColumn | select_parser.py:105-106 | a lone column, a comma and one more column: the comma is dropped and both columns are kept in order |
| GroupQuery.TableOfGroup | select_parser.py:96-98 | `b` before `where` is a plain table |
| GroupQuery.NoJoinBefore | select_parser.py:93-102 | no join starts at a `WHERE` keyword |
| GroupQuery.FromOfGroup | select_parser.py:102-107 | `from b` stops before `where` |
| GroupQuery.EqualityRow | select_parser.py:80 | row 7 groups `c = 1` |
| GroupQuery.EqualityExpr | select_parser.py:72-84 | `c = 1` followed by `group` is one group of its three tokens |
| GroupQuery.WhereOfGroup | select_parser.py:108 | `where c = 1` names the comparison and stops before `group` |
| GroupQuery.GroupOfGroup | select_parser.py:109-110 | `group by d` names the one term `d`, has no HAVING and ends the input |
| GroupQuery.CoreOfGroup | select_parser.py:106-110 | the query is one core: columns `a` and `d`, `c = 1` as `where_expr`, `d` as the grouping term, no HAVING |
| GrammarFacts.NothingAtEnd | select_parser.py:112-114 | at the end of the input no compound core, ORDER BY or LIMIT follows |
| GroupQuery.StmtOfGroup | select_parser.py:112-114 | the statement is that core, with no ORDER BY and no LIMIT |
| GroupQuery.ParseGroup | select_parser.py:136-142 | `parse` of the query succeeds with that statement |
| GroupQuery.GroupText | pig_translator.py:25-31 | `c = 1` flattens to `c`, `=`, `1`, which join to `c = 1`; the key list is `d` |
| GroupQuery.PigOfGroup | pig_translator.py:122-127 | `get_pig` of the parsed query emits the registrations, the load pair, `C = FILTER B BY c = 1` and `D = GROUP C BY (d);` |
| GroupQuery.AsWrittenOfGroup | pig_translator.py:85-102 | with both clauses present the builders as written emit what the corrected ones do |
| GroupQuery.TranslateGroup | pig_translator.py:122-127 | `select a, d from b where c = 1 group by d` translates end to end to the registrations, the A/B load pair, `C = FILTER B BY c = 1` and `D = GROUP C BY (d);`, as written too |
| PlainQuery.ClauseWordIsNoOperator | select_parser.py:72-84 | `from` and `where` are operators of no row, and not identifiers |
| PlainQuery.ColumnsOfPlain | select_parser.py:105-106 | in `select a from b` the columns are `a` alone, stopped by `from` |
| PlainQuery.FromOfPlain | select_parser.py:102-107 | `from b` is the table alone and ends the input |
| PlainQuery.CoreOfPlain | select_parser.py:106-110 | the query is one core: column `a`, no WHERE expression, no grouping terms, no HAVING |
| PlainQuery.ParsePlain | select_parser.py:136-142 | `parse` of `select a from b` succeeds with that one core and no ORDER BY or LIMIT |
| PlainQuery.PigOfPlain | pig_translator.py:122-127 | with the corrected builders, `get_pig` of it emits the registrations and the load pair only |
| PlainQuery.TranslatePlain | pig_translator.py:122-127 | `select a from b` translates to the registrations and the A/B load pair, with no filter and no group |
| PlainQuery.PigAsWrittenOfPlain | pig_translator.py:85-127 | as written, `get_pig` of it also emits `C = FILTER B BY ` with an empty condition and `D = GROUP C BY ();` |
| PlainQuery.TranslatePlainAsWritten | pig_translator.py:122-127 | what the source emits for `select a from b`: the registrations, the load pair, an empty FILTER and an empty GROUP |
| PlainQuery.FromWord | select_parser.py:24-54 | `from` is no literal, no bind parameter and no identifier |
| PlainQuery.FromIsNoOperand | select_parser.py:59-69 | no operand starts at `from` |
| PlainQuery.TranslateMissingColumns | select_parser.py:136-142 | `select from where` has no result column, so the parse fails and so does the translation |

## Left out

- Input and output: `raw_input`, the `print` calls of `get_pig`, `parse` and the test driver are not modelled. `get_pig` returns what it would print.
- Lexing: the grammar works on a sequence of tokens. How pyparsing splits the query text at whitespace and punctuation is not modelled.
- Parse failure messages: the message of the parse exception is not modelled. A failed parse is the `UnboundResult` error: `parse` then reaches `return result` with `result` unbound, which raises.
- Grammar.ExprTerm: the last alternative, `expr`, re-enters the expression at the same position and cannot consume anything. It is read as an alternative that fails. pyparsing instead recurses until Python's recursion limit raises an error that `parse` does not catch.
- Grammar.Parenthesised: in the source the operand of row 0 tries `expr_term` first, whose last alternative recurses as above, so the parenthesised form is never reached. The model reaches it.
- Driver.Parse: because of the two points above, wherever an operand is expected and no term starts, the source raises while the model lets that alternative fail. The model then parses or fails where the source raises. Examples are `where (a = 1)`, `where not x`, `a * -1`, a trailing `where` and `f()`. `select from where` fails in both, but the source fails by exceeding the recursion limit, not with `UnboundResult`.
- The named results of the parse are optional values. The builders as written read a missing one as pyparsing answers it, as the empty string (`ReadName`, `ReadTerms`). The corrected builders read it as absent (see Findings).
- Grammar.StmtPart: a nested statement (after `EXISTS`, or a sub-select in FROM) contributes only its tokens. No `Group` wraps it in the source (select_parser.py:61, 99), so pyparsing also merges its named results, such as `where_expr`, into the enclosing ones. The model does not.
- Grammar.SelectCore: for the same reason, a core's `where_expr`, `group_terms` and `having_expr` come from its own clauses only, never from a nested statement's.
- Translator.Pipeline: states the corrected builders' output, not the source's. Translator.PipelineAsWritten states the source's.
- Translator.PipelineStatements: states the corrected builders' output. Translator.PipelineAsWrittenStatements states the source's.
- Script.GetPig: states the corrected builders' output. Script.GetPigAsWritten states the source's.
- Driver.Translate: states the corrected builders' output. Driver.TranslateAsWritten states the source's.
- Query.PipelineOfQuery: states the corrected builders' output, with no group. The source also emits `D = GROUP C BY ();` (Query.TranslateAsWrittenQuery).
- Query.PigOfQuery: states the corrected builders' output. Query.PigAsWrittenOfQuery states the source's.
- Query.TranslateQuery: states the corrected builders' output. Query.TranslateAsWrittenQuery states the source's.
- PlainQuery.PigOfPlain: states the corrected builders' output. PlainQuery.PigAsWrittenOfPlain states the source's, with `C = FILTER B BY ` and `D = GROUP C BY ();`.
- PlainQuery.TranslatePlain: states the corrected builders' output. PlainQuery.TranslatePlainAsWritten states the source's.
- `rename_ident` and `column_generate` have empty bodies (`pass`). `check_fields` is never called by `get_pig`. It is modelled as a function of the field list; as declared, it lacks `self`.
- The jar list of `gen_register` is a constant.
- The HAVING, ORDER BY, LIMIT, join and column parts are parsed, but `get_pig` never reads them, so they do not appear in the statements. In the source a nested statement's WHERE or GROUP BY could still set the names `get_pig` reads (see Grammar.StmtPart).
- Translator.WhereFilter: requires that no atom of the expression contains `%`, because the source splices the expression into the format string before formatting. With a `%` in an atom, the format step has two outcomes. A `%%` pair prints as a single `%`: `where x like '50%%'` gives `C = FILTER B BY x LIKE 50%`. Any other `%`, such as a modulo, starts a directive with no argument left for it, and the format step raises.
- Translator.GroupBy: requires that no atom of the grouping terms contains `%`, for the same reason and with the same two outcomes: `%%` prints as `%`, and any other `%` raises.
- Dead alternatives: the second alternative of `ordering_term` and the `OFFSET`/comma forms of `LIMIT` begin with what an earlier alternative already accepts, so they never match and are not written.
- The `FILTER` statement has no trailing `;`, following the code.

## Findings

| source | as written | input that shows it | evidently intended | confidence | as-written member | corrected member |
|---|---|---|---|---|---|---|
| pig_translator.py:85-92 | `where_filter` tests `where_expr == None`, but pyparsing answers a name the parse never set with `""` | `select * from xyzzy` | no FILTER statement when there is no WHERE | medium, not executed | Translator.EmptyFilterAsWritten | Translator.WhereFilter |
| pig_translator.py:94-102 | `group_by` tests `group_terms == None`, which a missing name never equals either | `select * from xyzzy` | no GROUP statement when there is no GROUP BY | medium, not executed | Translator.EmptyGroupAsWritten | Translator.GroupBy |

=== FILE: driver.dfy ===
/** `PigGenerator(sql).get_pig()` end to end (pig_translator.py:37-43 and
    122-127, with `parse` from select_parser.py:136-142): parse the query,
    then emit the statements for its WHERE expression and grouping terms. */
module Driver {
  import opened Wrappers
  import opened Trees
  import opened ParseBase
  import opened Statement
  import opened Grammar
  import opened Translator
  import opened Script
  import Lexical
  import GrammarFacts

  /** The failure of `parse` (select_parser.py:136-142): after a syntax
      error `result` is returned unbound, which raises. */
  datatype ParseError = UnboundResult

  /** `parse` on a token sequence; trailing tokens are ignored, as
      `parseString` is called without requiring the whole input. */
  function Parse(toks: seq<string>): (r: Result<Select, ParseError>)
    ensures r.Success? <==> SelectStmt(toks, 0).Some?
    ensures r.Success? ==> |toks| > 0 && Lexical.IsKeyword(toks[0], "SELECT") && |r.value.cores| > 0
    ensures r.Success? ==> r.value == SelectStmt(toks, 0).value.stmt
  {
    match SelectStmt(toks, 0)
    case None => Failure(UnboundResult)
    case Some(p) => Success(p.stmt)
  }

  /** `PigGenerator(sql).get_pig()`: a failed parse aborts before any
      statement is produced, which happens exactly when the query does not
      start with `SELECT` and a column list; otherwise the registrations
      and the A/B load pair come first, and a filter follows exactly when
      some core of the query has a WHERE expression. */
  function Translate(toks: seq<string>): (r: Result<seq<Option<string>>, ParseError>)
    requires Parse(toks).Success? ==> Printable(Parse(toks).value)
    ensures r.Failure? <==> Parse(toks).Failure?
    ensures r.Failure? <==> !(|toks| > 0 && Lexical.IsKeyword(toks[0], "SELECT") && ColumnList(toks, ColumnsAt(toks, 0)).Some?)
    ensures r.Success? ==> r.value == GetPig(Parse(toks).value)
    ensures r.Success? ==> |r.value| == 4 && r.value[0] == Some(Register)
    ensures r.Success? ==>
      (r.value[2].Some? <==> exists k :: 0 <= k < |Parse(toks).value.cores| && Parse(toks).value.cores[k].whereExpr.Some?)
  {
    match Parse(toks)
    case Failure(e) => Failure(e)
    case Success(stmt) => Success(GetPig(stmt))
  }

  /** `PigGenerator(sql).get_pig()` as written: it fails exactly when the
      corrected translation does and otherwise always emits four statements. */
  function TranslateAsWritten(toks: seq<string>): (r: Result<seq<Option<string>>, ParseError>)
    requires Parse(toks).Success? ==> Printable(Parse(toks).value)
    ensures r.Failure? <==> Translate(toks).Failure?
    ensures r.Success? ==> r.value == GetPigAsWritten(Parse(toks).value)
    ensures r.Success? ==> |r.value| == 4 && r.value[2].Some? && r.value[3].Some?
  {
    match Parse(toks)
    case Failure(e) => Failure(e)
    case Success(stmt) => Success(GetPigAsWritten(stmt))
  }

  /** Where the `WHERE` keyword of the query's first core would stand:
      after the column list and the optional FROM clause. */
  function WhereAt(toks: seq<string>): (r: nat)
    requires Parse(toks).Success?
    ensures r <= |toks|
  {
    FromClause(toks, ColumnList(toks, ColumnsAt(toks, 0)).value.end).end
  }

  /** In a query of one core, `where_expr` is what that core's WHERE
      clause names. */
  lemma SingleCoreWhere(toks: seq<string>)
    requires Parse(toks).Success? && |Parse(toks).value.cores| == 1
    ensures WhereExpr(Parse(toks).value) == NamedValue(ExprClause(toks, WhereAt(toks), "WHERE").named)
  {
    var c := SelectCore(toks, 0).value;
    assert Parse(toks).value.cores[0] == c.core;
  }

  /** From the tokens to the FILTER text, for a query of one core with a
      WHERE clause whose keyword would stand at `f`: the keyword is there,
      `where_expr` is the first result of the expression after it, the
      FILTER condition is its atoms joined with spaces, and when that
      result is the expression's only one and a group, the atoms render,
      in order, the tokens of the expression: suppressed punctuation left
      out, caseless keywords upper-cased, string quotes removed, every
      other token verbatim. */
  lemma FilterRendersWhere(toks: seq<string>, f: nat)
    requires Parse(toks).Success? && Printable(Parse(toks).value)
    requires |Parse(toks).value.cores| == 1 && WhereExpr(Parse(toks).value).Some?
    requires f == WhereAt(toks)
    ensures f < |toks| && Lexical.IsKeyword(toks[f], "WHERE")
    ensures Expr(toks, f + 1).Some?
    ensures WhereExpr(Parse(toks).value).value == Expr(toks, f + 1).value.trees[0]
    ensures Translate(toks).Success?
    ensures Translate(toks).value[2] == Some("C = FILTER B BY " + Join(" ", Flatten(WhereExpr(Parse(toks).value).value)))
    ensures SingleGroup(Expr(toks, f + 1).value.trees) ==>
      TreeYields(WhereExpr(Parse(toks).value).value, toks, f + 1, Expr(toks, f + 1).value.end)
  {
    SingleCoreWhere(toks);
    assert WhereExpr(Parse(toks).value) == NamedValue(ExprClause(toks, f, "WHERE").named);
    GrammarFacts.ClauseValueRenders(toks, f, "WHERE");
    FilterOfQuery(toks);
  }

  /** A query whose statement has a WHERE expression translates, and its
      third statement filters B by that expression's atoms. */
  lemma FilterOfQuery(toks: seq<string>)
    requires Parse(toks).Success? && Printable(Parse(toks).value)
    requires WhereExpr(Parse(toks).value).Some?
    ensures Translate(toks).Success?
    ensures Translate(toks).value[2] == Some("C = FILTER B BY " + Join(" ", Flatten(WhereExpr(Parse(toks).value).value)))
  {
    var stmt := Parse(toks).value;
    assert Translate(toks).value == GetPig(stmt);
  }

  /** When `where_expr` is a bare string (a WHERE expression of one token),
      the FILTER condition spells it out character by character. */
  lemma FilterSpellsLeaf(toks: seq<string>, s: string)
    requires Parse(toks).Success? && Printable(Parse(toks).value)
    requires WhereExpr(Parse(toks).value) == Some(Leaf(s)) && |s| > 0
    ensures Translate(toks).Success? && Translate(toks).value[2].Some?
    ensures var c := Translate(toks).value[2].value;
      && FilterHead <= c && |c| == |FilterHead| + 2 * |s| - 1
      && forall k :: 0 <= k < |s| ==> c[|FilterHead| + 2 * k] == s[k]
  {
    FilterOfQuery(toks);
    FilterOfLeaf(s);
  }

  /** The FILTER text for a bare string spells the string out, one space
      between its characters. */
  lemma FilterOfLeaf(s: string)
    requires |s| > 0
    ensures var c := FilterHead + Join(" ", Flatten(Leaf(s)));
      && FilterHead <= c && |c| == |FilterHead| + 2 * |s| - 1
      && forall k :: 0 <= k < |s| ==> c[|FilterHead| + 2 * k] == s[k]
  {
    SpelledOut(s);
    var t := Join(" ", Flatten(Leaf(s)));
    var c := FilterHead + t;
    forall k | 0 <= k < |s|
      ensures c[|FilterHead| + 2 * k] == s[k]
    {
      assert c[|FilterHead| + 2 * k] == t[2 * k];
    }
  }

  /** The text of a FILTER statement before its condition. */
  const FilterHead: string := "C = FILTER B BY "
}

=== FILE: grammar.dfy ===
/** The recursive part of the SQL grammar (select_parser.py:42-114): the
    operator-precedence expression, `expr_term`, result columns, ordering
    terms, join sources, `select_core` and `select_stmt`. Expressions and
    statements refer to each other (`EXISTS (select ...)`, sub-selects in
    `FROM`), so these parsers form one mutually recursive group. Every
    recursive call either happens after a token has been consumed or goes
    to a parser of lower rank at the same position, which is what the
    `decreases` clauses state. */
module Grammar {
  import opened Wrappers
  import opened Trees
  import opened Lexical
  import opened ParseBase
  import opened Tokens
  import opened Statement

  /** An optional clause: what it consumed and the results it names. */
  datatype Clause = Clause(p: Parsed, named: Option<seq<Tree>>)

  /** The optional GROUP BY part of a core, with its optional HAVING
      expression. */
  datatype GroupPart = GroupPart(p: Parsed, terms: Option<seq<Tree>>, having: Option<seq<Tree>>)

  datatype CoreParse = CoreParse(p: Parsed, core: Core)

  datatype CoresParse = CoresParse(p: Parsed, cores: seq<Core>)

  datatype SelectParse = SelectParse(p: Parsed, stmt: Select)

  /** A name given to an expression holds the expression's first result,
      and is absent when the expression returned none. */
  function NamedValue(ts: Option<seq<Tree>>): (r: Option<Tree>)
    ensures r.Some? <==> ts.Some? && |ts.value| > 0
    ensures r.Some? ==> r.value == ts.value[0]
  {
    match ts
    case None => None
    case Some(t) => if |t| > 0 then Some(t[0]) else None
  }

  /** `expr` (select_parser.py:42, 72-84). */
  function Expr(toks: seq<string>, i: nat): (r: Option<Parsed>)
    requires i <= |toks|
    ensures Valid(toks, i, r)
    ensures r.Some? ==> i < r.value.end && |r.value.trees| > 0
    decreases |toks| - i, 13
  {
    Level(toks, i, Levels)
  }

  /** Row `k` of the operator table built over row `k - 1`; row 0 is an
      expression term or a parenthesised expression. A row whose operator
      does not follow returns the operand's results unchanged; otherwise the
      operand and every operator/operand pair after it form one group. */
  function Level(toks: seq<string>, i: nat, k: nat): (r: Option<Parsed>)
    requires i <= |toks| && k <= Levels
    ensures Valid(toks, i, r)
    ensures r.Some? ==> i < r.value.end && |r.value.trees| > 0
    decreases |toks| - i, k + 2
  {
    if k == 0 then
      First(toks, i, ExprTerm(toks, i), Parenthesised(toks, i))
    else
      var a :- Level(toks, i, k - 1);
      var more := match RowArity(k)
        case Unary => UnaryRun(toks, a.end)
        case Binary => BinaryRun(toks, a.end, k)
        case Ternary(_) => BetweenRest(toks, a.end);
      match more
      case None => Some(a)
      case Some(m) => Some(Grouped(toks, i, Then(toks, i, a, m)))
  }

  /** The second operand form: an expression between parentheses, which
      are not returned. */
  function Parenthesised(toks: seq<string>, i: nat): (r: Option<Parsed>)
    requires i <= |toks|
    ensures Valid(toks, i, r)
    ensures r.Some? ==> i < r.value.end && |r.value.trees| > 0
    decreases |toks| - i, 0
  {
    var l :- Punct(toks, i, "(");
    var e :- Extend(toks, i, l, Expr(toks, l.end));
    Extend(toks, i, e, Punct(toks, e.end, ")"))
  }

  /** Binary row `k` after its first operand: one or more pairs of an
      operator of the row and an operand of the row below. */
  function BinaryRun(toks: seq<string>, i: nat, k: nat): (r: Option<Parsed>)
    requires i <= |toks| && 1 <= k <= Levels
    ensures Valid(toks, i, r)
    ensures r.Some? ==> i < r.value.end
    decreases |toks| - i, 0
  {
    var o :- Operator(toks, i, k);
    var b :- Extend(toks, i, o, Level(toks, o.end, k - 1));
    Some(ExtendOpt(toks, i, b, BinaryRun(toks, b.end, k)))
  }

  /** The ternary row after its first operand (select_parser.py:83): BETWEEN,
      an operand, AND, an operand, where each operand is a whole row 9
      expression. */
  function BetweenRest(toks: seq<string>, i: nat): (r: Option<Parsed>)
    requires i <= |toks|
    ensures Valid(toks, i, r)
    ensures r.Some? ==> i < r.value.end
    decreases |toks| - i, 0
  {
    var b :- Operator(toks, i, Levels);
    var lo :- Extend(toks, i, b, Level(toks, b.end, Levels - 1));
    var a :- Extend(toks, i, lo, Keyword(toks, lo.end, "AND"));
    Extend(toks, i, a, Level(toks, a.end, Levels - 1))
  }

  /** `expr_term` (select_parser.py:59-69), alternatives in the order
      written. The last alternative, `expr` itself, re-enters the
      expression at the same position without consuming anything; it is
      read here as an alternative that fails. */
  function ExprTerm(toks: seq<string>, i: nat): (r: Option<Parsed>)
    requires i <= |toks|
    ensures Valid(toks, i, r)
    ensures r.Some? ==> i < r.value.end && |r.value.trees| > 0
    decreases |toks| - i, 1
  {
    First(toks, i, CastTerm(toks, i),
    First(toks, i, ExistsTerm(toks, i),
    First(toks, i, CountTerm(toks, i),
    First(toks, i, CallTerm(toks, i),
                   AtomTerm(toks, i)))))
  }

  /** A cast (select_parser.py:60): CAST, then an expression, AS and a type
      name in parentheses. */
  function CastTerm(toks: seq<string>, i: nat): (r: Option<Parsed>)
    requires i <= |toks|
    ensures Valid(toks, i, r)
    ensures r.Some? ==> i < r.value.end && |r.value.trees| > 0
    decreases |toks| - i, 0
  {
    var c :- Keyword(toks, i, "CAST");
    var l :- Extend(toks, i, c, Punct(toks, c.end, "("));
    var e :- Extend(toks, i, l, Expr(toks, l.end));
    var a :- Extend(toks, i, e, Keyword(toks, e.end, "AS"));
    var t :- Extend(toks, i, a, TypeName(toks, a.end));
    Extend(toks, i, t, Punct(toks, t.end, ")"))
  }

  /** An existence test (select_parser.py:61): EXISTS, then a whole
      statement in parentheses. */
  function ExistsTerm(toks: seq<string>, i: nat): (r: Option<Parsed>)
    requires i <= |toks|
    ensures Valid(toks, i, r)
    ensures r.Some? ==> i < r.value.end && |r.value.trees| > 0
    decreases |toks| - i, 0
  {
    var x :- Keyword(toks, i, "EXISTS");
    var l :- Extend(toks, i, x, Punct(toks, x.end, "("));
    var s :- Extend(toks, i, l, StmtPart(SelectStmt(toks, l.end)));
    Extend(toks, i, s, Punct(toks, s.end, ")"))
  }

  /** A function call (select_parser.py:63): a name, then zero or more
      comma-separated arguments in parentheses. The call's results are the
      name followed by the arguments' results. */
  function CallTerm(toks: seq<string>, i: nat): (r: Option<Parsed>)
    requires i <= |toks|
    ensures Valid(toks, i, r)
    ensures r.Some? ==> i < r.value.end && |r.value.trees| > 0
    decreases |toks| - i, 0
  {
    var f :- Ident(toks, i);
    var l :- Extend(toks, i, f, Punct(toks, f.end, "("));
    var args := ExtendOpt(toks, i, l, ExprList(toks, l.end));
    Extend(toks, i, args, Punct(toks, args.end, ")"))
  }

  /** One or more expressions separated by suppressed commas. */
  function ExprList(toks: seq<string>, i: nat): (r: Option<Parsed>)
    requires i <= |toks|
    ensures Valid(toks, i, r)
    ensures r.Some? ==> i < r.value.end
    decreases |toks| - i, 14
  {
    var e :- Expr(toks, i);
    match Punct(toks, e.end, ",")
    case None => Some(e)
    case Some(c) => Some(ExtendOpt(toks, i, e, Extend(toks, e.end, c, ExprList(toks, c.end))))
  }

  /** The tokens part of a statement parse. */
  function StmtPart(s: Option<SelectParse>): (r: Option<Parsed>)
    ensures r.Some? <==> s.Some?
    ensures r.Some? ==> r.value == s.value.p
  {
    match s
    case None => None
    case Some(sp) => Some(sp.p)
  }

  /** A result column that is an expression, followed by an optional alias
      (select_parser.py:105). */
  function WithAlias(toks: seq<string>, i: nat, e: Option<Parsed>): (r: Option<Parsed>)
    requires Valid(toks, i, e)
    ensures Valid(toks, i, r)
    ensures r.Some? <==> e.Some?
    ensures r.Some? ==> e.value.end <= r.value.end && |e.value.trees| <= |r.value.trees|
  {
    match e
    case None => None
    case Some(p) => Some(Then(toks, i, p, Alias(toks, p.end)))
  }

  /** All columns of one table (select_parser.py:105): a table name, a dot
      and a star, each returned. */
  function TableStar(toks: seq<string>, i: nat): (r: Option<Parsed>)
    ensures Valid(toks, i, r)
    ensures r.Some? ==> |r.value.trees| == 3
  {
    var t :- Ident(toks, i);
    var d :- Extend(toks, i, t, Literal(toks, t.end, "."));
    Extend(toks, i, d, Literal(toks, d.end, "*"))
  }

  /** `result_column` (select_parser.py:105). */
  function ResultColumn(toks: seq<string>, i: nat): (r: Option<Parsed>)
    requires i <= |toks|
    ensures Valid(toks, i, r)
    ensures r.Some? ==> i < r.value.end
    ensures r.Some? ==> |r.value.trees| > 0
    decreases |toks| - i, 14
  {
    First(toks, i, Literal(toks, i, "*"),
    First(toks, i, TableStar(toks, i),
                   WithAlias(toks, i, Expr(toks, i))))
  }

  /** One or more result columns separated by suppressed commas
      (select_parser.py:106). */
  function ColumnList(toks: seq<string>, i: nat): (r: Option<Parsed>)
    requires i <= |toks|
    ensures Valid(toks, i, r)
    ensures r.Some? ==> i < r.value.end
    ensures r.Some? ==> |r.value.trees| > 0
    decreases |toks| - i, 15
  {
    var c :- ResultColumn(toks, i);
    match Punct(toks, c.end, ",")
    case None => Some(c)
    case Some(m) => Some(ExtendOpt(toks, i, c, Extend(toks, c.end, m, ColumnList(toks, m.end))))
  }

  /** The third form of an ordering term (select_parser.py:89): an
      expression, an optional collation, an optional sort direction. */
  function Ordered(toks: seq<string>, i: nat, e: Option<Parsed>): (r: Option<Parsed>)
    requires Valid(toks, i, e)
    ensures Valid(toks, i, r)
    ensures r.Some? <==> e.Some?
    ensures r.Some? ==> |e.value.trees| <= |r.value.trees|
  {
    var p :- e;
    var collate := match Keyword(toks, p.end, "COLLATE")
      case None => None
      case Some(c) => Extend(toks, p.end, c, Ident(toks, c.end));
    var a := ExtendOpt(toks, i, p, collate);
    Some(ExtendOpt(toks, i, a, First(toks, a.end, Keyword(toks, a.end, "ASC"), Keyword(toks, a.end, "DESC"))))
  }

  /** `ordering_term` (select_parser.py:89). The first alternative is a bare
      identifier; the second, a comma-separated list of identifiers, starts with an
      identifier too and so can only match where the first already did. */
  function OrderingTerm(toks: seq<string>, i: nat): (r: Option<Parsed>)
    requires i <= |toks|
    ensures Valid(toks, i, r)
    ensures r.Some? ==> i < r.value.end
    ensures r.Some? ==> |r.value.trees| > 0
    decreases |toks| - i, 14
  {
    First(toks, i, Ident(toks, i), Ordered(toks, i, Expr(toks, i)))
  }

  /** One or more ordering terms separated by suppressed commas
      (select_parser.py:109, 113). */
  function OrderingList(toks: seq<string>, i: nat): (r: Option<Parsed>)
    requires i <= |toks|
    ensures Valid(toks, i, r)
    ensures r.Some? ==> i < r.value.end
    ensures r.Some? ==> |r.value.trees| > 0
    decreases |toks| - i, 15
  {
    var t :- OrderingTerm(toks, i);
    match Punct(toks, t.end, ",")
    case None => Some(t)
    case Some(m) => Some(ExtendOpt(toks, i, t, Extend(toks, t.end, m, OrderingList(toks, m.end))))
  }

  /** A join source (select_parser.py:102): one single source, then any
      number of joins. */
  function JoinSource(toks: seq<string>, i: nat): (r: Option<Parsed>)
    requires i <= |toks|
    ensures Valid(toks, i, r)
    ensures r.Some? ==> i < r.value.end
    decreases |toks| - i, 2
  {
    var s :- SingleSource(toks, i);
    Some(Then(toks, i, s, JoinRun(toks, s.end)))
  }

  /** The joins after the first source: each is a join operator, a single
      source and an optional constraint. */
  function JoinRun(toks: seq<string>, i: nat): (r: Parsed)
    requires i <= |toks|
    ensures ValidP(toks, i, r)
    decreases |toks| - i, 0
  {
    match JoinOp(toks, i)
    case None => Nothing(toks, i)
    case Some(op) =>
      match SingleSource(toks, op.end)
      case None => Nothing(toks, i)
      case Some(s) =>
        var a := Then(toks, i, op, s);
        var one := Then(toks, i, a, JoinConstraint(toks, a.end));
        Then(toks, i, one, JoinRun(toks, one.end))
  }

  /** An optional join constraint (select_parser.py:91): ON and an
      expression, or a USING column list. */
  function JoinConstraint(toks: seq<string>, i: nat): (r: Parsed)
    requires i <= |toks|
    ensures ValidP(toks, i, r)
    decreases |toks| - i, 0
  {
    var on := match Keyword(toks, i, "ON")
      case None => None
      case Some(o) => Extend(toks, i, o, Expr(toks, o.end));
    match First(toks, i, on, UsingColumns(toks, i))
    case None => Nothing(toks, i)
    case Some(c) => c
  }

  /** `single_source` (select_parser.py:96-100): a table, a parenthesised
      sub-select with an optional alias, or a parenthesised join source. */
  function SingleSource(toks: seq<string>, i: nat): (r: Option<Parsed>)
    requires i <= |toks|
    ensures Valid(toks, i, r)
    ensures r.Some? ==> i < r.value.end
    decreases |toks| - i, 1
  {
    First(toks, i, TableSource(toks, i),
    First(toks, i, SubSelect(toks, i), NestedJoin(toks, i)))
  }

  /** A sub-select as a source (select_parser.py:99): a statement in
      parentheses, then an optional alias. */
  function SubSelect(toks: seq<string>, i: nat): (r: Option<Parsed>)
    requires i <= |toks|
    ensures Valid(toks, i, r)
    ensures r.Some? ==> i < r.value.end
    decreases |toks| - i, 0
  {
    var l :- Punct(toks, i, "(");
    var s :- Extend(toks, i, l, StmtPart(SelectStmt(toks, l.end)));
    var c :- Extend(toks, i, s, Punct(toks, s.end, ")"));
    Some(Then(toks, i, c, Alias(toks, c.end)))
  }

  /** A nested join source in parentheses (select_parser.py:100). */
  function NestedJoin(toks: seq<string>, i: nat): (r: Option<Parsed>)
    requires i <= |toks|
    ensures Valid(toks, i, r)
    ensures r.Some? ==> i < r.value.end
    decreases |toks| - i, 0
  {
    var l :- Punct(toks, i, "(");
    var s :- Extend(toks, i, l, JoinSource(toks, l.end));
    Extend(toks, i, s, Punct(toks, s.end, ")"))
  }

  /** The optional FROM clause of a core (select_parser.py:107): FROM and a
      join source. */
  function FromClause(toks: seq<string>, i: nat): (r: Parsed)
    requires i <= |toks|
    ensures ValidP(toks, i, r)
    decreases |toks| - i, 0
  {
    match Keyword(toks, i, "FROM")
    case None => Nothing(toks, i)
    case Some(f) =>
      match Extend(toks, i, f, JoinSource(toks, f.end))
      case None => Nothing(toks, i)
      case Some(p) => p
  }

  /** An optional clause made of a keyword and an expression, as used for
      WHERE and HAVING (select_parser.py:108, 110): the expression's results
      are the named part. */
  function ExprClause(toks: seq<string>, i: nat, kw: string): (r: Clause)
    requires i <= |toks| && |kw| >= 2 && IsCaselessKeyword(kw)
    ensures ValidP(toks, i, r.p)
    ensures r.named.Some? <==> i < |toks| && IsKeyword(toks[i], kw) && Expr(toks, i + 1).Some?
    ensures r.named.Some? ==> r.named.value == Expr(toks, i + 1).value.trees && r.p.end == Expr(toks, i + 1).value.end
    ensures r.named.Some? ==> |r.named.value| > 0 && Yields(r.named.value, toks, i + 1, r.p.end)
    ensures r.named.None? ==> r.p.end == i
    decreases |toks| - i, 0
  {
    match Keyword(toks, i, kw)
    case None => Clause(Nothing(toks, i), None)
    case Some(k) =>
      match Expr(toks, k.end)
      case None => Clause(Nothing(toks, i), None)
      case Some(e) => Clause(Then(toks, i, k, e), Some(e.trees))
  }

  /** The optional grouping clause of a core (select_parser.py:109-110):
      GROUP BY and a list of ordering terms, grouped as one named element,
      then an optional HAVING clause. */
  function GroupClause(toks: seq<string>, i: nat): (r: GroupPart)
    requires i <= |toks|
    ensures ValidP(toks, i, r.p)
    ensures r.terms.Some? <==> i + 1 < |toks| && IsKeyword(toks[i], "GROUP") && IsKeyword(toks[i + 1], "BY")
                               && OrderingList(toks, i + 2).Some?
    ensures r.terms.Some? ==>
      var ts := OrderingList(toks, i + 2).value;
      && r.terms.value == ts.trees && |ts.trees| > 0 && Yields(ts.trees, toks, i + 2, ts.end)
      && r.having == ExprClause(toks, ts.end, "HAVING").named
      && r.p.end == ExprClause(toks, ts.end, "HAVING").p.end
    ensures r.terms.None? ==> r.having.None? && r.p.end == i
    decreases |toks| - i, 0
  {
    var head := match Keyword(toks, i, "GROUP")
      case None => None
      case Some(g) => Extend(toks, i, g, Keyword(toks, g.end, "BY"));
    match head
    case None => GroupPart(Nothing(toks, i), None, None)
    case Some(gb) =>
      match OrderingList(toks, gb.end)
      case None => GroupPart(Nothing(toks, i), None, None)
      case Some(ts) =>
        var a := Then(toks, i, gb, Grouped(toks, gb.end, ts));
        var h := ExprClause(toks, a.end, "HAVING");
        GroupPart(Then(toks, i, a, h.p), Some(ts.trees), h.named)
  }

  /** The optional ORDER BY clause of a statement (select_parser.py:113): the
      two keywords and a list of ordering terms, grouped as one named
      element. */
  function OrderByClause(toks: seq<string>, i: nat): (r: Clause)
    requires i <= |toks|
    ensures ValidP(toks, i, r.p)
    ensures r.named.Some? <==> i + 1 < |toks| && IsKeyword(toks[i], "ORDER") && IsKeyword(toks[i + 1], "BY")
                               && OrderingList(toks, i + 2).Some?
    ensures r.named.Some? ==>
      var ts := OrderingList(toks, i + 2).value;
      r.named.value == ts.trees && |ts.trees| > 0 && r.p.end == ts.end && Yields(ts.trees, toks, i + 2, ts.end)
    ensures r.named.None? ==> r.p.end == i
    decreases |toks| - i, 0
  {
    var head := match Keyword(toks, i, "ORDER")
      case None => None
      case Some(o) => Extend(toks, i, o, Keyword(toks, o.end, "BY"));
    match head
    case None => Clause(Nothing(toks, i), None)
    case Some(ob) =>
      match OrderingList(toks, ob.end)
      case None => Clause(Nothing(toks, i), None)
      case Some(ts) => Clause(Then(toks, i, ob, Grouped(toks, ob.end, ts)), Some(ts.trees))
  }

  /** Where the result columns of a core starting at `i` begin: after
      `SELECT` and an optional `DISTINCT` or `ALL`. */
  function ColumnsAt(toks: seq<string>, i: nat): (r: nat)
    requires i < |toks|
    ensures i < r <= |toks|
  {
    if i + 1 < |toks| && (IsKeyword(toks[i + 1], "DISTINCT") || IsKeyword(toks[i + 1], "ALL")) then i + 2 else i + 1
  }

  /** `select_core` (select_parser.py:106-110), parts in the order written:
      the named parts are the column list, the expression after `WHERE`,
      the terms after `GROUP BY` and the expression after `HAVING`, each
      clause starting where the one before it stopped. */
  function SelectCore(toks: seq<string>, i: nat): (r: Option<CoreParse>)
    requires i <= |toks|
    ensures r.Some? ==> ValidP(toks, i, r.value.p) && i < r.value.p.end
    ensures r.Some? <==> i < |toks| && IsKeyword(toks[i], "SELECT") && ColumnList(toks, ColumnsAt(toks, i)).Some?
    ensures r.Some? ==>
      var cols := ColumnList(toks, ColumnsAt(toks, i)).value;
      var w := ExprClause(toks, FromClause(toks, cols.end).end, "WHERE");
      var g := GroupClause(toks, w.p.end);
      && r.value.core.columns == cols.trees && |cols.trees| > 0
      && r.value.core.whereExpr == NamedValue(w.named)
      && r.value.core.groupTerms == g.terms
      && r.value.core.havingExpr == NamedValue(g.having)
      && r.value.p.end == g.p.end
    decreases |toks| - i, 0
  {
    var s :- Keyword(toks, i, "SELECT");
    var m := ExtendOpt(toks, i, s, First(toks, s.end, Keyword(toks, s.end, "DISTINCT"), Keyword(toks, s.end, "ALL")));
    var cols :- ColumnList(toks, m.end);
    var a := Then(toks, i, m, Grouped(toks, m.end, cols));
    var b := Then(toks, i, a, FromClause(toks, a.end));
    var w := ExprClause(toks, b.end, "WHERE");
    var c := Then(toks, i, b, w.p);
    var g := GroupClause(toks, c.end);
    Some(CoreParse(Then(toks, i, c, g.p), Core(cols.trees, NamedValue(w.named), g.terms, NamedValue(g.having))))
  }

  /** The cores after the first (select_parser.py:112): any number of
      compound operators, each followed by a core. */
  function CompoundRun(toks: seq<string>, i: nat): (r: CoresParse)
    requires i <= |toks|
    ensures ValidP(toks, i, r.p)
    ensures r.cores == [] <==> r.p.end == i
    ensures r.cores != [] ==>
      && CompoundOp(toks, i).Some? && SelectCore(toks, CompoundOp(toks, i).value.end).Some?
      && r.cores[0] == SelectCore(toks, CompoundOp(toks, i).value.end).value.core
    decreases |toks| - i, 0
  {
    match CompoundOp(toks, i)
    case None => CoresParse(Nothing(toks, i), [])
    case Some(op) =>
      match SelectCore(toks, op.end)
      case None => CoresParse(Nothing(toks, i), [])
      case Some(c) =>
        var one := Then(toks, i, op, c.p);
        var rest := CompoundRun(toks, one.end);
        CoresParse(Then(toks, i, one, rest.p), [c.core] + rest.cores)
  }

  /** `select_stmt` (select_parser.py:112-114). */
  function SelectStmt(toks: seq<string>, i: nat): (r: Option<SelectParse>)
    requires i <= |toks|
    ensures r.Some? ==> ValidP(toks, i, r.value.p) && i < r.value.p.end
    ensures r.Some? <==> SelectCore(toks, i).Some?
    ensures r.Some? ==>
      var c := SelectCore(toks, i).value;
      var more := CompoundRun(toks, c.p.end);
      var ob := OrderByClause(toks, more.p.end);
      && r.value.stmt.cores == [c.core] + more.cores
      && r.value.stmt.orderByTerms == ob.named
      && (r.value.stmt.limitTerms.Some? <==> LimitClause(toks, ob.p.end).Some?)
      && (r.value.stmt.limitTerms.Some? ==> r.value.stmt.limitTerms.value == LimitClause(toks, ob.p.end).value.trees)
    ensures r.Some? ==> |r.value.stmt.cores| > 0
    decreases |toks| - i, 1
  {
    var c :- SelectCore(toks, i);
    var more := CompoundRun(toks, c.p.end);
    var a := Then(toks, i, c.p, more.p);
    var ob := OrderByClause(toks, a.end);
    var b := Then(toks, i, a, ob.p);
    var lim := ExtendOpt(toks, i, b, LimitClause(toks, b.end));
    var limitTerms := match LimitClause(toks, b.end)
      case None => None
      case Some(l) => Some(l.trees);
    Some(SelectParse(lim, Select([c.core] + more.cores, ob.named, limitTerms)))
  }
}

=== FILE: grammar_facts.dfy ===
/** Consequences of the expression and statement grammar: how a row of the
    operator table passes its operand through, the shapes the table gives
    to common expressions, and which alternative of an ordered choice wins. */
module GrammarFacts {
  import opened Wrappers
  import opened Trees
  import opened Lexical
  import opened ParseBase
  import opened Tokens
  import opened Grammar
  import LexicalFacts

  /** No operator of table row `k` starts at position `j`. */
  predicate NoOperator(toks: seq<string>, j: nat, k: nat)
    requires 1 <= k <= Levels
  {
    j >= |toks| || LevelOp(k, toks[j]).None?
  }

  /** What row `k` tries after its operand ends at `j`. */
  function RowRest(toks: seq<string>, j: nat, k: nat): (r: Option<Parsed>)
    requires j <= |toks| && 1 <= k <= Levels
    ensures Valid(toks, j, r)
  {
    match RowArity(k)
    case Unary => UnaryRun(toks, j)
    case Binary => BinaryRun(toks, j, k)
    case Ternary(_) => BetweenRest(toks, j)
  }

  /** Row `k` in terms of its operand and what follows it. */
  lemma LevelUnfold(toks: seq<string>, i: nat, k: nat)
    requires i <= |toks| && 1 <= k <= Levels
    requires Level(toks, i, k - 1).Some?
    ensures var a := Level(toks, i, k - 1).value;
      Level(toks, i, k) == match RowRest(toks, a.end, k)
        case None => Some(a)
        case Some(m) => Some(Grouped(toks, i, Then(toks, i, a, m)))
  {
  }

  /** A row's result ends within the input. */
  lemma LevelEnd(toks: seq<string>, i: nat, k: nat)
    requires i <= |toks| && k <= Levels
    ensures Level(toks, i, k).Some? ==> Level(toks, i, k).value.end <= |toks|
  {
  }

  /** Row `k` returns its operand when nothing of the row follows it. */
  lemma LevelPass(toks: seq<string>, i: nat, k: nat, a: Parsed)
    requires i <= |toks| && k < Levels
    requires Level(toks, i, k) == Some(a)
    requires a.end <= |toks| && RowRest(toks, a.end, k + 1).None?
    ensures Level(toks, i, k + 1) == Some(a)
  {
  }

  /** Row `k` fails where the row below it fails. */
  lemma LevelFail(toks: seq<string>, i: nat, k: nat)
    requires i <= |toks| && k < Levels
    requires Level(toks, i, k).None?
    ensures Level(toks, i, k + 1).None?
  {
  }

  /** Without an operator of the row nothing follows the operand. */
  lemma NoRowRest(toks: seq<string>, j: nat, k: nat)
    requires j <= |toks| && 1 <= k <= Levels
    requires NoOperator(toks, j, k)
    ensures RowRest(toks, j, k).None?
  {
    if k == Levels {
      assert BetweenRest(toks, j).None?;
    } else if k == 1 {
      assert UnaryRun(toks, j).None?;
    } else {
      assert BinaryRun(toks, j, k).None?;
    }
  }

  /** No operator of rows 1 to `k` starts at position `j`. */
  predicate NoOperatorUpTo(toks: seq<string>, j: nat, k: nat)
    requires k <= Levels
  {
    forall r :: 0 < r <= k ==> NoOperator(toks, j, r)
  }

  /** No operator of rows `lo + 1` to `hi` starts at position `j`, row by row. */
  predicate NoOperatorIn(toks: seq<string>, j: nat, lo: nat, hi: nat)
    requires lo <= hi <= Levels
    decreases hi - lo
  {
    lo == hi || (NoOperator(toks, j, lo + 1) && NoOperatorIn(toks, j, lo + 1, hi))
  }

  /** The row-by-row form of `NoOperatorUpTo`. */
  lemma {:induction false} NoOperatorUpToIn(toks: seq<string>, j: nat, lo: nat, hi: nat)
    requires lo <= hi <= Levels && NoOperatorUpTo(toks, j, hi)
    ensures NoOperatorIn(toks, j, lo, hi)
    decreases hi - lo
  {
    if lo < hi {
      NoOperatorUpToIn(toks, j, lo + 1, hi);
    }
  }

  /** A row returns its operand unchanged when none of its operators
      follows; so an operand ending at `j` and followed by no operator of
      the rows `lo + 1` to `hi` is the result of row `hi` as well. */
  lemma {:induction false} PassThrough(toks: seq<string>, i: nat, lo: nat, hi: nat, a: Parsed)
    requires i <= |toks| && lo <= hi <= Levels
    requires Level(toks, i, lo) == Some(a)
    requires NoOperatorIn(toks, a.end, lo, hi)
    ensures Level(toks, i, hi) == Some(a)
    decreases hi - lo, 1
  {
    if lo < hi {
      PassRest(toks, i, lo, hi, a);
    }
  }

  /** The step of `PassThrough` when rows remain: row `lo + 1` passes the
      operand on, and the rows above it do too. */
  lemma {:induction false} PassRest(toks: seq<string>, i: nat, lo: nat, hi: nat, a: Parsed)
    requires i <= |toks| && lo < hi <= Levels
    requires Level(toks, i, lo) == Some(a)
    requires NoOperatorIn(toks, a.end, lo, hi)
    ensures Level(toks, i, hi) == Some(a)
    decreases hi - lo, 0
  {
    PassOne(toks, i, lo, a);
    PassThrough(toks, i, lo + 1, hi, a);
  }

  /** `PassThrough` with the rows stated all at once. */
  lemma PassUpTo(toks: seq<string>, i: nat, lo: nat, hi: nat, a: Parsed)
    requires i <= |toks| && lo <= hi <= Levels
    requires Level(toks, i, lo) == Some(a)
    requires NoOperatorUpTo(toks, a.end, hi)
    ensures Level(toks, i, hi) == Some(a)
  {
    NoOperatorUpToIn(toks, a.end, lo, hi);
    PassThrough(toks, i, lo, hi, a);
  }

  /** One row without its operator returns the operand. */
  lemma PassOne(toks: seq<string>, i: nat, k: nat, a: Parsed)
    requires i <= |toks| && k < Levels
    requires Level(toks, i, k) == Some(a)
    requires NoOperator(toks, a.end, k + 1)
    ensures Level(toks, i, k + 1) == Some(a)
  {
    LevelEnd(toks, i, k);
    NoRowRest(toks, a.end, k + 1);
    LevelPass(toks, i, k, a);
  }

  /** `BinaryStep` for three single tokens `x op y`: the group holds the
      two operands and the row's operator spelling. */
  lemma BinaryLeaves(toks: seq<string>, i: nat, k: nat, op: string)
    requires i + 3 <= |toks| && 1 <= k < Levels - 1
    requires Level(toks, i, k) == Some(Parsed([Leaf(toks[i])], i + 1))
    requires LevelOp(k + 1, toks[i + 1]) == Some(op)
    requires Level(toks, i + 2, k) == Some(Parsed([Leaf(toks[i + 2])], i + 3))
    requires NoOperator(toks, i + 3, k + 1)
    ensures Level(toks, i, k + 1) == Some(Parsed([Node([Leaf(toks[i]), Leaf(op), Leaf(toks[i + 2])])], i + 3))
  {
    var parts := [Leaf(toks[i]), Leaf(op), Leaf(toks[i + 2])];
    assert parts == [Leaf(toks[i])] + ([Leaf(op)] + [Leaf(toks[i + 2])]);
    BinaryStep(toks, i, k, Parsed([Leaf(toks[i])], i + 1), op, Parsed([Leaf(toks[i + 2])], i + 3), parts);
  }

  /** One application of binary row `k + 1`: operand, operator, operand,
      and no further operator of that row, form one group of three parts. */
  lemma BinaryStep(toks: seq<string>, i: nat, k: nat, a: Parsed, op: string, b: Parsed, parts: seq<Tree>)
    requires i <= |toks| && 1 <= k < Levels - 1
    requires Level(toks, i, k) == Some(a)
    requires a.end < |toks| && LevelOp(k + 1, toks[a.end]) == Some(op)
    requires Level(toks, a.end + 1, k) == Some(b)
    requires NoOperator(toks, b.end, k + 1)
    requires parts == a.trees + ([Leaf(op)] + b.trees)
    ensures Level(toks, i, k + 1) == Some(Parsed([Node(parts)], b.end))
  {
    BinaryRunOnce(toks, a.end, k, op, b);
    LevelGroup(toks, i, k, a, Parsed([Leaf(op)] + b.trees, b.end), parts);
  }

  /** Row `k + 1` when its operator follows the operand: one group. */
  lemma LevelGroup(toks: seq<string>, i: nat, k: nat, a: Parsed, m: Parsed, parts: seq<Tree>)
    requires i <= |toks| && k < Levels
    requires Level(toks, i, k) == Some(a)
    requires a.end <= |toks| && RowRest(toks, a.end, k + 1) == Some(m)
    requires parts == a.trees + m.trees
    ensures Level(toks, i, k + 1) == Some(Parsed([Node(parts)], m.end))
  {
  }

  /** The rows between the first and the last are binary. */
  lemma RowRestIsBinary(toks: seq<string>, j: nat, k: nat)
    requires j <= |toks| && 1 < k < Levels
    ensures RowRest(toks, j, k) == BinaryRun(toks, j, k)
  {
  }

  /** Binary row `k + 1` after its operator and right operand: the pair,
      then whatever further pairs follow, without nesting. */
  lemma BinaryHead(toks: seq<string>, j: nat, k: nat, op: string, b: Parsed)
    requires j < |toks| && 1 <= k < Levels - 1
    requires LevelOp(k + 1, toks[j]) == Some(op)
    requires Level(toks, j + 1, k) == Some(b)
    ensures b.end <= |toks|
    ensures BinaryRun(toks, b.end, k + 1).None? ==>
      BinaryRun(toks, j, k + 1) == Some(Parsed([Leaf(op)] + b.trees, b.end))
    ensures BinaryRun(toks, b.end, k + 1).Some? ==>
      BinaryRun(toks, j, k + 1) == Some(Parsed([Leaf(op)] + b.trees + BinaryRun(toks, b.end, k + 1).value.trees,
                                               BinaryRun(toks, b.end, k + 1).value.end))
  {
    var o := Operator(toks, j, k + 1);
    assert o == Some(Parsed([Leaf(op)], j + 1));
    var e := Extend(toks, j, o.value, Level(toks, j + 1, k));
    assert e == Some(Parsed([Leaf(op)] + b.trees, b.end));
  }

  /** The operator/operand pairs of binary row `k + 1` when there is
      exactly one. */
  lemma BinaryRunOnce(toks: seq<string>, j: nat, k: nat, op: string, b: Parsed)
    requires j < |toks| && 1 <= k < Levels - 1
    requires LevelOp(k + 1, toks[j]) == Some(op)
    requires Level(toks, j + 1, k) == Some(b)
    requires NoOperator(toks, b.end, k + 1)
    ensures RowRest(toks, j, k + 1) == Some(Parsed([Leaf(op)] + b.trees, b.end))
  {
    BinaryHead(toks, j, k, op, b);
    NoRowRest(toks, b.end, k + 1);
    RowRestIsBinary(toks, b.end, k + 1);
    RowRestIsBinary(toks, j, k + 1);
  }

  /** Binary row `k + 1` with a further operator/operand pair after the
      first: the pairs concatenate, without nesting. */
  lemma BinaryRunMore(toks: seq<string>, j: nat, k: nat, op: string, b: Parsed, m: Parsed, parts: seq<Tree>)
    requires j < |toks| && 1 <= k < Levels - 1
    requires LevelOp(k + 1, toks[j]) == Some(op)
    requires Level(toks, j + 1, k) == Some(b)
    requires b.end <= |toks| && RowRest(toks, b.end, k + 1) == Some(m)
    requires parts == [Leaf(op)] + b.trees + m.trees
    ensures RowRest(toks, j, k + 1) == Some(Parsed(parts, m.end))
  {
    BinaryHead(toks, j, k, op, b);
    RowRestIsBinary(toks, b.end, k + 1);
    RowRestIsBinary(toks, j, k + 1);
  }

  /** A failed operand stays failed through every row of the table. */
  lemma NoOperandNoLevel(toks: seq<string>, i: nat, k: nat)
    requires i <= |toks| && k <= Levels
    requires Level(toks, i, 0).None?
    ensures Level(toks, i, k).None?
  {
    var j := 0;
    while j < k
      invariant j <= k && Level(toks, i, j).None?
    {
      LevelFail(toks, i, j);
      j := j + 1;
    }
  }

  /** An identifier not followed by `(` is an operand on its own. */
  lemma IdentOperand(toks: seq<string>, i: nat)
    requires i < |toks| && IsIdentifier(toks[i])
    requires i + 1 == |toks| || toks[i + 1] != "("
    ensures Level(toks, i, 0) == Some(Parsed([Leaf(toks[i])], i + 1))
  {
    var t := toks[i];
    LexicalFacts.IdentifierIsNoLiteral(t);
    assert !IsKeyword(t, "CAST") && !IsKeyword(t, "EXISTS") && !IsKeyword(t, "COUNT");
    assert !IsKeyword(t, "NULL") && !IsKeyword(t, "NOT");
    assert !IsKeyword(t, "CURRENT_TIME") && !IsKeyword(t, "CURRENT_DATE") && !IsKeyword(t, "CURRENT_TIMESTAMP");
    assert LiteralValue(toks, i).None?;
    assert ExprTerm(toks, i) == Some(Parsed([Leaf(t)], i + 1));
  }

  /** A numeric literal is an operand on its own. */
  lemma NumberOperand(toks: seq<string>, i: nat)
    requires i < |toks| && IsNumeric(toks[i])
    ensures Level(toks, i, 0) == Some(Parsed([Leaf(toks[i])], i + 1))
  {
    var t := toks[i];
    LexicalFacts.NumericStartsWithDigit(t);
    assert Upper(t)[0] == t[0];
    assert !IsKeyword(t, "CAST") && !IsKeyword(t, "EXISTS") && !IsKeyword(t, "COUNT");
    assert Ident(toks, i).None?;
    assert LiteralValue(toks, i) == Some(Parsed([Leaf(t)], i + 1));
    assert ExprTerm(toks, i) == Some(Parsed([Leaf(t)], i + 1));
  }

  /** The operand form of a lone token: an identifier not followed by `(`,
      or a numeric literal. */
  predicate Operand(toks: seq<string>, i: nat)
  {
    && i < |toks|
    && ((IsIdentifier(toks[i]) && (i + 1 == |toks| || toks[i + 1] != "(")) || IsNumeric(toks[i]))
  }

  /** A lone operand followed by no operator of rows 1 to `k` is the
      result of every row up to `k`. */
  lemma LoneOperand(toks: seq<string>, i: nat, k: nat)
    requires Operand(toks, i) && k <= Levels
    requires NoOperatorUpTo(toks, i + 1, k)
    ensures Level(toks, i, k) == Some(Parsed([Leaf(toks[i])], i + 1))
  {
    if IsNumeric(toks[i]) {
      NumberOperand(toks, i);
    } else {
      IdentOperand(toks, i);
    }
    NoOperatorUpToIn(toks, i + 1, 0, k);
    PassThrough(toks, i, 0, k, Parsed([Leaf(toks[i])], i + 1));
  }

  /** `ordering_term` tries the bare identifier first, so an identifier
      is a whole ordering term on its own: a following `ASC`, `DESC` or
      `COLLATE` is not taken by the term. */
  lemma OrderingTermIdentFirst(toks: seq<string>, i: nat)
    requires i < |toks| && IsIdentifier(toks[i])
    ensures OrderingTerm(toks, i) == Some(Parsed([Leaf(toks[i])], i + 1))
  {
  }

  /** `ORDER BY a DESC`: the ordering list is `a` alone and the clause
      ends before `DESC`. */
  lemma DescendingNotTaken(toks: seq<string>, i: nat)
    requires i + 3 < |toks| && IsKeyword(toks[i], "ORDER") && IsKeyword(toks[i + 1], "BY")
    requires IsIdentifier(toks[i + 2]) && IsKeyword(toks[i + 3], "DESC")
    ensures OrderByClause(toks, i).named == Some([Leaf(toks[i + 2])])
    ensures OrderByClause(toks, i).p.end == i + 3
  {
    OrderingTermIdentFirst(toks, i + 2);
    assert Punct(toks, i + 3, ",").None?;
  }

  /** A WHERE (or HAVING) clause at `f` that names a value: the keyword
      stands at `f`, the value is the first result of the expression after
      it, and when that result is the expression's only one and a group,
      its atoms are, in order, the expression's tokens as the grammar
      renders them. */
  lemma ClauseValueRenders(toks: seq<string>, f: nat, kw: string)
    requires f <= |toks| && |kw| >= 2 && IsCaselessKeyword(kw)
    requires NamedValue(ExprClause(toks, f, kw).named).Some?
    ensures f < |toks| && IsKeyword(toks[f], kw) && Expr(toks, f + 1).Some?
    ensures NamedValue(ExprClause(toks, f, kw).named).value == Expr(toks, f + 1).value.trees[0]
    ensures SingleGroup(Expr(toks, f + 1).value.trees) ==>
      TreeYields(Expr(toks, f + 1).value.trees[0], toks, f + 1, Expr(toks, f + 1).value.end)
  {
    var e := Expr(toks, f + 1).value;
    if |e.trees| == 1 && e.trees[0].Node? {
      var kids := e.trees[0].kids;
      assert e.trees == [Node(kids)];
      FlattenGroup(kids);
    }
  }

  /** At the end of the input no further core, ORDER BY or LIMIT follows. */
  lemma NothingAtEnd(toks: seq<string>)
    ensures CompoundRun(toks, |toks|).cores == [] && CompoundRun(toks, |toks|).p.end == |toks|
    ensures OrderByClause(toks, |toks|).named.None? && OrderByClause(toks, |toks|).p.end == |toks|
    ensures LimitClause(toks, |toks|).None?
  {
    assert CompoundOp(toks, |toks|).None?;
  }
}

=== FILE: group_query.dfy ===
/** The grouping query `select a, d from b where c = 1 group by d`, taken
    through the parser and the translator: the statement has one core with
    columns `a` and `d`, the comparison `c = 1` as its WHERE expression and
    `d` as its grouping term; the translation filters B by `c = 1` and
    groups C by `(d)`. */
module GroupQuery {
  import opened Wrappers
  import opened Trees
  import opened Lexical
  import opened ParseBase
  import opened Tokens
  import opened Statement
  import opened Grammar
  import opened GrammarFacts
  import opened Translator
  import opened Script
  import opened Driver
  import LexicalFacts
  import Query
  import PlainQuery

  /** The query's tokens. */
  predicate IsGroupQuery(toks: seq<string>)
  {
    toks == ["select", "a", ",", "d", "from", "b", "where", "c", "=", "1", "group", "by", "d"]
  }

  /** The query token by token. */
  lemma Spelling(toks: seq<string>)
    requires IsGroupQuery(toks)
    ensures |toks| == 13 && toks[0] == "select" && toks[1] == "a" && toks[2] == "," && toks[3] == "d"
    ensures toks[4] == "from" && toks[5] == "b" && toks[6] == "where" && toks[7] == "c" && toks[8] == "="
    ensures toks[9] == "1" && toks[10] == "group" && toks[11] == "by" && toks[12] == "d"
  {
  }

  /** The parsed comparison `c = 1`. */
  function Equality(): Tree
  {
    Node([Leaf("c"), Leaf("="), Leaf("1")])
  }

  /** Neither `,` nor the clause keywords `from`, `where` and `group` is an
      operator of any row of the table. */
  lemma StopIsNoOperator(toks: seq<string>, j: nat)
    requires j < |toks| && toks[j] in {",", "from", "where", "group"}
    ensures NoOperatorUpTo(toks, j, Levels)
  {
    LexicalFacts.QuerySpellings();
  }

  /** `=` belongs to row 7 only. */
  lemma EqualsRow()
    ensures LevelOp(7, "=") == Some("=")
    ensures NoOperatorUpTo(["="], 0, 6)
  {
    LexicalFacts.QuerySpellings();
  }

  /** The single letters of the query are identifiers. */
  lemma Letters()
    ensures IsIdentifier("a") && IsIdentifier("b") && IsIdentifier("c") && IsIdentifier("d")
  {
    LexicalFacts.LetterIsIdentifier('a');
    LexicalFacts.LetterIsIdentifier('b');
    LexicalFacts.LetterIsIdentifier('c');
    LexicalFacts.LetterIsIdentifier('d');
  }

  /** A single identifier followed by a token that stops every row is a
      whole result column. */
  lemma LoneColumn(toks: seq<string>, i: nat)
    requires i + 1 < |toks| && IsIdentifier(toks[i])
    requires toks[i + 1] != "(" && toks[i + 1] != "." && NoOperatorUpTo(toks, i + 1, Levels)
    requires !IsIdentifier(toks[i + 1]) && !IsKeyword(toks[i + 1], "AS")
    ensures ResultColumn(toks, i) == Some(Parsed([Leaf(toks[i])], i + 1))
  {
    LoneOperand(toks, i, Levels);
    assert TableStar(toks, i).None?;
    assert Alias(toks, i + 1) == Parsed([], i + 1);
    assert [Leaf(toks[i])] + [] == [Leaf(toks[i])];
  }

  /** The second column `d`, which `from` ends. */
  lemma SecondColumn(toks: seq<string>)
    requires IsGroupQuery(toks)
    ensures ColumnList(toks, 3) == Some(Parsed([Leaf("d")], 4))
  {
    Spelling(toks);
    Letters();
    PlainQuery.ClauseWordIsNoOperator(toks, 4);
    assert !IsKeyword(toks[4], "AS") by {
      LexicalFacts.QuerySpellings();
    }
    LoneColumn(toks, 3);
  }

  /** The result columns `a` and `d`. */
  lemma ColumnsOfGroup(toks: seq<string>)
    requires IsGroupQuery(toks)
    ensures ColumnList(toks, 1) == Some(Parsed([Leaf("a"), Leaf("d")], 4))
  {
    Spelling(toks);
    Letters();
    LexicalFacts.QuerySpellings();
    StopIsNoOperator(toks, 2);
    LoneColumn(toks, 1);
    SecondColumn(toks);
    CommaColumn(toks, 1);
  }

  /** A lone column followed by a comma and one more column: the comma is
      dropped and the two columns are kept in order. */
  lemma CommaColumn(toks: seq<string>, i: nat)
    requires i + 2 < |toks| && toks[i + 1] == ","
    requires ResultColumn(toks, i) == Some(Parsed([Leaf(toks[i])], i + 1))
    requires ColumnList(toks, i + 2) == Some(Parsed([Leaf(toks[i + 2])], i + 3))
    ensures ColumnList(toks, i) == Some(Parsed([Leaf(toks[i]), Leaf(toks[i + 2])], i + 3))
  {
    var m := Punct(toks, i + 1, ",").value;
    assert m.trees == [] && m.end == i + 2;
    assert [Leaf(toks[i])] + ([] + [Leaf(toks[i + 2])]) == [Leaf(toks[i]), Leaf(toks[i + 2])];
  }

  /** `b` is a plain table name: no `.`, no alias, no index hint. */
  lemma TableOfGroup(toks: seq<string>)
    requires IsGroupQuery(toks)
    ensures TableSource(toks, 5) == Some(Parsed([Leaf("b")], 6))
  {
    Spelling(toks);
    Letters();
    LexicalFacts.QuerySpellings();
    PlainQuery.ClauseWordIsNoOperator(toks, 6);
    assert TableRef(toks, 5) == Some(Parsed([Leaf("b")], 6));
    assert Alias(toks, 6) == Parsed([], 6);
    assert IndexHint(toks, 6) == Parsed([], 6);
    assert [Leaf("b")] + [] == [Leaf("b")];
  }

  /** No join starts at a `WHERE` keyword. */
  lemma NoJoinBefore(toks: seq<string>, i: nat)
    requires i < |toks| && Upper(toks[i]) == "WHERE"
    ensures JoinRun(toks, i) == Parsed([], i)
  {
    assert JoinKind(toks, i).None?;
    assert JoinOp(toks, i).None?;
  }

  /** `from b` is the table alone and stops before `where`. */
  lemma FromOfGroup(toks: seq<string>)
    requires IsGroupQuery(toks)
    ensures FromClause(toks, 4).end == 6
  {
    Spelling(toks);
    TableOfGroup(toks);
    LexicalFacts.QuerySpellings();
    NoJoinBefore(toks, 6);
    assert [Leaf("b")] + [] == [Leaf("b")];
    assert JoinSource(toks, 5) == Some(Parsed([Leaf("b")], 6));
    Query.FromEnd(toks, 4, Parsed([Leaf("b")], 6));
  }

  /** `c = 1`, followed by `group`, is one group of its three tokens. */
  lemma EqualityExpr(toks: seq<string>)
    requires IsGroupQuery(toks)
    ensures Expr(toks, 7) == Some(Parsed([Equality()], 10))
  {
    Spelling(toks);
    EqualityRow(toks);
    StopIsNoOperator(toks, 10);
    PassUpTo(toks, 7, 7, Levels, Parsed([Equality()], 10));
  }

  lemma EqualityRow(toks: seq<string>)
    requires IsGroupQuery(toks)
    ensures Level(toks, 7, 7) == Some(Parsed([Equality()], 10))
  {
    Spelling(toks);
    Letters();
    EqualsRow();
    assert NoOperatorUpTo(toks, 8, 6) by {
      assert toks[8] == "=";
      LexicalFacts.QuerySpellings();
    }
    LoneOperand(toks, 7, 6);
    assert IsNumeric("1");
    StopIsNoOperator(toks, 10);
    LoneOperand(toks, 9, 6);
    BinaryLeaves(toks, 7, 6, "=");
  }

  /** `where c = 1` names the comparison and stops before `group`. */
  lemma WhereOfGroup(toks: seq<string>)
    requires IsGroupQuery(toks)
    ensures ExprClause(toks, 6, "WHERE").named == Some([Equality()])
    ensures ExprClause(toks, 6, "WHERE").p.end == 10
  {
    Spelling(toks);
    EqualityExpr(toks);
    LexicalFacts.QuerySpellings();
    assert Keyword(toks, 6, "WHERE") == Some(Parsed([Leaf("WHERE")], 7));
  }

  /** `group by d` names the one term `d` and ends the input, with no
      HAVING clause. */
  lemma GroupOfGroup(toks: seq<string>)
    requires IsGroupQuery(toks)
    ensures GroupClause(toks, 10).terms == Some([Leaf("d")])
    ensures GroupClause(toks, 10).having.None?
    ensures GroupClause(toks, 10).p.end == 13
  {
    Spelling(toks);
    Letters();
    LexicalFacts.QuerySpellings();
    OrderingTermIdentFirst(toks, 12);
    assert OrderingList(toks, 12) == Some(Parsed([Leaf("d")], 13));
    assert ExprClause(toks, 13, "HAVING").named.None?;
  }

  /** The one core: columns `a` and `d`, the comparison as `where_expr`,
      `d` as the grouping term, no HAVING expression. */
  lemma CoreOfGroup(toks: seq<string>)
    requires IsGroupQuery(toks)
    ensures SelectCore(toks, 0).Some?
    ensures SelectCore(toks, 0).value.core == Core([Leaf("a"), Leaf("d")], Some(Equality()), Some([Leaf("d")]), None)
    ensures SelectCore(toks, 0).value.p.end == 13
  {
    Spelling(toks);
    LexicalFacts.QuerySpellings();
    assert ColumnsAt(toks, 0) == 1;
    ColumnsOfGroup(toks);
    FromOfGroup(toks);
    WhereOfGroup(toks);
    GroupOfGroup(toks);
  }

  /** The statement the query parses to. */
  function GroupStmt(): Select
  {
    Select([Core([Leaf("a"), Leaf("d")], Some(Equality()), Some([Leaf("d")]), None)], None, None)
  }

  lemma ParseGroup(toks: seq<string>)
    requires IsGroupQuery(toks)
    ensures Parse(toks) == Success(GroupStmt())
  {
    StmtOfGroup(toks);
  }

  /** The parsed statement: the one core, no ORDER BY, no LIMIT. */
  lemma StmtOfGroup(toks: seq<string>)
    requires IsGroupQuery(toks)
    ensures SelectStmt(toks, 0).Some?
    ensures SelectStmt(toks, 0).value.stmt == GroupStmt()
  {
    Spelling(toks);
    CoreOfGroup(toks);
    NothingAtEnd(toks);
    var c := SelectCore(toks, 0).value;
    assert c.p.end == |toks|;
    var s := SelectStmt(toks, 0).value.stmt;
    assert s.cores == [c.core] + [];
    assert s.orderByTerms.None? && s.limitTerms.None?;
  }

  /** The comparison and the key list as the translator spells them. */
  lemma GroupText()
    ensures Flatten(Equality()) == ["c", "=", "1"] && NoPercent(["c", "=", "1"])
    ensures Join(" ", ["c", "=", "1"]) == "c = 1"
    ensures FlattenSeq([Leaf("d")]) == ["d"] && NoPercent(["d"])
    ensures Join(", ", ["d"]) == "d"
  {
    var ts := [Leaf("c"), Leaf("="), Leaf("1")];
    assert ts[1..][1..][1..] == [];
    assert FlattenSeq(ts[1..][1..]) == ["1"];
    assert FlattenSeq(ts[1..]) == ["=", "1"];
    assert FlattenSeq(ts) == ["c", "=", "1"];
    var xs := ["c", "=", "1"];
    assert xs[1..][1..] == ["1"];
    assert Join(" ", xs[1..]) == "= 1";
    assert [Leaf("d")][1..] == [];
  }

  /** The statements `get_pig` emits for the parsed query. */
  lemma PigOfGroup()
    ensures Printable(GroupStmt())
    ensures GetPig(GroupStmt()) == [
      Some(Register),
      Some("A" + LoadPrefix + LoadSuffix + "B" + ForeachMiddle + "A" + ForeachSuffix),
      Some("C = FILTER B BY c = 1"),
      Some("D = GROUP C BY (d);")]
  {
    GroupText();
    assert WhereExpr(GroupStmt()) == Some(Equality());
    assert GroupTerms(GroupStmt()) == Some([Leaf("d")]);
    assert "C = FILTER B BY " + "c = 1" == "C = FILTER B BY c = 1";
    assert "D = GROUP C BY (" + "d" + ");" == "D = GROUP C BY (d);";
    var r := GetPig(GroupStmt());
    assert r == [r[0], r[1], r[2], r[3]];
  }

  /** `select a, d from b where c = 1 group by d` translates to the
      registrations, the load pair A and B, `C = FILTER B BY c = 1` and
      `D = GROUP C BY (d);`. The builders as written give the same list,
      since both clauses are present. */
  lemma TranslateGroup(toks: seq<string>)
    requires IsGroupQuery(toks)
    ensures Parse(toks) == Success(GroupStmt()) && Printable(GroupStmt())
    ensures Translate(toks) == Success([
      Some(Register),
      Some("A" + LoadPrefix + LoadSuffix + "B" + ForeachMiddle + "A" + ForeachSuffix),
      Some("C = FILTER B BY c = 1"),
      Some("D = GROUP C BY (d);")])
    ensures TranslateAsWritten(toks) == Translate(toks)
  {
    ParseGroup(toks);
    PigOfGroup();
    AsWrittenOfGroup();
  }

  /** With both clauses present the builders as written emit what the
      corrected ones do. */
  lemma AsWrittenOfGroup()
    requires Printable(GroupStmt())
    ensures GetPigAsWritten(GroupStmt()) == GetPig(GroupStmt())
  {
    assert WhereExpr(GroupStmt()) == Some(Equality());
    assert GroupTerms(GroupStmt()) == Some([Leaf("d")]);
    var r, s := GetPigAsWritten(GroupStmt()), GetPig(GroupStmt());
    assert r == [r[0], r[1], r[2], r[3]] && s == [s[0], s[1], s[2], s[3]];
  }
}

=== FILE: lexical.dfy ===
/** The token-level recognisers of the SQL grammar (select_parser.py:13-54):
    keywords, identifiers, and the literal forms. Each recogniser decides
    whether one whole token has the given shape. */
module Lexical {

  predicate IsLetter(c: char) { 'A' <= c <= 'Z' || 'a' <= c <= 'z' }

  predicate IsDigit(c: char) { '0' <= c <= '9' }

  predicate IsHexDigit(c: char) { IsDigit(c) || 'A' <= c <= 'F' || 'a' <= c <= 'f' }

  predicate AllDigits(s: string) { forall k :: 0 <= k < |s| ==> IsDigit(s[k]) }

  predicate AllHexDigits(s: string) { forall k :: 0 <= k < |s| ==> IsHexDigit(s[k]) }

  /** ASCII upper-casing, as used for case-insensitive keyword matching. */
  function UpperChar(c: char): char
  {
    if 'a' <= c <= 'z' then (c as int - 32) as char else c
  }

  function Upper(s: string): (r: string)
    ensures |r| == |s|
  {
    seq(|s|, k requires 0 <= k < |s| => UpperChar(s[k]))
  }

  /** The words that may not be used as identifiers (select_parser.py:24-28),
      in four groups. `AND` is declared as a keyword but is not in the list.
      First group (select_parser.py:24): `COUNT`, the compound operators,
      the ordering words and the first join words. */
  predicate ExcludedSetAndOrderWords(w: string)
  {
    w in {"COUNT", "UNION", "ALL", "OR", "INTERSECT", "EXCEPT", "COLLATE", "ASC",
          "DESC", "ON", "USING", "NATURAL", "INNER"}
  }

  /** The remaining join words and the clause words up to `GROUP BY`
      (select_parser.py:25). */
  predicate ExcludedJoinAndClauseWords(w: string)
  {
    w in {"CROSS", "LEFT", "OUTER", "JOIN", "AS", "INDEXED", "NOT", "SELECT",
          "DISTINCT", "FROM", "WHERE", "GROUP", "BY"}
  }

  /** The later clause words and the words of null tests, `BETWEEN`, `CASE`
      and `EXISTS` (select_parser.py:26). */
  predicate ExcludedClauseAndTestWords(w: string)
  {
    w in {"HAVING", "ORDER", "BY", "LIMIT", "OFFSET", "CAST", "ISNULL", "NOTNULL",
          "NULL", "IS", "BETWEEN", "ELSE", "END", "CASE", "WHEN", "THEN", "EXISTS"}
  }

  /** The pattern-matching words and the current-time names
      (select_parser.py:27). */
  predicate ExcludedMatchAndTimeWords(w: string)
  {
    w in {"COLLATE", "IN", "LIKE", "GLOB", "REGEXP", "MATCH", "ESCAPE",
          "CURRENT_TIME", "CURRENT_DATE", "CURRENT_TIMESTAMP"}
  }

  /** The whole `keyword` alternative. */
  predicate IsExcluded(w: string)
  {
    ExcludedSetAndOrderWords(w) || ExcludedJoinAndClauseWords(w) || ExcludedClauseAndTestWords(w) || ExcludedMatchAndTimeWords(w)
  }

  /** The defining strings of the caseless keywords (select_parser.py:14-23):
      the excluded words and `AND`. Only these come back upper-cased. */
  predicate IsCaselessKeyword(u: string)
  {
    IsExcluded(u) || u == "AND"
  }

  /** A caseless keyword matches a token equal to it up to letter case. */
  predicate IsKeyword(tok: string, kw: string) { Upper(tok) == kw }

  /** A word token: it starts with a letter, and every further character is
      a letter, a digit or an underscore (select_parser.py:30). */
  predicate IsWord(tok: string)
  {
    && |tok| > 0
    && IsLetter(tok[0])
    && forall k :: 1 <= k < |tok| ==> IsLetter(tok[k]) || IsDigit(tok[k]) || tok[k] == '_'
  }

  /** An identifier (select_parser.py:30): a word that is not, in any letter
      case, one of the excluded keywords. */
  predicate IsIdentifier(tok: string)
  {
    IsWord(tok) && !IsExcluded(Upper(tok))
  }

  /** An integer (select_parser.py:44): an optional sign, then at least one
      digit and nothing else. */
  predicate IsInteger(tok: string)
  {
    && |tok| > 0
    && if tok[0] == '+' || tok[0] == '-' then |tok| > 1 && AllDigits(tok[1..])
       else AllDigits(tok)
  }

  /** End of the maximal run of digits starting at `i`. */
  function DigitsEnd(s: string, i: nat): (j: nat)
    requires i <= |s|
    ensures i <= j <= |s|
    ensures AllDigits(s[i..j])
    ensures j < |s| ==> !IsDigit(s[j])
    decreases |s| - i
  {
    if i < |s| && IsDigit(s[i]) then DigitsEnd(s, i + 1) else i
  }

  /** End of the optional exponent starting at `i`: a letter e in either
      case, an optional sign, and at least one digit; without the digits no
      exponent is taken and the end is `i` itself. */
  function ExponentEnd(s: string, i: nat): (j: nat)
    requires i <= |s|
    ensures i <= j <= |s|
  {
    if i < |s| && (s[i] == 'e' || s[i] == 'E') then
      var d := if i + 1 < |s| && (s[i + 1] == '+' || s[i + 1] == '-') then i + 2 else i + 1;
      var e := DigitsEnd(s, d);
      if e > d then e else i
    else i
  }

  /** A numeric literal (select_parser.py:45): digits, an optional fraction
      (a dot and any digits), an optional exponent, and nothing after. Each
      part is taken greedily, left to right, as a regular expression engine
      reads the pattern. */
  predicate IsNumeric(tok: string)
  {
    var a := DigitsEnd(tok, 0);
    var b := if a < |tok| && tok[a] == '.' then DigitsEnd(tok, a + 1) else a;
    a > 0 && ExponentEnd(tok, b) == |tok|
  }

  /** Declarative shape of a fraction part: empty, or a dot followed only by
      digits. */
  predicate FractionShape(s: string)
  {
    s == [] || (s[0] == '.' && AllDigits(s[1..]))
  }

  /** Declarative shape of an exponent part: empty, or a letter e in either
      case, an optional sign, and one or more digits. */
  predicate ExponentShape(s: string)
  {
    || s == []
    || (|s| > 1 && (s[0] == 'e' || s[0] == 'E') && AllDigits(s[1..]))
    || (|s| > 2 && (s[0] == 'e' || s[0] == 'E') && (s[1] == '+' || s[1] == '-') && AllDigits(s[2..]))
  }

  /** A numeric literal is digits, a fraction part and an exponent part, cut
      at some two points. */
  predicate NumericShape(tok: string)
  {
    exists i, j :: 0 < i <= j <= |tok| && AllDigits(tok[..i]) && FractionShape(tok[i..j]) && ExponentShape(tok[j..])
  }

  /** A string literal (select_parser.py:46), with no escape character: a
      single quote, a run free of quotes and line breaks, a single quote. */
  predicate IsStringLiteral(tok: string)
  {
    && |tok| >= 2
    && tok[0] == '\''
    && tok[|tok| - 1] == '\''
    && forall k :: 1 <= k < |tok| - 1 ==> tok[k] != '\'' && tok[k] != '\n' && tok[k] != '\r'
  }

  /** The value pyparsing returns for a quoted string: the quotes removed. */
  function Unquote(tok: string): string
    requires IsStringLiteral(tok)
  {
    tok[1..|tok| - 1]
  }

  /** A blob literal (select_parser.py:47), one combined token: the marker
      `x` or `X`, a single quote, one or more hex digits, a single quote. */
  predicate IsBlob(tok: string)
  {
    && |tok| >= 4
    && (tok[0] == 'x' || tok[0] == 'X')
    && tok[1] == '\''
    && tok[|tok| - 1] == '\''
    && AllHexDigits(tok[2..|tok| - 1])
  }

  /** The hex digits of a blob literal. */
  function BlobDigits(tok: string): (h: string)
    requires IsBlob(tok)
    ensures |h| > 0 && AllHexDigits(h)
  {
    tok[2..|tok| - 1]
  }

  /** The blob literal spelling a non-empty hex string with the given marker. */
  function BlobOf(marker: char, hex: string): string
  {
    [marker] + "'" + hex + "'"
  }

  /** A bind parameter (select_parser.py:50-53): a question mark followed by
      any digits, or one of `:`, `@`, `$` glued to an identifier. */
  predicate IsBindParameter(tok: string)
  {
    || (|tok| >= 1 && tok[0] == '?' && AllDigits(tok[1..]))
    || (|tok| >= 2 && (tok[0] == ':' || tok[0] == '@' || tok[0] == '$') && IsIdentifier(tok[1..]))
  }

  /** A type name (select_parser.py:54): one of the five upper-case storage
      class names, matched case-sensitively. */
  predicate IsTypeName(tok: string)
  {
    tok in {"TEXT", "REAL", "INTEGER", "BLOB", "NULL"}
  }
}

=== FILE: lexical_facts.dfy ===
/** Properties of the token recognisers. */
module LexicalFacts {
  import opened Lexical

  /** The digit scanner stops exactly at the first non-digit. */
  lemma {:induction false} DigitsEndExact(s: string, i: nat, j: nat)
    requires i <= j <= |s|
    requires AllDigits(s[i..j])
    requires j == |s| || !IsDigit(s[j])
    ensures DigitsEnd(s, i) == j
    decreases j - i
  {
    if i < j {
      assert s[i..j][0] == s[i];
      assert s[i + 1..j] == s[i..j][1..];
      DigitsEndExact(s, i + 1, j);
    }
  }

  /** The exponent scanner consumes exactly a well-formed exponent part. */
  lemma ExponentEndExact(s: string, j: nat)
    requires j <= |s|
    requires ExponentShape(s[j..])
    ensures ExponentEnd(s, j) == |s|
  {
    var x := s[j..];
    if x != [] {
      assert s[j] == x[0];
      if |x| > 2 && (x[1] == '+' || x[1] == '-') && AllDigits(x[2..]) {
        assert s[j + 2..] == x[2..];
        DigitsEndExact(s, j + 2, |s|);
      } else {
        assert s[j + 1..] == x[1..];
        assert |x| > 1 && AllDigits(x[1..]);
        assert IsDigit(x[1]);
        DigitsEndExact(s, j + 1, |s|);
      }
    }
  }

  /** What the exponent scanner accepts is a well-formed exponent part. */
  lemma ExponentEndSound(s: string, j: nat)
    requires j <= |s|
    requires ExponentEnd(s, j) == |s|
    ensures ExponentShape(s[j..])
  {
    var x := s[j..];
    if j < |s| && (s[j] == 'e' || s[j] == 'E') {
      var d := if j + 1 < |s| && (s[j + 1] == '+' || s[j + 1] == '-') then j + 2 else j + 1;
      var e := DigitsEnd(s, d);
      if e > d {
        assert e == |s|;
        assert x[d - j..] == s[d..e];
      }
    }
  }

  /** The greedy reading of `numeric_literal` accepts exactly the tokens of
      the declarative shape digits, fraction, exponent. */
  lemma NumericIff(tok: string)
    ensures IsNumeric(tok) <==> NumericShape(tok)
  {
    if IsNumeric(tok) {
      NumericSound(tok);
    }
    if NumericShape(tok) {
      NumericComplete(tok);
    }
  }

  /** A token the greedy reading accepts has the declarative shape. */
  lemma NumericSound(tok: string)
    requires IsNumeric(tok)
    ensures NumericShape(tok)
  {
    var a := DigitsEnd(tok, 0);
    var b := if a < |tok| && tok[a] == '.' then DigitsEnd(tok, a + 1) else a;
    assert tok[..a] == tok[0..a];
    if a < |tok| && tok[a] == '.' {
      assert tok[a..b][1..] == tok[a + 1..b];
    }
    assert FractionShape(tok[a..b]);
    ExponentEndSound(tok, b);
    assert 0 < a <= b <= |tok| && AllDigits(tok[..a]) && FractionShape(tok[a..b]) && ExponentShape(tok[b..]);
  }

  /** A token of the declarative shape is accepted by the greedy reading. */
  lemma NumericComplete(tok: string)
    requires NumericShape(tok)
    ensures IsNumeric(tok)
  {
    var a := DigitsEnd(tok, 0);
    var b := if a < |tok| && tok[a] == '.' then DigitsEnd(tok, a + 1) else a;
    var i, j :| 0 < i <= j <= |tok| && AllDigits(tok[..i]) && FractionShape(tok[i..j]) && ExponentShape(tok[j..]);
    assert tok[0..i] == tok[..i];
    if i < j {
      assert tok[i] == tok[i..j][0];
    } else if i < |tok| {
      assert tok[i] == tok[j..][0];
    }
    DigitsEndExact(tok, 0, i);
    if i < j {
      assert tok[i + 1..j] == tok[i..j][1..];
      if j < |tok| {
        assert tok[j] == tok[j..][0];
      }
      DigitsEndExact(tok, i + 1, j);
    }
    assert b == j;
    ExponentEndExact(tok, j);
  }

  /** `numeric_literal` carries no sign: it always starts with a digit. */
  lemma NumericStartsWithDigit(tok: string)
    requires IsNumeric(tok)
    ensures IsDigit(tok[0])
  {
  }

  /** An unsigned `integer` token is also a `numeric_literal`. */
  lemma UnsignedIntegerIsNumeric(tok: string)
    requires IsInteger(tok) && IsDigit(tok[0])
    ensures IsNumeric(tok)
  {
    DigitsEndExact(tok, 0, |tok|);
    assert tok[0..|tok|] == tok;
  }

  /** A signed integer is an `integer` but never a `numeric_literal`. */
  lemma SignedIntegerIsNotNumeric(ds: string)
    requires |ds| > 0 && AllDigits(ds)
    ensures IsInteger("-" + ds) && !IsNumeric("-" + ds)
  {
    assert ("-" + ds)[1..] == ds;
  }

  /** Identifiers and literals never overlap. */
  lemma IdentifierIsNoLiteral(tok: string)
    requires IsIdentifier(tok)
    ensures !IsNumeric(tok) && !IsInteger(tok) && !IsStringLiteral(tok) && !IsBlob(tok) && !IsBindParameter(tok)
  {
    BlobIsNoWord(tok);
  }

  /** A blob literal has a quote as its second character, which no word has. */
  lemma BlobIsNoWord(tok: string)
    ensures IsBlob(tok) ==> !IsWord(tok)
  {
    if IsBlob(tok) {
      assert tok[1] == '\'';
    }
  }

  /** Keyword exclusion is by whole word: a word that merely starts with a
      keyword, such as `selection`, is an identifier. */
  lemma SelectionIsIdentifier()
    ensures IsIdentifier("selection")
    ensures !IsIdentifier("Select")
  {
    assert Upper("selection") == "SELECTION";
    assert Upper("Select") == "SELECT";
  }

  /** `AND` is missing from the exclusion list, so it is a valid identifier
      in any letter case. */
  lemma AndIsIdentifier(tok: string)
    requires IsWord(tok) && Upper(tok) == "AND"
    ensures IsIdentifier(tok)
  {
  }

  /** Every excluded keyword, in any letter case, is refused as an identifier. */
  lemma KeywordIsNoIdentifier(tok: string)
    requires IsExcluded(Upper(tok))
    ensures !IsIdentifier(tok)
  {
  }

  /** Writing a non-empty hex string as a blob literal and reading its digits
      back gives the string. */
  lemma BlobRoundTrip(marker: char, hex: string)
    requires marker == 'x' || marker == 'X'
    requires |hex| > 0 && AllHexDigits(hex)
    ensures IsBlob(BlobOf(marker, hex))
    ensures BlobDigits(BlobOf(marker, hex)) == hex
  {
    var t := BlobOf(marker, hex);
    assert t[2..|t| - 1] == hex;
  }

  /** Every blob literal is the spelling of its own digits. */
  lemma BlobSpelling(tok: string)
    requires IsBlob(tok)
    ensures tok == BlobOf(tok[0], BlobDigits(tok))
  {
  }

  /** A single letter is an identifier: every excluded word is longer. */
  lemma LetterIsIdentifier(c: char)
    requires IsLetter(c)
    ensures IsIdentifier([c])
  {
    var u := Upper([c]);
    assert |u| == 1;
    assert !ExcludedSetAndOrderWords(u) && !ExcludedJoinAndClauseWords(u);
    assert !ExcludedClauseAndTestWords(u) && !ExcludedMatchAndTimeWords(u);
  }

  /** The upper-case forms of the lower-case keywords and the punctuation
      of the worked queries, as a caseless keyword compares them. */
  lemma QuerySpellings()
    ensures Upper("select") == "SELECT" && Upper("from") == "FROM" && Upper("where") == "WHERE"
    ensures Upper("group") == "GROUP" && Upper("by") == "BY"
    ensures Upper("*") == "*" && Upper(",") == "," && Upper("=") == "="
  {
  }
}

=== FILE: parse_base.dfy ===
/** The shape of a parse step over a token sequence, and the invariant every
    step keeps: the leaves it produces render, in order, the tokens it
    consumed, minus the suppressed punctuation (select_parser.py:10). */
module ParseBase {
  import opened Wrappers
  import opened Trees
  import opened Lexical

  /** The punctuation the grammar suppresses (select_parser.py:10): the two
      parentheses and the comma are matched but never returned. */
  predicate IsSuppressed(tok: string)
  {
    tok == "(" || tok == ")" || tok == ","
  }

  /** The tokens of a run that a parse may return: all but the suppressed ones. */
  function Visible(toks: seq<string>): seq<string>
  {
    if |toks| == 0 then []
    else (if IsSuppressed(toks[0]) then [] else [toks[0]]) + Visible(toks[1..])
  }

  /** A returned leaf stands for one input token: verbatim, as the upper-case
      defining string when the token is a caseless keyword, or as a quoted
      string with its quotes removed. */
  predicate Renders(leaf: string, tok: string)
  {
    || leaf == tok
    || (IsCaselessKeyword(Upper(tok)) && leaf == Upper(tok))
    || (IsStringLiteral(tok) && leaf == Unquote(tok))
  }

  predicate RendersAll(leaves: seq<string>, toks: seq<string>)
  {
    && |leaves| == |toks|
    && forall k :: 0 <= k < |leaves| ==> Renders(leaves[k], toks[k])
  }

  /** An identifier comes back as written. The only caseless keyword an
      identifier can spell is `AND`, which the identifier rule does not
      exclude (select_parser.py:24-30), so only there may the leaf be the
      upper-case form. */
  lemma IdentifierVerbatim(leaf: string, tok: string)
    requires IsIdentifier(tok)
    ensures Renders(leaf, tok) <==> leaf == tok || (Upper(tok) == "AND" && leaf == "AND")
  {
    assert !IsStringLiteral(tok) by {
      assert IsLetter(tok[0]);
    }
  }

  /** The identifier `z` renders only as `z`, never as `Z`. */
  lemma LowerIdentifierKept()
    ensures IsIdentifier("z")
    ensures Yields([Leaf("z")], ["z"], 0, 1) && !Yields([Leaf("Z")], ["z"], 0, 1)
  {
    assert Upper("z") == "Z";
    assert ["z"][0..1] == ["z"];
    assert Visible(["z"]) == ["z"] by {
      assert ["z"][1..] == [];
    }
    assert FlattenSeq([Leaf("Z")]) == ["Z"] by {
      assert [Leaf("Z")][1..] == [];
    }
    assert FlattenSeq([Leaf("z")]) == ["z"] by {
      assert [Leaf("z")][1..] == [];
    }
    IdentifierVerbatim("Z", "z");
  }

  /** The flattened `trees` render the visible tokens of `toks[i..j]`. */
  predicate Yields(trees: seq<Tree>, toks: seq<string>, i: nat, j: nat)
    requires i <= j <= |toks|
  {
    RendersAll(FlattenSeq(trees), Visible(toks[i..j]))
  }

  /** The results are one group. */
  predicate SingleGroup(trees: seq<Tree>)
  {
    |trees| == 1 && trees[0].Node?
  }

  /** The atoms of the one tree `t` render the visible tokens of `toks[i..j]`. */
  predicate TreeYields(t: Tree, toks: seq<string>, i: nat, j: nat)
    requires i <= j <= |toks|
  {
    RendersAll(Flatten(t), Visible(toks[i..j]))
  }

  /** A successful parse step: the results and the position after them. */
  datatype Parsed = Parsed(trees: seq<Tree>, end: nat)

  predicate ValidP(toks: seq<string>, i: nat, p: Parsed)
  {
    i <= p.end <= |toks| && Yields(p.trees, toks, i, p.end)
  }

  /** What every parser of the grammar promises about its outcome at `i`. */
  predicate Valid(toks: seq<string>, i: nat, r: Option<Parsed>)
  {
    r.Some? ==> ValidP(toks, i, r.value)
  }

  lemma {:induction false} VisibleConcat(a: seq<string>, b: seq<string>)
    ensures Visible(a + b) == Visible(a) + Visible(b)
    decreases |a|
  {
    if |a| == 0 {
      assert a + b == b;
    } else {
      assert (a + b)[0] == a[0];
      assert (a + b)[1..] == a[1..] + b;
      VisibleConcat(a[1..], b);
    }
  }

  lemma RendersAllConcat(a: seq<string>, b: seq<string>, x: seq<string>, y: seq<string>)
    requires RendersAll(a, x) && RendersAll(b, y)
    ensures RendersAll(a + b, x + y)
  {
    forall k | 0 <= k < |a + b|
      ensures Renders((a + b)[k], (x + y)[k])
    {
      if k >= |a| {
        assert (a + b)[k] == b[k - |a|];
        assert (x + y)[k] == y[k - |x|];
      }
    }
  }

  /** Two adjacent steps compose into one. */
  lemma YieldsConcat(a: seq<Tree>, b: seq<Tree>, toks: seq<string>, i: nat, j: nat, k: nat)
    requires i <= j <= k <= |toks|
    requires Yields(a, toks, i, j) && Yields(b, toks, j, k)
    ensures Yields(a + b, toks, i, k)
  {
    assert toks[i..k] == toks[i..j] + toks[j..k];
    VisibleConcat(toks[i..j], toks[j..k]);
    FlattenSeqConcat(a, b);
    RendersAllConcat(FlattenSeq(a), FlattenSeq(b), Visible(toks[i..j]), Visible(toks[j..k]));
  }

  /** Sequencing: `a` at `i` followed by `b` where `a` stopped. */
  function Then(toks: seq<string>, i: nat, a: Parsed, b: Parsed): (r: Parsed)
    requires ValidP(toks, i, a) && ValidP(toks, a.end, b)
    ensures ValidP(toks, i, r)
    ensures r.trees == a.trees + b.trees && r.end == b.end
  {
    YieldsConcat(a.trees, b.trees, toks, i, a.end, b.end);
    Parsed(a.trees + b.trees, b.end)
  }

  /** Grouping: the results of one step nested as a single element. */
  function Grouped(toks: seq<string>, i: nat, a: Parsed): (r: Parsed)
    requires ValidP(toks, i, a)
    ensures ValidP(toks, i, r)
    ensures r.trees == [Node(a.trees)] && r.end == a.end
  {
    FlattenGroup(a.trees);
    Parsed([Node(a.trees)], a.end)
  }

  /** The empty match of an optional or repeated element that is absent. */
  function Nothing(toks: seq<string>, i: nat): (r: Parsed)
    requires i <= |toks|
    ensures ValidP(toks, i, r) && r.trees == [] && r.end == i
  {
    assert toks[i..i] == [];
    Parsed([], i)
  }

  /** A sequence step that may fail: `acc` followed by `next`. */
  function Extend(toks: seq<string>, i: nat, acc: Parsed, next: Option<Parsed>): (r: Option<Parsed>)
    requires ValidP(toks, i, acc) && Valid(toks, acc.end, next)
    ensures Valid(toks, i, r)
    ensures r.Some? <==> next.Some?
    ensures r.Some? ==> r.value.end == next.value.end && r.value.trees == acc.trees + next.value.trees
  {
    match next
    case None => None
    case Some(b) => Some(Then(toks, i, acc, b))
  }

  /** `acc` followed by an optional `next`: kept when it matched. */
  function ExtendOpt(toks: seq<string>, i: nat, acc: Parsed, next: Option<Parsed>): (r: Parsed)
    requires ValidP(toks, i, acc) && Valid(toks, acc.end, next)
    ensures ValidP(toks, i, r)
    ensures next.None? ==> r == acc
    ensures next.Some? ==> r.end == next.value.end && r.trees == acc.trees + next.value.trees
  {
    match next
    case None => acc
    case Some(b) => Then(toks, i, acc, b)
  }

  /** Ordered choice `a | b`: the first alternative that matches wins. */
  function First(toks: seq<string>, i: nat, a: Option<Parsed>, b: Option<Parsed>): (r: Option<Parsed>)
    requires Valid(toks, i, a) && Valid(toks, i, b)
    ensures Valid(toks, i, r)
    ensures a.Some? ==> r == a
    ensures a.None? ==> r == b
  {
    if a.Some? then a else b
  }

  /** One token returned as one leaf. */
  function Token(toks: seq<string>, i: nat, leaf: string): (r: Parsed)
    requires i < |toks| && !IsSuppressed(toks[i]) && Renders(leaf, toks[i])
    ensures ValidP(toks, i, r) && r.trees == [Leaf(leaf)] && r.end == i + 1
  {
    assert toks[i..i + 1] == [toks[i]];
    assert Visible([toks[i]]) == [toks[i]] by {
      assert [toks[i]][1..] == [];
    }
    assert FlattenSeq([Leaf(leaf)]) == [leaf] by {
      assert [Leaf(leaf)][1..] == [];
    }
    Parsed([Leaf(leaf)], i + 1)
  }

  /** A caseless keyword: matches the token in any letter case and returns
      the defining spelling. */
  function Keyword(toks: seq<string>, i: nat, kw: string): (r: Option<Parsed>)
    requires |kw| >= 2 && IsCaselessKeyword(kw)
    ensures Valid(toks, i, r)
    ensures r.Some? <==> i < |toks| && IsKeyword(toks[i], kw)
    ensures r.Some? ==> r.value.trees == [Leaf(kw)] && r.value.end == i + 1
  {
    if i < |toks| && IsKeyword(toks[i], kw) then
      assert |toks[i]| >= 2;
      Some(Token(toks, i, kw))
    else None
  }

  /** A case-sensitive literal token that is returned. */
  function Literal(toks: seq<string>, i: nat, s: string): (r: Option<Parsed>)
    requires !IsSuppressed(s)
    ensures Valid(toks, i, r)
    ensures r.Some? <==> i < |toks| && toks[i] == s
    ensures r.Some? ==> r.value.trees == [Leaf(s)] && r.value.end == i + 1
  {
    if i < |toks| && toks[i] == s then Some(Token(toks, i, s)) else None
  }

  /** A suppressed punctuation token: matched, nothing returned. */
  function Punct(toks: seq<string>, i: nat, s: string): (r: Option<Parsed>)
    requires IsSuppressed(s)
    ensures Valid(toks, i, r)
    ensures r.Some? <==> i < |toks| && toks[i] == s
    ensures r.Some? ==> r.value.trees == [] && r.value.end == i + 1
  {
    if i < |toks| && toks[i] == s then
      assert toks[i..i + 1] == [toks[i]];
      assert Visible([toks[i]]) == [] by {
        assert [toks[i]][1..] == [];
      }
      Some(Parsed([], i + 1))
    else None
  }
}

=== FILE: plain_query.dfy ===
/** Two queries without a WHERE clause: `select a from b`, which parses to
    one core naming neither a WHERE expression nor grouping terms, and
    `select from where`, which has no column list and so fails to parse. */
module PlainQuery {
  import opened Wrappers
  import opened Trees
  import opened Lexical
  import opened ParseBase
  import opened Tokens
  import opened Statement
  import opened Grammar
  import opened GrammarFacts
  import opened Translator
  import opened Script
  import opened Driver
  import LexicalFacts
  import Query

  /** `from` and `where` are keywords, so neither is an identifier nor an
      operator of any row of the table. */
  lemma ClauseWordIsNoOperator(toks: seq<string>, j: nat)
    requires j < |toks| && (toks[j] == "from" || toks[j] == "where")
    ensures !IsIdentifier(toks[j])
    ensures NoOperatorUpTo(toks, j, Levels)
  {
    LexicalFacts.QuerySpellings();
    assert ExcludedJoinAndClauseWords(Upper(toks[j]));
  }

  /** The result columns of `select a from b`: the identifier `a`, which
      `from` ends. */
  lemma ColumnsOfPlain(toks: seq<string>)
    requires toks == ["select", "a", "from", "b"]
    ensures ColumnList(toks, 1) == Some(Parsed([Leaf("a")], 2))
  {
    LexicalFacts.LetterIsIdentifier('a');
    ClauseWordIsNoOperator(toks, 2);
    LoneOperand(toks, 1, Levels);
    assert TableStar(toks, 1).None?;
    assert Alias(toks, 2) == Parsed([], 2);
    assert [Leaf("a")] + [] == [Leaf("a")];
    assert ResultColumn(toks, 1) == Some(Parsed([Leaf("a")], 2));
  }

  /** `from b` is the table alone and ends the input. */
  lemma FromOfPlain(toks: seq<string>)
    requires toks == ["select", "a", "from", "b"]
    ensures FromClause(toks, 2).end == 4
  {
    LexicalFacts.LetterIsIdentifier('b');
    LexicalFacts.QuerySpellings();
    assert TableRef(toks, 3) == Some(Parsed([Leaf("b")], 4));
    assert [Leaf("b")] + [] == [Leaf("b")];
    assert TableSource(toks, 3) == Some(Parsed([Leaf("b")], 4));
    assert JoinSource(toks, 3) == Some(Parsed([Leaf("b")], 4));
    Query.FromEnd(toks, 2, Parsed([Leaf("b")], 4));
  }

  /** The one core: column `a`, no WHERE expression, no grouping terms,
      no HAVING expression. */
  lemma CoreOfPlain(toks: seq<string>)
    requires toks == ["select", "a", "from", "b"]
    ensures SelectCore(toks, 0).Some?
    ensures SelectCore(toks, 0).value.core == Core([Leaf("a")], None, None, None)
    ensures SelectCore(toks, 0).value.p.end == 4
  {
    LexicalFacts.QuerySpellings();
    ColumnsOfPlain(toks);
    FromOfPlain(toks);
    assert ExprClause(toks, 4, "WHERE").named.None?;
    assert GroupClause(toks, 4).terms.None? && GroupClause(toks, 4).p.end == 4;
  }

  /** The statement `select a from b` parses to. */
  function PlainStmt(): Select
  {
    Select([Core([Leaf("a")], None, None, None)], None, None)
  }

  lemma ParsePlain(toks: seq<string>)
    requires toks == ["select", "a", "from", "b"]
    ensures Parse(toks) == Success(PlainStmt())
  {
    CoreOfPlain(toks);
    assert CompoundOp(toks, 4).None?;
    assert [Core([Leaf("a")], None, None, None)] + [] == [Core([Leaf("a")], None, None, None)];
  }

  /** `select a from b` translates to the registrations and the load pair
      only: no filter and no group. */
  lemma TranslatePlain(toks: seq<string>)
    requires toks == ["select", "a", "from", "b"]
    ensures Parse(toks) == Success(PlainStmt()) && Printable(PlainStmt())
    ensures Translate(toks) == Success([
      Some(Register),
      Some("A" + LoadPrefix + LoadSuffix + "B" + ForeachMiddle + "A" + ForeachSuffix),
      None,
      None])
  {
    ParsePlain(toks);
    PigOfPlain();
  }

  /** The statements `get_pig` emits for the parsed statement. */
  lemma PigOfPlain()
    ensures Printable(PlainStmt())
    ensures GetPig(PlainStmt()) == [
      Some(Register),
      Some("A" + LoadPrefix + LoadSuffix + "B" + ForeachMiddle + "A" + ForeachSuffix),
      None,
      None]
  {
    assert WhereExpr(PlainStmt()).None? && GroupTerms(PlainStmt()).None?;
    var r := GetPig(PlainStmt());
    assert r == [r[0], r[1], r[2], r[3]];
  }

  /** With the builders as written, `select a from b` also gets a FILTER
      with an empty condition and a group over an empty key list. */
  lemma TranslatePlainAsWritten(toks: seq<string>)
    requires toks == ["select", "a", "from", "b"]
    ensures Parse(toks) == Success(PlainStmt()) && Printable(PlainStmt())
    ensures TranslateAsWritten(toks) == Success([
      Some(Register),
      Some("A" + LoadPrefix + LoadSuffix + "B" + ForeachMiddle + "A" + ForeachSuffix),
      Some("C = FILTER B BY "),
      Some("D = GROUP C BY ();")])
  {
    ParsePlain(toks);
    PigAsWrittenOfPlain();
  }

  lemma PigAsWrittenOfPlain()
    ensures Printable(PlainStmt())
    ensures GetPigAsWritten(PlainStmt()) == [
      Some(Register),
      Some("A" + LoadPrefix + LoadSuffix + "B" + ForeachMiddle + "A" + ForeachSuffix),
      Some("C = FILTER B BY "),
      Some("D = GROUP C BY ();")]
  {
    PigOfPlain();
    assert WhereExpr(PlainStmt()).None? && GroupTerms(PlainStmt()).None?;
    assert Join(" ", Flatten(ReadName(None))) == "";
    assert Join(", ", FlattenSeq(ReadTerms(None))) == "";
    assert "C = FILTER B BY " + "" == "C = FILTER B BY ";
    assert "D = GROUP C BY (" + "" + ");" == "D = GROUP C BY ();";
    var r := GetPigAsWritten(PlainStmt());
    assert r == [r[0], r[1], r[2], r[3]];
  }

  /** `from` is no literal, no bind parameter and no identifier, and no
      keyword that opens a term. */
  lemma FromWord()
    ensures !IsNumeric("from") && !IsStringLiteral("from") && !IsBlob("from")
    ensures !IsBindParameter("from") && !IsIdentifier("from")
    ensures Upper("from") == "FROM"
  {
    LexicalFacts.QuerySpellings();
    assert ExcludedJoinAndClauseWords("FROM");
    if IsNumeric("from") {
      LexicalFacts.NumericStartsWithDigit("from");
    }
  }

  /** `from` starts no operand. */
  lemma FromIsNoOperand(toks: seq<string>)
    requires toks == ["select", "from", "where"]
    ensures Level(toks, 1, 0).None?
  {
    FromWord();
    assert toks[1] == "from";
    assert Numeric(toks, 1).None? && StringLit(toks, 1).None? && Blob(toks, 1).None?;
    assert LiteralValue(toks, 1).None?;
    assert AtomTerm(toks, 1).None?;
    assert CallTerm(toks, 1).None?;
    assert ExprTerm(toks, 1).None?;
  }

  /** `select from where` has no result column, so the parse fails and
      nothing is translated. */
  lemma TranslateMissingColumns(toks: seq<string>)
    requires toks == ["select", "from", "where"]
    ensures Parse(toks).Failure? && Translate(toks).Failure?
  {
    LexicalFacts.QuerySpellings();
    FromIsNoOperand(toks);
    GrammarFacts.NoOperandNoLevel(toks, 1, Levels);
    assert ColumnsAt(toks, 0) == 1;
    assert ResultColumn(toks, 1).None?;
  }
}

=== FILE: query.dfy ===
/** The first query of the test list in select_parser.py:119,
    `select * from xyzzy where z > 100`, taken through the parser and the
    translator: the statement has one core whose WHERE expression is the
    comparison group, and the translation filters B by `z > 100`. */
module Query {
  import opened Wrappers
  import opened Trees
  import opened Lexical
  import opened ParseBase
  import opened Tokens
  import opened Statement
  import opened Grammar
  import opened Translator
  import opened Script
  import opened Driver
  import Scenarios
  import LexicalFacts
  import GrammarFacts

  /** The query's tokens, position by position. */
  predicate IsQuery(toks: seq<string>)
  {
    && |toks| == 8
    && toks[0] == "select" && toks[1] == "*" && toks[2] == "from" && toks[3] == "xyzzy"
    && toks[4] == "where" && toks[5] == "z" && toks[6] == ">" && toks[7] == "100"
  }

  /** The parsed comparison `z > 100`. */
  function Comparison(): Tree
  {
    Node([Leaf("z"), Leaf(">"), Leaf("100")])
  }

  /** `where z > 100` names the comparison group and ends the input. */
  lemma WhereOfQuery(toks: seq<string>)
    requires IsQuery(toks)
    ensures ExprClause(toks, 4, "WHERE").named == Some([Comparison()])
    ensures ExprClause(toks, 4, "WHERE").p.end == 8
  {
    ComparisonOfQuery(toks);
    LexicalFacts.QuerySpellings();
    assert Keyword(toks, 4, "WHERE") == Some(Parsed([Leaf("WHERE")], 5));
  }

  lemma ComparisonOfQuery(toks: seq<string>)
    requires IsQuery(toks)
    ensures Expr(toks, 5) == Some(Parsed([Comparison()], 8))
  {
    assert toks[5..] == ["z", ">", "100"];
    Scenarios.ComparisonExpr(toks, 5);
  }

  /** `where` is a keyword in any case, and not an identifier. */
  lemma WhereWord(toks: seq<string>)
    requires IsQuery(toks)
    ensures Upper(toks[4]) == "WHERE" && !IsIdentifier(toks[4])
  {
    LexicalFacts.QuerySpellings();
    assert ExcludedJoinAndClauseWords("WHERE");
  }

  /** `xyzzy` is an identifier. */
  lemma TableWord(toks: seq<string>)
    requires IsQuery(toks)
    ensures IsIdentifier(toks[3])
  {
    var u := Upper("xyzzy");
    assert u == "XYZZY";
    assert !ExcludedSetAndOrderWords(u) && !ExcludedJoinAndClauseWords(u);
    assert !ExcludedClauseAndTestWords(u) && !ExcludedMatchAndTimeWords(u);
  }

  /** `xyzzy` is a plain table name: no `.`, no alias, no index hint. */
  lemma TableOfQuery(toks: seq<string>)
    requires IsQuery(toks)
    ensures TableSource(toks, 3) == Some(Parsed([Leaf("xyzzy")], 4))
  {
    TableWord(toks);
    WhereWord(toks);
    assert Ident(toks, 3) == Some(Parsed([Leaf("xyzzy")], 4));
    assert QualifiedTable(toks, 3).None?;
    assert TableRef(toks, 3) == Some(Parsed([Leaf("xyzzy")], 4));
    assert Alias(toks, 4) == Parsed([], 4);
    assert IndexHint(toks, 4) == Parsed([], 4);
    assert [Leaf("xyzzy")] + [] == [Leaf("xyzzy")];
  }

  /** No join follows the table. */
  lemma NoJoinInQuery(toks: seq<string>)
    requires IsQuery(toks)
    ensures JoinRun(toks, 4) == Parsed([], 4)
  {
    WhereWord(toks);
    assert JoinKind(toks, 4).None?;
    assert JoinOp(toks, 4).None?;
  }

  /** `from xyzzy` stops before `where`. */
  lemma FromOfQuery(toks: seq<string>)
    requires IsQuery(toks)
    ensures FromClause(toks, 2).end == 4
  {
    SourceOfQuery(toks);
    LexicalFacts.QuerySpellings();
    FromEnd(toks, 2, Parsed([Leaf("xyzzy")], 4));
  }

  /** A FROM clause ends where its join source ends. */
  lemma FromEnd(toks: seq<string>, i: nat, s: Parsed)
    requires i < |toks| && IsKeyword(toks[i], "FROM")
    requires JoinSource(toks, i + 1) == Some(s)
    ensures FromClause(toks, i).end == s.end
  {
  }

  /** The join source is the table alone. */
  lemma SourceOfQuery(toks: seq<string>)
    requires IsQuery(toks)
    ensures JoinSource(toks, 3) == Some(Parsed([Leaf("xyzzy")], 4))
  {
    TableOfQuery(toks);
    NoJoinInQuery(toks);
    assert SingleSource(toks, 3) == Some(Parsed([Leaf("xyzzy")], 4));
    assert [Leaf("xyzzy")] + [] == [Leaf("xyzzy")];
  }

  /** The result columns are the single `*`. */
  lemma ColumnsOfQuery(toks: seq<string>)
    requires IsQuery(toks)
    ensures ColumnList(toks, 1) == Some(Parsed([Leaf("*")], 2))
  {
    assert ResultColumn(toks, 1) == Some(Parsed([Leaf("*")], 2));
    assert Punct(toks, 2, ",").None?;
  }

  /** Nothing is left after the WHERE expression, so there is no grouping. */
  lemma NoGroupInQuery(toks: seq<string>)
    requires IsQuery(toks)
    ensures GroupClause(toks, 8).terms.None? && GroupClause(toks, 8).having.None?
    ensures GroupClause(toks, 8).p.end == 8
  {
    assert Keyword(toks, 8, "GROUP").None?;
  }

  /** The head of the core: `select` with neither `distinct` nor `all`,
      and the columns. */
  lemma HeadOfQuery(toks: seq<string>)
    requires IsQuery(toks)
    ensures Keyword(toks, 0, "SELECT") == Some(Parsed([Leaf("SELECT")], 1))
    ensures First(toks, 1, Keyword(toks, 1, "DISTINCT"), Keyword(toks, 1, "ALL")).None?
  {
    LexicalFacts.QuerySpellings();
  }

  /** The one core: columns `*`, the comparison as `where_expr`, no
      grouping terms and no HAVING expression. */
  lemma CoreOfQuery(toks: seq<string>)
    requires IsQuery(toks)
    ensures SelectCore(toks, 0).Some?
    ensures SelectCore(toks, 0).value.core == Core([Leaf("*")], Some(Comparison()), None, None)
    ensures SelectCore(toks, 0).value.p.end == 8
  {
    HeadOfQuery(toks);
    ColumnsOfQuery(toks);
    FromOfQuery(toks);
    WhereOfQuery(toks);
    NoGroupInQuery(toks);
  }

  /** The parsed statement: the one core, no ORDER BY, no LIMIT. */
  lemma StmtOfQuery(toks: seq<string>)
    requires IsQuery(toks)
    ensures SelectStmt(toks, 0).Some?
    ensures SelectStmt(toks, 0).value.stmt == Select([Core([Leaf("*")], Some(Comparison()), None, None)], None, None)
  {
    CoreOfQuery(toks);
    GrammarFacts.NothingAtEnd(toks);
    var c := SelectCore(toks, 0).value;
    assert c.p.end == |toks|;
    var s := SelectStmt(toks, 0).value.stmt;
    assert s.cores == [c.core] + [];
    assert s.orderByTerms.None? && s.limitTerms.None?;
  }

  /** The comparison flattens to its three tokens, joined by spaces. */
  lemma ComparisonText()
    ensures Flatten(Comparison()) == ["z", ">", "100"]
    ensures NoPercent(Flatten(Comparison()))
    ensures Join(" ", Flatten(Comparison())) == "z > 100"
    ensures "C = FILTER B BY " + Join(" ", Flatten(Comparison())) == "C = FILTER B BY z > 100"
  {
    var ts := [Leaf("z"), Leaf(">"), Leaf("100")];
    assert ts[1..][1..][1..] == [];
    assert FlattenSeq(ts[1..][1..]) == ["100"];
    assert FlattenSeq(ts[1..]) == [">", "100"];
    assert FlattenSeq(ts) == ["z", ">", "100"];
    var xs := ["z", ">", "100"];
    assert xs[1..][1..] == ["100"];
    assert Join(" ", xs[1..]) == "> 100";
  }

  /** The statement the query parses to. */
  function QueryStmt(): Select
  {
    Select([Core([Leaf("*")], Some(Comparison()), None, None)], None, None)
  }

  lemma ParseQuery(toks: seq<string>)
    requires IsQuery(toks)
    ensures Parse(toks) == Success(QueryStmt())
  {
    StmtOfQuery(toks);
  }

  /** The statements `get_pig` emits for the parsed query. */
  lemma PigOfQuery()
    ensures Printable(QueryStmt())
    ensures GetPig(QueryStmt()) == [
      Some(Register),
      Some("A" + LoadPrefix + LoadSuffix + "B" + ForeachMiddle + "A" + ForeachSuffix),
      Some("C = FILTER B BY z > 100"),
      None]
  {
    assert WhereExpr(QueryStmt()) == Some(Comparison());
    assert GroupTerms(QueryStmt()) == None;
    ComparisonText();
    PipelineOfQuery();
  }

  /** The load pair and the filter on the comparison, with no group. */
  lemma PipelineOfQuery()
    ensures NoPercent(Flatten(Comparison()))
    ensures Pipeline(Some(Comparison()), None) == [
      Some("A" + LoadPrefix + LoadSuffix + "B" + ForeachMiddle + "A" + ForeachSuffix),
      Some("C = FILTER B BY z > 100"),
      None]
  {
    ComparisonText();
    PipelineStatements(Some(Comparison()), None);
    var p := Pipeline(Some(Comparison()), None);
    assert p == [p[0], p[1], p[2]];
  }

  /** `select * from xyzzy where z > 100` translates to the registrations,
      the load pair A and B, `C = FILTER B BY z > 100`, and no grouping
      statement. */
  lemma TranslateQuery(toks: seq<string>)
    requires IsQuery(toks)
    ensures Parse(toks) == Success(QueryStmt()) && Printable(QueryStmt())
    ensures Translate(toks) == Success([
      Some(Register),
      Some("A" + LoadPrefix + LoadSuffix + "B" + ForeachMiddle + "A" + ForeachSuffix),
      Some("C = FILTER B BY z > 100"),
      None])
  {
    ParseQuery(toks);
    PigOfQuery();
  }

  /** With the builders as written, `get_pig` of the parsed query also
      emits a group of C over an empty key list. */
  lemma PigAsWrittenOfQuery()
    ensures Printable(QueryStmt())
    ensures GetPigAsWritten(QueryStmt()) == [
      Some(Register),
      Some("A" + LoadPrefix + LoadSuffix + "B" + ForeachMiddle + "A" + ForeachSuffix),
      Some("C = FILTER B BY z > 100"),
      Some("D = GROUP C BY ();")]
  {
    PigOfQuery();
    assert GroupTerms(QueryStmt()) == None;
    assert Join(", ", FlattenSeq(ReadTerms(None))) == "";
    assert "D = GROUP C BY (" + "" + ");" == "D = GROUP C BY ();";
    var r := GetPigAsWritten(QueryStmt());
    assert r == [r[0], r[1], r[2], r[3]];
  }

  /** What the source prints for `select * from xyzzy where z > 100`: the
      registrations, the A/B load pair, `C = FILTER B BY z > 100`, and
      `D = GROUP C BY ();` although the query has no GROUP BY. */
  lemma TranslateAsWrittenQuery(toks: seq<string>)
    requires IsQuery(toks)
    ensures Parse(toks) == Success(QueryStmt()) && Printable(QueryStmt())
    ensures TranslateAsWritten(toks) == Success([
      Some(Register),
      Some("A" + LoadPrefix + LoadSuffix + "B" + ForeachMiddle + "A" + ForeachSuffix),
      Some("C = FILTER B BY z > 100"),
      Some("D = GROUP C BY ();")])
  {
    ParseQuery(toks);
    PigAsWrittenOfQuery();
  }
}

=== FILE: scenarios.dfy ===
/** The shapes the grammar gives to particular inputs, worked out from the
    general facts: comparison, postfix minus, the shared AND/OR row and the
    BETWEEN row. */
module Scenarios {
  import opened Wrappers
  import opened Trees
  import opened Lexical
  import opened ParseBase
  import opened Tokens
  import opened Grammar
  import opened GrammarFacts
  import LexicalFacts

  /** `>` belongs to row 6 only. */
  lemma GreaterRow()
    ensures LevelOp(6, ">") == Some(">")
    ensures forall r :: 1 <= r <= 5 ==> LevelOp(r, ">").None?
  {
    assert Upper(">") == ">";
  }

  /** `z` followed by `>`: an operand up to row 5. */
  lemma NameBeforeGreater(toks: seq<string>, i: nat)
    requires i + 1 < |toks| && toks[i] == "z" && toks[i + 1] == ">"
    ensures Level(toks, i, 5) == Some(Parsed([Leaf("z")], i + 1))
  {
    LexicalFacts.LetterIsIdentifier('z');
    GreaterRow();
    assert NoOperatorUpTo(toks, i + 1, 5);
    LoneOperand(toks, i, 5);
  }

  /** `100` at the end of the input is an operand of every row. */
  lemma NumberAtEnd(toks: seq<string>, i: nat, k: nat)
    requires i + 1 == |toks| && toks[i] == "100" && k <= Levels
    ensures Level(toks, i, k) == Some(Parsed([Leaf("100")], i + 1))
  {
    assert IsNumeric("100");
    LoneOperand(toks, i, k);
  }

  /** `z > 100` ending the input is one group of its three tokens. */
  lemma ComparisonExpr(toks: seq<string>, i: nat)
    requires i + 3 == |toks| && toks[i..] == ["z", ">", "100"]
    ensures Expr(toks, i) == Some(Parsed([Node([Leaf("z"), Leaf(">"), Leaf("100")])], i + 3))
  {
    ComparisonRow(toks, i);
    PassThrough(toks, i, 6, Levels, Parsed([Node([Leaf("z"), Leaf(">"), Leaf("100")])], i + 3));
  }

  lemma ComparisonRow(toks: seq<string>, i: nat)
    requires i + 3 == |toks| && toks[i..] == ["z", ">", "100"]
    ensures Level(toks, i, 6) == Some(Parsed([Node([Leaf("z"), Leaf(">"), Leaf("100")])], i + 3))
  {
    assert toks[i] == "z" && toks[i + 1] == ">" && toks[i + 2] == "100";
    NameBeforeGreater(toks, i);
    NumberAtEnd(toks, i + 2, 5);
    GreaterRow();
    BinaryLeaves(toks, i, 5, ">");
  }

  /** `or` and `and` belong to the shared row 8 only. */
  lemma AndOrRow()
    ensures LevelOp(8, "or") == Some("OR") && LevelOp(8, "and") == Some("AND")
    ensures forall r :: 1 <= r <= 7 ==> LevelOp(r, "or").None? && LevelOp(r, "and").None?
  {
    assert Upper("or") == "OR" && Upper("and") == "AND";
  }

  /** An operand followed by `or` or `and` is the result of rows 1 to 7. */
  lemma OperandBeforeAndOr(toks: seq<string>, i: nat)
    requires Operand(toks, i) && i + 1 < |toks| && (toks[i + 1] == "or" || toks[i + 1] == "and")
    ensures Level(toks, i, 7) == Some(Parsed([Leaf(toks[i])], i + 1))
  {
    AndOrRow();
    assert NoOperatorUpTo(toks, i + 1, 7);
    LoneOperand(toks, i, 7);
  }

  /** The `and c` tail of `a or b and c`. */
  lemma AndTail(toks: seq<string>, j: nat)
    requires j + 2 == |toks| && toks[j] == "and" && Operand(toks, j + 1)
    ensures RowRest(toks, j, 8) == Some(Parsed([Leaf("AND"), Leaf(toks[j + 1])], j + 2))
  {
    AndOrRow();
    LoneOperand(toks, j + 1, 7);
    BinaryRunOnce(toks, j, 7, "AND", Parsed([Leaf(toks[j + 1])], j + 2));
    assert [Leaf("AND")] + [Leaf(toks[j + 1])] == [Leaf("AND"), Leaf(toks[j + 1])];
  }

  /** The `or b and c` run of `a or b and c`: both pairs at one level. */
  lemma OrAndRun(toks: seq<string>, j: nat)
    requires j + 4 == |toks| && toks[j] == "or" && toks[j + 2] == "and"
    requires Operand(toks, j + 1) && Operand(toks, j + 3)
    ensures RowRest(toks, j, 8) == Some(Parsed([Leaf("OR"), Leaf(toks[j + 1]), Leaf("AND"), Leaf(toks[j + 3])], j + 4))
  {
    OperandBeforeAndOr(toks, j + 1);
    AndTail(toks, j + 2);
    OrThenTail(toks, j, Parsed([Leaf(toks[j + 1])], j + 2), Parsed([Leaf("AND"), Leaf(toks[j + 3])], j + 4));
  }

  /** `or`, its right operand `b` and a further pair `m` of row 8. */
  lemma OrThenTail(toks: seq<string>, j: nat, b: Parsed, m: Parsed)
    requires j < |toks| && toks[j] == "or"
    requires Level(toks, j + 1, 7) == Some(b) && |b.trees| == 1
    requires |m.trees| == 2 && b.end <= |toks| && RowRest(toks, b.end, 8) == Some(m)
    ensures RowRest(toks, j, 8) == Some(Parsed([Leaf("OR"), b.trees[0], m.trees[0], m.trees[1]], m.end))
  {
    assert LevelOp(8, "or") == Some("OR") by { AndOrRow(); }
    var parts := [Leaf("OR"), b.trees[0], m.trees[0], m.trees[1]];
    OneThenTwo(Leaf("OR"), b.trees, m.trees);
    BinaryRunMore(toks, j, 7, "OR", b, m, parts);
  }

  /** An operator, a one-element run and a two-element run, listed flat. */
  lemma OneThenTwo(op: Tree, b: seq<Tree>, m: seq<Tree>)
    requires |b| == 1 && |m| == 2
    ensures [op, b[0], m[0], m[1]] == [op] + b + m
  {
  }

  /** Row 8 of `a or b and c`. */
  lemma AndOrGroup(toks: seq<string>, i: nat)
    requires i + 5 == |toks| && toks[i + 1] == "or" && toks[i + 3] == "and"
    requires Operand(toks, i) && Operand(toks, i + 2) && Operand(toks, i + 4)
    ensures Level(toks, i, 8) == Some(Parsed([Node([Leaf(toks[i]), Leaf("OR"), Leaf(toks[i + 2]), Leaf("AND"), Leaf(toks[i + 4])])], i + 5))
  {
    OperandBeforeAndOr(toks, i);
    OrAndRun(toks, i + 1);
    var a := Parsed([Leaf(toks[i])], i + 1);
    var m := Parsed([Leaf("OR"), Leaf(toks[i + 2]), Leaf("AND"), Leaf(toks[i + 4])], i + 5);
    assert a.trees + m.trees == [Leaf(toks[i]), Leaf("OR"), Leaf(toks[i + 2]), Leaf("AND"), Leaf(toks[i + 4])];
    LevelGroup(toks, i, 7, a, m, [Leaf(toks[i]), Leaf("OR"), Leaf(toks[i + 2]), Leaf("AND"), Leaf(toks[i + 4])]);
  }

  /** `a or b and c`: AND and OR share one row, so the expression is one
      flat group read left to right, not `a or (b and c)`. */
  lemma AndOrShareRow(toks: seq<string>, i: nat)
    requires i + 5 == |toks| && toks[i + 1] == "or" && toks[i + 3] == "and"
    requires Operand(toks, i) && Operand(toks, i + 2) && Operand(toks, i + 4)
    ensures Expr(toks, i) == Some(Parsed([Node([Leaf(toks[i]), Leaf("OR"), Leaf(toks[i + 2]), Leaf("AND"), Leaf(toks[i + 4])])], i + 5))
  {
    AndOrGroup(toks, i);
    PassThrough(toks, i, 8, Levels, Parsed([Node([Leaf(toks[i]), Leaf("OR"), Leaf(toks[i + 2]), Leaf("AND"), Leaf(toks[i + 4])])], i + 5));
  }

  /** No operator of the table starts with a digit, so a numeric literal
      is never read as one. */
  lemma NumberIsNoOperator(toks: seq<string>, j: nat)
    requires j < |toks| && IsNumeric(toks[j])
    ensures NoOperatorUpTo(toks, j, Levels)
  {
    var t := toks[j];
    LexicalFacts.NumericStartsWithDigit(t);
    forall r | 0 < r <= Levels
      ensures NoOperator(toks, j, r)
    {
      DigitLedIsNoOperator(t, r);
    }
  }

  lemma DigitLedIsNoOperator(t: string, r: nat)
    requires |t| > 0 && IsDigit(t[0]) && 1 <= r <= Levels
    ensures LevelOp(r, t).None?
  {
    assert Upper(t)[0] == t[0];
  }

  /** `-` after an operand is the postfix operator of row 1. */
  lemma PostfixRun(toks: seq<string>, j: nat)
    requires j + 1 < |toks| && toks[j] == "-" && IsNumeric(toks[j + 1])
    ensures RowRest(toks, j, 1) == Some(Parsed([Leaf("-")], j + 1))
  {
    NumberIsNoOperator(toks, j + 1);
    assert NoOperator(toks, j + 1, 1);
    assert UnaryRun(toks, j + 1).None?;
    assert LevelOp(1, "-") == Some("-");
  }

  /** `a - 1`: the unary row is declared left-associative, which makes
      `-` a postfix operator binding tighter than the binary minus; the
      expression is `a -` and the number is left over. */
  lemma MinusIsPostfix(toks: seq<string>, i: nat)
    requires i + 2 < |toks| && toks[i + 1] == "-" && IsNumeric(toks[i + 2])
    requires Operand(toks, i)
    ensures Expr(toks, i) == Some(Parsed([Node([Leaf(toks[i]), Leaf("-")])], i + 2))
  {
    MinusGroup(toks, i);
    NumberIsNoOperator(toks, i + 2);
    PassUpTo(toks, i, 1, Levels, Parsed([Node([Leaf(toks[i]), Leaf("-")])], i + 2));
  }

  /** Row 1 of `a - 1`: the operand and the postfix `-`. */
  lemma MinusGroup(toks: seq<string>, i: nat)
    requires i + 2 < |toks| && toks[i + 1] == "-" && IsNumeric(toks[i + 2])
    requires Operand(toks, i)
    ensures Level(toks, i, 1) == Some(Parsed([Node([Leaf(toks[i]), Leaf("-")])], i + 2))
  {
    LoneOperand(toks, i, 0);
    PostfixRun(toks, i + 1);
    LevelGroup(toks, i, 0, Parsed([Leaf(toks[i])], i + 1), Parsed([Leaf("-")], i + 2), [Leaf(toks[i]), Leaf("-")]);
  }

  /** `between` belongs to row 10 only. */
  lemma BetweenRow()
    ensures LevelOp(10, "between") == Some("BETWEEN")
    ensures forall r :: 1 <= r <= 9 ==> LevelOp(r, "between").None?
  {
    assert Upper("between") == "BETWEEN";
  }

  /** `lo and hi` ending the input is one row 8 group, also at row 9. */
  lemma AndPair(toks: seq<string>, j: nat)
    requires j + 3 == |toks| && toks[j + 1] == "and" && Operand(toks, j) && Operand(toks, j + 2)
    ensures Level(toks, j, 9) == Some(Parsed([Node([Leaf(toks[j]), Leaf("AND"), Leaf(toks[j + 2])])], j + 3))
  {
    AndPairRow(toks, j);
    PassOne(toks, j, 8, Parsed([Node([Leaf(toks[j]), Leaf("AND"), Leaf(toks[j + 2])])], j + 3));
  }

  lemma AndPairRow(toks: seq<string>, j: nat)
    requires j + 3 == |toks| && toks[j + 1] == "and" && Operand(toks, j) && Operand(toks, j + 2)
    ensures Level(toks, j, 8) == Some(Parsed([Node([Leaf(toks[j]), Leaf("AND"), Leaf(toks[j + 2])])], j + 3))
  {
    OperandBeforeAndOr(toks, j);
    LoneOperand(toks, j + 2, 7);
    AndOrRow();
    BinaryLeaves(toks, j, 7, "AND");
  }

  /** After `between` the lower bound is a row 9 expression, which takes
      `and hi` as a conjunction; no `and` is left for the row's second
      keyword, so the row does not match. */
  lemma BetweenRestFails(toks: seq<string>, j: nat)
    requires j + 4 == |toks| && toks[j] == "between" && toks[j + 2] == "and"
    requires Operand(toks, j + 1) && Operand(toks, j + 3)
    ensures RowRest(toks, j, Levels).None?
  {
    BetweenRow();
    AndPair(toks, j + 1);
  }

  /** `x between lo and hi`: the BETWEEN row never forms, and the
      expression is `x` alone with the rest of the input left over. */
  lemma BetweenNeverForms(toks: seq<string>, i: nat)
    requires i + 5 == |toks| && toks[i + 1] == "between" && toks[i + 3] == "and"
    requires Operand(toks, i) && Operand(toks, i + 2) && Operand(toks, i + 4)
    ensures Expr(toks, i) == Some(Parsed([Leaf(toks[i])], i + 1))
  {
    BetweenRow();
    LoneOperand(toks, i, 9);
    BetweenRestFails(toks, i + 1);
    LevelUnfold(toks, i, Levels);
  }
}

=== FILE: script.dfy ===
/** The statement list `get_pig` returns for a parsed statement
    (pig_translator.py:122-127): the registration block, then the load,
    filter and group builders run in that order on one generator. */
module Script {
  import opened Wrappers
  import opened Trees
  import opened Statement
  import opened Translator

  /** The statement list `get_pig` emits (pig_translator.py:122-127), in
      order: registrations, the load pair, the filter, the group, with the
      corrected builders, so that an absent clause gives `None`. */
  function GetPig(stmt: Select): (r: seq<Option<string>>)
    requires Printable(stmt)
    ensures |r| == 4 && r[0] == Some(Register)
    ensures r[1] == Some("A" + LoadPrefix + LoadSuffix + "B" + ForeachMiddle + "A" + ForeachSuffix)
    ensures r[2].Some? <==> WhereExpr(stmt).Some?
    ensures WhereExpr(stmt).Some? ==> r[2] == Some("C = FILTER B BY " + Join(" ", Flatten(WhereExpr(stmt).value)))
    ensures r[3].Some? <==> GroupTerms(stmt).Some?
    ensures GroupTerms(stmt).Some? ==>
      var keys := Join(", ", FlattenSeq(GroupTerms(stmt).value));
      r[3] == Some(if WhereExpr(stmt).Some? then "D = GROUP C BY (" + keys + ");" else "C = GROUP B BY (" + keys + ");")
  {
    PipelineStatements(WhereExpr(stmt), GroupTerms(stmt));
    [Some(Register)] + Pipeline(WhereExpr(stmt), GroupTerms(stmt))
  }

  /** No leaf of the filtered expression or the grouping terms holds `%`. */
  predicate Printable(stmt: Select)
  {
    && (WhereExpr(stmt).Some? ==> NoPercent(Flatten(WhereExpr(stmt).value)))
    && (GroupTerms(stmt).Some? ==> NoPercent(FlattenSeq(GroupTerms(stmt).value)))
  }

  /** `get_pig` with the builders as written (pig_translator.py:85-102,
      122-127): the filter and the group are emitted whatever the query. */
  function GetPigAsWritten(stmt: Select): (r: seq<Option<string>>)
    requires Printable(stmt)
    ensures |r| == 4 && r[0] == GetPig(stmt)[0] && r[1] == GetPig(stmt)[1]
    ensures r[2] == Some("C = FILTER B BY " + Join(" ", Flatten(ReadName(WhereExpr(stmt)))))
    ensures r[3] == Some("D = GROUP C BY (" + Join(", ", FlattenSeq(ReadTerms(GroupTerms(stmt)))) + ");")
  {
    PipelineAsWrittenStatements(WhereExpr(stmt), GroupTerms(stmt));
    [Some(Register)] + PipelineAsWritten(WhereExpr(stmt), GroupTerms(stmt))
  }
}

=== FILE: statement.dfy ===
/** The named results a parsed statement exposes to the translator, and
    how a name set in several compound cores resolves. */
module Statement {
  import opened Wrappers
  import opened Trees

  /** The named results of one `select_core` (select_parser.py:106-110). */
  datatype Core = Core(
    columns: seq<Tree>,
    whereExpr: Option<Tree>,
    groupTerms: Option<seq<Tree>>,
    havingExpr: Option<Tree>)

  /** The parse of a `select_stmt` (select_parser.py:112-114). */
  datatype Select = Select(
    cores: seq<Core>,
    orderByTerms: Option<seq<Tree>>,
    limitTerms: Option<seq<Tree>>)

  /** `where_expr` of a whole statement: a name set in several compound
      cores keeps the value of the last one that set it. */
  function WhereExpr(s: Select): (r: Option<Tree>)
    ensures |s.cores| == 1 ==> r == s.cores[0].whereExpr
    ensures r.None? <==> forall k :: 0 <= k < |s.cores| ==> s.cores[k].whereExpr.None?
  {
    LastWhere(s.cores)
  }

  /** `group_terms` of a whole statement, last setter wins as for `where_expr`. */
  function GroupTerms(s: Select): (r: Option<seq<Tree>>)
    ensures |s.cores| == 1 ==> r == s.cores[0].groupTerms
    ensures r.None? <==> forall k :: 0 <= k < |s.cores| ==> s.cores[k].groupTerms.None?
  {
    LastGroup(s.cores)
  }

  /** The `where_expr` of the last core that has one; none when no core
      has one. */
  function LastWhere(cores: seq<Core>): (r: Option<Tree>)
    ensures r.None? <==> forall k :: 0 <= k < |cores| ==> cores[k].whereExpr.None?
    ensures r.Some? ==> exists k :: (0 <= k < |cores| && cores[k].whereExpr == r
                                     && forall j :: k < j < |cores| ==> cores[j].whereExpr.None?)
  {
    if |cores| == 0 then None
    else if cores[|cores| - 1].whereExpr.Some? then cores[|cores| - 1].whereExpr
    else
      var init := cores[..|cores| - 1];
      var r := LastWhere(init);
      assert forall k :: 0 <= k < |init| ==> init[k] == cores[k];
      assert r.Some? ==> exists k :: (0 <= k < |init| && init[k].whereExpr == r
                                      && forall j :: k < j < |init| ==> init[j].whereExpr.None?);
      r
  }

  /** The `group_terms` of the last core that has them. */
  function LastGroup(cores: seq<Core>): (r: Option<seq<Tree>>)
    ensures r.None? <==> forall k :: 0 <= k < |cores| ==> cores[k].groupTerms.None?
    ensures r.Some? ==> exists k :: (0 <= k < |cores| && cores[k].groupTerms == r
                                     && forall j :: k < j < |cores| ==> cores[j].groupTerms.None?)
  {
    if |cores| == 0 then None
    else if cores[|cores| - 1].groupTerms.Some? then cores[|cores| - 1].groupTerms
    else
      var init := cores[..|cores| - 1];
      var r := LastGroup(init);
      assert forall k :: 0 <= k < |init| ==> init[k] == cores[k];
      assert r.Some? ==> exists k :: (0 <= k < |init| && init[k].groupTerms == r
                                      && forall j :: k < j < |init| ==> init[j].groupTerms.None?);
      r
  }
}

=== FILE: symbols.dfy ===
/** The relation-symbol formula of `PigGenerator.get_new_symbol`
    (pig_translator.py:45-53), with Python's `str` of a natural number. */
module Symbols {
  import opened Wrappers
  import opened Lexical

  function DigitChar(d: nat): (c: char)
    requires d < 10
    ensures IsDigit(c)
  {
    ('0' as int + d) as char
  }

  /** `str(n)` for a natural number: decimal digits, no leading zero. */
  function Decimal(n: nat): (s: string)
    ensures |s| > 0 && AllDigits(s)
    ensures |s| > 1 ==> s[0] != '0'
  {
    if n < 10 then [DigitChar(n)] else Decimal(n / 10) + [DigitChar(n % 10)]
  }

  /** The value of a string of decimal digits. */
  function DecimalValue(s: string): nat
    requires AllDigits(s)
  {
    if |s| == 0 then 0
    else DecimalValue(s[..|s| - 1]) * 10 + (s[|s| - 1] as int - '0' as int)
  }

  /** Reading back the decimal spelling of `n` gives `n`. */
  lemma {:induction false} DecimalRoundTrip(n: nat)
    ensures DecimalValue(Decimal(n)) == n
  {
    if n >= 10 {
      var s := Decimal(n);
      assert s[..|s| - 1] == Decimal(n / 10);
      DecimalRoundTrip(n / 10);
    }
  }

  /** The `k`-th capital letter, counting `A` as 0. */
  function Letter(k: nat): char
    requires k < 26
  {
    ('A' as int + k) as char
  }

  /** The symbol for counter value `n` (`symnum` after the increment):
      for 1..25 the single letter `A`..`Y`; from 26 on, the letter for
      `n % 26` followed by the decimal of `n / 26`. */
  function Symbol(n: nat): (s: string)
    requires n >= 1
    ensures n < 26 ==> |s| == 1
    ensures n >= 26 ==> |s| >= 2 && AllDigits(s[1..])
    ensures 'A' <= s[0] <= 'Z'
  {
    if n < 26 then [Letter(n - 1)]
    else [Letter(n % 26)] + Decimal(n / 26)
  }

  /** The counter value a symbol was made from, if it is a symbol at all. */
  function SymbolNumber(s: string): (r: Option<nat>)
  {
    if |s| == 1 && 'A' <= s[0] <= 'Y' then Some(s[0] as int - 'A' as int + 1)
    else if |s| >= 2 && 'A' <= s[0] <= 'Z' && AllDigits(s[1..]) && DecimalValue(s[1..]) >= 1 then
      Some(s[0] as int - 'A' as int + 26 * DecimalValue(s[1..]))
    else None
  }

  /** Decoding a symbol gives back its counter value. */
  lemma SymbolRoundTrip(n: nat)
    requires n >= 1
    ensures SymbolNumber(Symbol(n)) == Some(n)
  {
    if n >= 26 {
      var s := Symbol(n);
      assert s[1..] == Decimal(n / 26);
      DecimalRoundTrip(n / 26);
    }
  }

  /** Distinct counter values give distinct symbols. */
  lemma SymbolInjective(m: nat, n: nat)
    requires m >= 1 && n >= 1 && m != n
    ensures Symbol(m) != Symbol(n)
  {
    SymbolRoundTrip(m);
    SymbolRoundTrip(n);
  }

  /** The formula on the values named in its description. */
  lemma SymbolExamples()
    ensures Symbol(1) == "A" && Symbol(2) == "B" && Symbol(25) == "Y"
    ensures Symbol(26) == "A1" && Symbol(51) == "Z1" && Symbol(52) == "A2"
  {
  }
}

=== FILE: tokens.dfy ===
/** The non-recursive pieces of the SQL grammar: single-token recognisers,
    literal values, the operator table and the small fixed phrases of
    select_parser.py. Each is an ordered-choice parser at position `i` of a
    token sequence. */
module Tokens {
  import opened Wrappers
  import opened Trees
  import opened Lexical
  import opened ParseBase

  /** Suppressed punctuation is never a word, a literal or a parameter. */
  lemma NotPunctuation(tok: string)
    requires || IsIdentifier(tok) || IsNumeric(tok) || IsStringLiteral(tok) || IsBlob(tok)
             || IsBindParameter(tok) || IsInteger(tok) || IsTypeName(tok)
    ensures !IsSuppressed(tok)
  {
  }

  /** `identifier` (select_parser.py:30) and its copies `table_name`,
      `column_name`, `function_name`, ... */
  function Ident(toks: seq<string>, i: nat): (r: Option<Parsed>)
    ensures Valid(toks, i, r)
    ensures r.Some? <==> i < |toks| && IsIdentifier(toks[i])
    ensures r.Some? ==> r.value.trees == [Leaf(toks[i])] && r.value.end == i + 1
  {
    if i < |toks| && IsIdentifier(toks[i]) then
      NotPunctuation(toks[i]);
      Some(Token(toks, i, toks[i]))
    else None
  }

  /** `integer` (select_parser.py:44). */
  function Integer(toks: seq<string>, i: nat): (r: Option<Parsed>)
    ensures Valid(toks, i, r)
    ensures r.Some? <==> i < |toks| && IsInteger(toks[i])
    ensures r.Some? ==> r.value.trees == [Leaf(toks[i])] && r.value.end == i + 1
  {
    if i < |toks| && IsInteger(toks[i]) then
      NotPunctuation(toks[i]);
      Some(Token(toks, i, toks[i]))
    else None
  }

  /** `numeric_literal` (select_parser.py:45). */
  function Numeric(toks: seq<string>, i: nat): (r: Option<Parsed>)
    ensures Valid(toks, i, r)
    ensures r.Some? <==> i < |toks| && IsNumeric(toks[i])
    ensures r.Some? ==> r.value.trees == [Leaf(toks[i])] && r.value.end == i + 1
  {
    if i < |toks| && IsNumeric(toks[i]) then
      NotPunctuation(toks[i]);
      Some(Token(toks, i, toks[i]))
    else None
  }

  /** A string literal (select_parser.py:46): the value returned is the text
      between the quotes. */
  function StringLit(toks: seq<string>, i: nat): (r: Option<Parsed>)
    ensures Valid(toks, i, r)
    ensures r.Some? <==> i < |toks| && IsStringLiteral(toks[i])
    ensures r.Some? ==> r.value.trees == [Leaf(Unquote(toks[i]))] && r.value.end == i + 1
  {
    if i < |toks| && IsStringLiteral(toks[i]) then
      NotPunctuation(toks[i]);
      Some(Token(toks, i, Unquote(toks[i])))
    else None
  }

  /** `blob_literal` (select_parser.py:47). */
  function Blob(toks: seq<string>, i: nat): (r: Option<Parsed>)
    ensures Valid(toks, i, r)
    ensures r.Some? <==> i < |toks| && IsBlob(toks[i])
    ensures r.Some? ==> r.value.trees == [Leaf(toks[i])] && r.value.end == i + 1
  {
    if i < |toks| && IsBlob(toks[i]) then
      NotPunctuation(toks[i]);
      Some(Token(toks, i, toks[i]))
    else None
  }

  /** `literal_value` (select_parser.py:48-49), tried in the order written. */
  function LiteralValue(toks: seq<string>, i: nat): (r: Option<Parsed>)
    ensures Valid(toks, i, r)
    ensures r.Some? ==> i < r.value.end && |r.value.trees| > 0
  {
    First(toks, i, Numeric(toks, i),
    First(toks, i, StringLit(toks, i),
    First(toks, i, Blob(toks, i),
    First(toks, i, Keyword(toks, i, "NULL"),
    First(toks, i, NotNull(toks, i),
    First(toks, i, Keyword(toks, i, "CURRENT_TIME"),
    First(toks, i, Keyword(toks, i, "CURRENT_DATE"),
                   Keyword(toks, i, "CURRENT_TIMESTAMP"))))))))
  }

  /** The two-keyword literal NOT NULL (select_parser.py:49). */
  function NotNull(toks: seq<string>, i: nat): (r: Option<Parsed>)
    ensures Valid(toks, i, r)
    ensures r.Some? ==> r.value.end == i + 2 && r.value.trees == [Leaf("NOT"), Leaf("NULL")]
  {
    var a :- Keyword(toks, i, "NOT");
    Extend(toks, i, a, Keyword(toks, a.end, "NULL"))
  }

  /** One or more literal values separated by suppressed commas
      (select_parser.py:56). */
  function LiteralList(toks: seq<string>, i: nat): (r: Option<Parsed>)
    ensures Valid(toks, i, r)
    ensures r.Some? ==> i < r.value.end && |r.value.trees| > 0
    decreases |toks| - i
  {
    var a :- LiteralValue(toks, i);
    match Punct(toks, a.end, ",")
    case None => Some(a)
    case Some(c) =>
      Some(ExtendOpt(toks, i, a, Extend(toks, a.end, c, LiteralList(toks, c.end))))
  }

  /** A parenthesised list of literal values (select_parser.py:56); the
      parentheses and commas are not returned. */
  function ValList(toks: seq<string>, i: nat): (r: Option<Parsed>)
    ensures Valid(toks, i, r)
    ensures r.Some? ==> i < r.value.end && |r.value.trees| > 0
  {
    var a :- Punct(toks, i, "(");
    var b :- Extend(toks, i, a, LiteralList(toks, a.end));
    Extend(toks, i, b, Punct(toks, b.end, ")"))
  }

  /** `bind_parameter` (select_parser.py:50-53): one combined token. */
  function BindParameter(toks: seq<string>, i: nat): (r: Option<Parsed>)
    ensures Valid(toks, i, r)
    ensures r.Some? <==> i < |toks| && IsBindParameter(toks[i])
    ensures r.Some? ==> r.value.trees == [Leaf(toks[i])] && r.value.end == i + 1
  {
    if i < |toks| && IsBindParameter(toks[i]) then
      NotPunctuation(toks[i]);
      Some(Token(toks, i, toks[i]))
    else None
  }

  /** `type_name` (select_parser.py:54). */
  function TypeName(toks: seq<string>, i: nat): (r: Option<Parsed>)
    ensures Valid(toks, i, r)
    ensures r.Some? <==> i < |toks| && IsTypeName(toks[i])
    ensures r.Some? ==> r.value.end == i + 1
  {
    if i < |toks| && IsTypeName(toks[i]) then
      NotPunctuation(toks[i]);
      Some(Token(toks, i, toks[i]))
    else None
  }

  /** A count term (select_parser.py:58): the COUNT keyword, then `*` or one
      identifier in parentheses. */
  function CountTerm(toks: seq<string>, i: nat): (r: Option<Parsed>)
    ensures Valid(toks, i, r)
    ensures r.Some? ==> r.value.end == i + 4 && |r.value.trees| == 2
  {
    var a :- Keyword(toks, i, "COUNT");
    var b :- Extend(toks, i, a, Punct(toks, a.end, "("));
    var c :- Extend(toks, i, b, First(toks, b.end, Literal(toks, b.end, "*"), Ident(toks, b.end)));
    Extend(toks, i, c, Punct(toks, c.end, ")"))
  }

  /** The alternatives of an expression term that contain no expression
      (select_parser.py:64-67), tried in the source's order: a literal value,
      a bind parameter, an identifier, a parenthesised value list. */
  function AtomTerm(toks: seq<string>, i: nat): (r: Option<Parsed>)
    ensures Valid(toks, i, r)
    ensures r.Some? ==> i < r.value.end && |r.value.trees| > 0
  {
    First(toks, i, LiteralValue(toks, i),
    First(toks, i, BindParameter(toks, i),
    First(toks, i, Ident(toks, i),
                   ValList(toks, i))))
  }

  /** The arity column of the operator table. */
  datatype Arity = Unary | Binary | Ternary(second: string)

  /** The number of rows of the operator table of select_parser.py:72-84,
      tightest binding first; every row is declared left-associative.
      Level 0 is the operand. The table's three columns follow, one
      function each, so that a reader of one column does not unfold the
      others. */
  const Levels: nat := 10

  /** The operators of row `k` (1-based) that are matched as literal
      symbols. */
  function RowLiterals(k: nat): set<string>
    requires 1 <= k <= Levels
  {
    match k
    case 1 => {"-", "+", "~"}
    case 2 => {"||"}
    case 3 => {"*", "/", "%"}
    case 4 => {"+", "-"}
    case 5 => {"<<", ">>", "&", "|"}
    case 6 => {"<", "<=", ">", ">="}
    case 7 => {"=", "==", "!=", "<>"}
    case 9 => {"||"}
    case _ => {}
  }

  /** The operators of row `k` that are caseless keywords, by their
      defining (upper-case) string. */
  function RowKeywords(k: nat): set<string>
    requires 1 <= k <= Levels
  {
    match k
    case 1 => {"NOT"}
    case 7 => {"IS", "IN", "LIKE", "GLOB", "MATCH", "REGEXP"}
    case 8 => {"AND", "OR"}
    case 10 => {"BETWEEN"}
    case _ => {}
  }

  /** The arity of row `k`: the first row is unary, the last ternary
      (`BETWEEN ... AND ...`), the rows between binary. */
  function RowArity(k: nat): (r: Arity)
    requires 1 <= k <= Levels
  {
    if k == 1 then Unary else if k == Levels then Ternary("AND") else Binary
  }

  /** The operator of table row `k` (1-based) that `tok` spells, in the form
      the parser returns it. */
  function LevelOp(k: nat, tok: string): (r: Option<string>)
    requires 1 <= k <= Levels
    ensures r.Some? ==> !IsSuppressed(tok) && Renders(r.value, tok)
  {
    if tok in RowLiterals(k) then
      assert !IsSuppressed(tok);
      Some(tok)
    else if Upper(tok) in RowKeywords(k) then
      assert |Upper(tok)| >= 2;
      Some(Upper(tok))
    else None
  }

  /** The operator of row `k` at position `i`, as one leaf. */
  function Operator(toks: seq<string>, i: nat, k: nat): (r: Option<Parsed>)
    requires 1 <= k <= Levels
    ensures Valid(toks, i, r)
    ensures r.Some? <==> i < |toks| && LevelOp(k, toks[i]).Some?
    ensures r.Some? ==> r.value.trees == [Leaf(LevelOp(k, toks[i]).value)] && r.value.end == i + 1
  {
    if i < |toks| && LevelOp(k, toks[i]).Some? then
      Some(Token(toks, i, LevelOp(k, toks[i]).value))
    else None
  }

  /** The unary row after its operand: one or more of its operators
      (select_parser.py:74). A left-associative unary row is read as postfix,
      so the operators follow the operand. */
  function UnaryRun(toks: seq<string>, i: nat): (r: Option<Parsed>)
    ensures Valid(toks, i, r)
    ensures r.Some? ==> i < r.value.end
    decreases |toks| - i
  {
    var o :- Operator(toks, i, 1);
    Some(ExtendOpt(toks, i, o, UnaryRun(toks, o.end)))
  }

  /** A compound operator (select_parser.py:87): UNION with an optional ALL,
      INTERSECT, or EXCEPT. */
  function CompoundOp(toks: seq<string>, i: nat): (r: Option<Parsed>)
    ensures Valid(toks, i, r)
    ensures r.Some? ==> i < r.value.end
  {
    First(toks, i, UnionOp(toks, i),
    First(toks, i, Keyword(toks, i, "INTERSECT"), Keyword(toks, i, "EXCEPT")))
  }

  function UnionOp(toks: seq<string>, i: nat): (r: Option<Parsed>)
    ensures Valid(toks, i, r)
    ensures r.Some? ==> i < r.value.end
  {
    var u :- Keyword(toks, i, "UNION");
    Some(ExtendOpt(toks, i, u, Keyword(toks, u.end, "ALL")))
  }

  /** The kind of a join (select_parser.py:93), tried in order: INNER, CROSS,
      LEFT OUTER, LEFT, OUTER. */
  function JoinKind(toks: seq<string>, i: nat): (r: Option<Parsed>)
    ensures Valid(toks, i, r)
  {
    First(toks, i, Keyword(toks, i, "INNER"),
    First(toks, i, Keyword(toks, i, "CROSS"),
    First(toks, i, LeftOuter(toks, i),
    First(toks, i, Keyword(toks, i, "LEFT"), Keyword(toks, i, "OUTER")))))
  }

  function LeftOuter(toks: seq<string>, i: nat): (r: Option<Parsed>)
    ensures Valid(toks, i, r)
  {
    var l :- Keyword(toks, i, "LEFT");
    Extend(toks, i, l, Keyword(toks, l.end, "OUTER"))
  }

  /** A join operator (select_parser.py:93): a comma, or JOIN preceded by an
      optional NATURAL and an optional join kind. */
  function JoinOp(toks: seq<string>, i: nat): (r: Option<Parsed>)
    requires i <= |toks|
    ensures Valid(toks, i, r)
    ensures r.Some? ==> i < r.value.end
  {
    var a := ExtendOpt(toks, i, Nothing(toks, i), Keyword(toks, i, "NATURAL"));
    var b := ExtendOpt(toks, i, a, JoinKind(toks, a.end));
    First(toks, i, Punct(toks, i, ","), Extend(toks, i, b, Keyword(toks, b.end, "JOIN")))
  }

  /** An optional alias, with or without AS before it (select_parser.py:97,
      99, 105): when AS is present but no identifier follows, nothing at all
      is consumed. */
  function Alias(toks: seq<string>, i: nat): (r: Parsed)
    requires i <= |toks|
    ensures ValidP(toks, i, r)
  {
    var a := ExtendOpt(toks, i, Nothing(toks, i), Keyword(toks, i, "AS"));
    match Extend(toks, i, a, Ident(toks, a.end))
    case None => Nothing(toks, i)
    case Some(b) => b
  }

  /** An optional index hint (select_parser.py:98): INDEXED BY and an index
      name, or NOT INDEXED. */
  function IndexHint(toks: seq<string>, i: nat): (r: Parsed)
    requires i <= |toks|
    ensures ValidP(toks, i, r)
  {
    match First(toks, i, IndexedBy(toks, i), NotIndexed(toks, i))
    case None => Nothing(toks, i)
    case Some(h) => h
  }

  function IndexedBy(toks: seq<string>, i: nat): (r: Option<Parsed>)
    ensures Valid(toks, i, r)
  {
    var a :- Keyword(toks, i, "INDEXED");
    var b :- Extend(toks, i, a, Keyword(toks, a.end, "BY"));
    Extend(toks, i, b, Ident(toks, b.end))
  }

  function NotIndexed(toks: seq<string>, i: nat): (r: Option<Parsed>)
    ensures Valid(toks, i, r)
  {
    var a :- Keyword(toks, i, "NOT");
    Extend(toks, i, a, Keyword(toks, a.end, "INDEXED"))
  }

  /** A table reference (select_parser.py:96): a database-qualified name,
      grouped as one element, or else a bare table name. */
  function TableRef(toks: seq<string>, i: nat): (r: Option<Parsed>)
    ensures Valid(toks, i, r)
    ensures r.Some? ==> i < r.value.end
  {
    First(toks, i, QualifiedTable(toks, i), Ident(toks, i))
  }

  function QualifiedTable(toks: seq<string>, i: nat): (r: Option<Parsed>)
    ensures Valid(toks, i, r)
    ensures r.Some? ==> i < r.value.end
  {
    var d :- Ident(toks, i);
    var dot :- Extend(toks, i, d, Literal(toks, d.end, "."));
    var t :- Extend(toks, i, dot, Ident(toks, dot.end));
    Some(Grouped(toks, i, t))
  }

  /** The first alternative of `single_source` (select_parser.py:96-98). */
  function TableSource(toks: seq<string>, i: nat): (r: Option<Parsed>)
    ensures Valid(toks, i, r)
    ensures r.Some? ==> i < r.value.end
  {
    var t :- TableRef(toks, i);
    var a := Then(toks, i, t, Alias(toks, t.end));
    Some(Then(toks, i, a, IndexHint(toks, a.end)))
  }

  /** One or more column names separated by suppressed commas
      (select_parser.py:91). */
  function ColumnNames(toks: seq<string>, i: nat): (r: Option<Parsed>)
    ensures Valid(toks, i, r)
    ensures r.Some? ==> i < r.value.end
    decreases |toks| - i
  {
    var a :- Ident(toks, i);
    match Punct(toks, a.end, ",")
    case None => Some(a)
    case Some(c) => Some(ExtendOpt(toks, i, a, Extend(toks, a.end, c, ColumnNames(toks, c.end))))
  }

  /** A USING constraint (select_parser.py:91): the keyword, then the column
      names in parentheses, grouped as one element. */
  function UsingColumns(toks: seq<string>, i: nat): (r: Option<Parsed>)
    ensures Valid(toks, i, r)
  {
    var u :- Keyword(toks, i, "USING");
    var l :- Extend(toks, i, u, Punct(toks, u.end, "("));
    var cs :- ColumnNames(toks, l.end);
    var g := Then(toks, i, l, Grouped(toks, l.end, cs));
    Extend(toks, i, g, Punct(toks, g.end, ")"))
  }

  /** An optional LIMIT clause (select_parser.py:114). Of the three forms
      allowed after LIMIT the bare integer is tried first, and the other two
      begin with an integer too, so they are never the ones that match. */
  function LimitClause(toks: seq<string>, i: nat): (r: Option<Parsed>)
    ensures Valid(toks, i, r)
    ensures r.Some? <==> i + 1 < |toks| && IsKeyword(toks[i], "LIMIT") && IsInteger(toks[i + 1])
    ensures r.Some? ==> r.value.trees == [Leaf("LIMIT"), Leaf(toks[i + 1])] && r.value.end == i + 2
  {
    var l :- Keyword(toks, i, "LIMIT");
    Extend(toks, i, l, Integer(toks, l.end))
  }
}

=== FILE: translator.dfy ===
/** The translator core of pig_translator.py: the symbol generator state of
    `PigGenerator`, the LOAD/FILTER/GROUP statement builders that thread
    the new and last symbols between them, the field whitelist, and the
    clause order of `get_pig`. The generator is a record threaded through
    pure functions; each builder returns the next state with its text.
    The parsed statement enters only through its WHERE expression and its
    grouping terms, so this module does not depend on the grammar. */
module Translator {
  import opened Wrappers
  import opened Trees
  import opened Symbols

  /** `PigGenerator`'s symbol fields (pig_translator.py:39-42). */
  datatype Generator = Generator(
    symnum: nat,
    newSym: Option<string>,
    lastSym: Option<string>,
    symbols: seq<string>)

  /** The state `__init__` leaves behind. */
  const Fresh: Generator := Generator(0, None, None, [])

  /** The symbol the counter value `n` stands for, `None` before the first. */
  function SymbolAt(n: nat): Option<string>
  {
    if n == 0 then None else Some(Symbol(n))
  }

  /** The generator's fields agree with its counter: the current symbol is
      that of the counter and the last one that of the counter before. */
  predicate Consistent(g: Generator)
  {
    && g.newSym == SymbolAt(g.symnum)
    && g.lastSym == (if g.symnum <= 1 then None else SymbolAt(g.symnum - 1))
  }

  /** `'%s' % x`: Python renders a missing symbol as `None`. */
  function Show(s: Option<string>): (r: string)
    ensures s.Some? ==> r == s.value
    ensures s.None? ==> r == "None"
  {
    match s
    case None => "None"
    case Some(v) => v
  }

  /** `get_new_symbol` (pig_translator.py:45-53): `reuse` and the pool are
      not consulted. */
  function NewSymbol(g: Generator, reuse: bool): (r: (Generator, string))
    ensures r.0.symnum == g.symnum + 1
    ensures r.0.lastSym == g.newSym && r.0.newSym == Some(r.1)
    ensures r.0.symbols == g.symbols
    ensures SymbolNumber(r.1) == Some(g.symnum + 1)
    ensures Consistent(g) ==> Consistent(r.0)
  {
    SymbolRoundTrip(g.symnum + 1);
    var sym := Symbol(g.symnum + 1);
    (Generator(g.symnum + 1, Some(sym), g.newSym, g.symbols), sym)
  }

  /** `get_new_and_last_symbol` (pig_translator.py:56-57): the tuple is
      built left to right, so the new symbol is made first and the second
      component is the symbol that was current before the call. */
  function NewAndLast(g: Generator): (r: (Generator, string, Option<string>))
    ensures r.2 == g.newSym
    ensures (r.0, r.1) == NewSymbol(g, true)
  {
    var (g1, sym) := NewSymbol(g, true);
    (g1, sym, g1.lastSym)
  }

  /** `reuse_symbol` (pig_translator.py:59-60): only appends to the pool. */
  function ReuseSymbol(g: Generator, sym: string): (r: Generator)
    ensures r.symbols == g.symbols + [sym]
    ensures r.(symbols := g.symbols) == g
  {
    g.(symbols := g.symbols + [sym])
  }

  /** The pool never influences the next symbol. */
  lemma PoolIgnored(g: Generator, sym: string, reuse: bool)
    ensures NewSymbol(ReuseSymbol(g, sym), reuse).1 == NewSymbol(g, true).1
    ensures NewSymbol(ReuseSymbol(g, sym), reuse).0 == ReuseSymbol(NewSymbol(g, true).0, sym)
  {
  }

  /** Every symbol handed out by a consistent generator differs from all
      symbols handed out before it. */
  lemma FreshSymbolIsNew(g: Generator, earlier: nat)
    requires Consistent(g)
    requires 1 <= earlier <= g.symnum
    ensures NewSymbol(g, true).1 != Symbol(earlier)
  {
    SymbolInjective(g.symnum + 1, earlier);
  }

  /** `str.join` (pig_translator.py:91, 101): the pieces in order with the
      separator between each two of them. */
  function Join(sep: string, xs: seq<string>): (r: string)
    ensures |xs| == 0 ==> r == ""
    ensures |xs| > 0 ==> xs[0] <= r
    ensures |xs| > 1 ==> xs[0] + sep <= r
    ensures |xs| > 0 ==> |r| + |sep| == Width(sep, xs)
  {
    if |xs| == 0 then ""
    else if |xs| == 1 then xs[0]
    else
      var rest := Join(sep, xs[1..]);
      assert xs[0] + sep <= xs[0] + sep + rest;
      xs[0] + sep + rest
  }

  /** The length of every piece with one separator after each. */
  function Width(sep: string, xs: seq<string>): nat
  {
    if |xs| == 0 then 0 else |xs[0]| + |sep| + Width(sep, xs[1..])
  }

  /** Cutting a text at every occurrence of a non-empty separator, scanning
      left to right: the inverse of `Join` that `JoinSplit` relies on. */
  function Split(sep: string, s: string): (r: seq<string>)
    requires |sep| > 0
    ensures |r| > 0
    decreases |s|
  {
    if |s| == 0 then [""]
    else if sep <= s then [""] + Split(sep, s[|sep|..])
    else
      var rest := Split(sep, s[1..]);
      [[s[0]] + rest[0]] + rest[1..]
  }

  /** A piece that does not contain the separator's first character is cut
      off whole by `Split`. */
  lemma {:induction false} SplitAppend(sep: string, x: string, s: string)
    requires |sep| > 0 && sep[0] !in x
    ensures Split(sep, x + sep + s) == [x] + Split(sep, s)
    ensures Split(sep, x) == [x]
    decreases |x|
  {
    if |x| == 0 {
      assert x + sep + s == sep + s;
      assert (sep + s)[|sep|..] == s;
    } else {
      var t := x + sep + s;
      assert t[0] == x[0] && !(sep <= t);
      assert t[1..] == x[1..] + sep + s;
      assert !(sep <= x);
      assert x == [x[0]] + x[1..];
      SplitAppend(sep, x[1..], s);
    }
  }

  /** Joining pieces that do not contain the separator's first character
      loses nothing: splitting the text at the separator gives the pieces
      back. This covers both joins of the translator, with ` ` and `, `. */
  lemma {:induction false} JoinSplit(sep: string, xs: seq<string>)
    requires |sep| > 0 && |xs| > 0
    requires forall k :: 0 <= k < |xs| ==> sep[0] !in xs[k]
    ensures Split(sep, Join(sep, xs)) == xs
    decreases |xs|
  {
    if |xs| == 1 {
      SplitAppend(sep, xs[0], "");
    } else {
      JoinSplit(sep, xs[1..]);
      SplitAppend(sep, xs[0], Join(sep, xs[1..]));
      assert [xs[0]] + xs[1..] == xs;
    }
  }

  /** A WHERE value that is a bare string is iterated character by
      character, so the FILTER condition spells it out: its characters in
      order with one space between each two. */
  lemma {:induction false} SpelledOut(s: string)
    requires |s| > 0
    ensures var r := Join(" ", Flatten(Leaf(s)));
      && |r| == 2 * |s| - 1
      && (forall k :: 0 <= k < |s| ==> r[2 * k] == s[k])
      && (forall k :: 0 <= k < |s| - 1 ==> r[2 * k + 1] == ' ')
    decreases |s|
  {
    var xs := Flatten(Leaf(s));
    var r := Join(" ", xs);
    if |s| == 1 {
      assert r == xs[0] == [s[0]];
    } else {
      assert xs[1..] == Flatten(Leaf(s[1..]));
      SpelledOut(s[1..]);
      var rest := Join(" ", xs[1..]);
      assert r == [s[0]] + " " + rest;
      forall k | 0 < k < |s|
        ensures r[2 * k] == s[k]
      {
        assert r[2 * k] == rest[2 * (k - 1)];
      }
      forall k | 0 < k < |s| - 1
        ensures r[2 * k + 1] == ' '
      {
        assert r[2 * k + 1] == rest[2 * (k - 1) + 1];
      }
    }
  }

  /** `where ok`: the condition is `o k`. */
  lemma SpelledOutExample()
    ensures Join(" ", Flatten(Leaf("ok"))) == "o k"
  {
    var xs := Flatten(Leaf("ok"));
    assert xs == ["o", "k"];
    assert xs[1..] == ["k"];
  }

  /** Python truthiness of an optional string: present and non-empty. */
  predicate Given(s: Option<string>)
  {
    s.Some? && |s.value| > 0
  }

  /** The path suffix built by `basic_load` (pig_translator.py:72-76). */
  function DateSuffix(date: Option<string>, hour: Option<string>): (r: string)
    ensures r == "" <==> !Given(date)
    ensures Given(date) ==> |r| > |date.value| && r[..|date.value| + 1] == "/" + date.value
    ensures Given(date) && !Given(hour) ==> |r| == |date.value| + 1
    ensures Given(date) && Given(hour) ==> |r| > |date.value| && r[|date.value| + 1..] == "/" + hour.value + ".*"
  {
    if Given(date) then
      "/" + date.value + (if Given(hour) then "/" + hour.value + ".*" else "")
    else ""
  }

  const LoadPrefix: string := " = LOAD '/user/hadoop/ambitionlog"
  const LoadSuffix: string := " using com.twitter.elephantbird.pig.load.LzoThriftBlockPigLoader('com.mediav.data.log.CookieDailyLog');\n"
  const ForeachMiddle: string := " = FOREACH  "
  const ForeachSuffix: string := " GENERATE FLATTEN(events);"

  /** `basic_load` (pig_translator.py:71-80): two symbols, a LOAD statement
      and a FOREACH that flattens `events` of the loaded relation. */
  function BasicLoad(g: Generator, date: Option<string>, hour: Option<string>): (r: (Generator, string))
    ensures r.0.symnum == g.symnum + 2 && r.0.symbols == g.symbols
    ensures Consistent(g) ==> Consistent(r.0)
    ensures Consistent(g) ==> r.1 == Symbol(g.symnum + 1) + LoadPrefix + DateSuffix(date, hour) + LoadSuffix
                                     + Symbol(g.symnum + 2) + ForeachMiddle + Symbol(g.symnum + 1) + ForeachSuffix
  {
    var (g1, load) := NewSymbol(g, true);
    var (g2, made, last) := NewAndLast(g1);
    (g2, load + LoadPrefix + DateSuffix(date, hour) + LoadSuffix
         + made + ForeachMiddle + Show(last) + ForeachSuffix)
  }

  /** True when no text contains `%`. The string formatting applied after
      the join would otherwise print each `%%` as one `%` and raise on any
      other `%`. */
  predicate NoPercent(xs: seq<string>)
  {
    forall k :: 0 <= k < |xs| ==> '%' !in xs[k]
  }

  /** `where_filter` (pig_translator.py:85-92). */
  function WhereFilter(g: Generator, whereExpr: Option<Tree>): (r: (Generator, Option<string>))
    requires whereExpr.Some? ==> NoPercent(Flatten(whereExpr.value))
    ensures whereExpr.None? ==> r == (g, None)
    ensures whereExpr.Some? ==> r.0.symnum == g.symnum + 1 && r.1.Some?
    ensures Consistent(g) ==> Consistent(r.0)
    ensures Consistent(g) && g.symnum >= 1 && whereExpr.Some? ==>
      r.1 == Some(Symbol(g.symnum + 1) + " = FILTER " + Symbol(g.symnum) + " BY " + Join(" ", Flatten(whereExpr.value)))
  {
    match whereExpr
    case None => (g, None)
    case Some(w) =>
      var (g1, made, last) := NewAndLast(g);
      (g1, Some(made + " = FILTER " + Show(last) + " BY " + Join(" ", Flatten(w))))
  }

  /** `group_by` (pig_translator.py:94-102): every leaf of every term,
      joined with `, `. */
  function GroupBy(g: Generator, groupTerms: Option<seq<Tree>>): (r: (Generator, Option<string>))
    requires groupTerms.Some? ==> NoPercent(FlattenSeq(groupTerms.value))
    ensures groupTerms.None? ==> r == (g, None)
    ensures groupTerms.Some? ==> r.0.symnum == g.symnum + 1 && r.1.Some?
    ensures Consistent(g) ==> Consistent(r.0)
    ensures Consistent(g) && g.symnum >= 1 && groupTerms.Some? ==>
      r.1 == Some(Symbol(g.symnum + 1) + " = GROUP " + Symbol(g.symnum) + " BY (" + Join(", ", FlattenSeq(groupTerms.value)) + ");")
  {
    match groupTerms
    case None => (g, None)
    case Some(ts) =>
      var (g1, made, last) := NewAndLast(g);
      (g1, Some(made + " = GROUP " + Show(last) + " BY (" + Join(", ", FlattenSeq(ts)) + ");"))
  }

  /** `QUERY_FIELD` (pig_translator.py:6-21). */
  const QueryField: seq<string> := [
    "uri", "useragent", "mvid", "reqType", "publisherId", "channelId",
    "adspaceId", "advertiserId", "campaignId", "solutionId", "creativeId",
    "entityType", "solutionType", "emptyReturnType"
  ]

  /** `FieldError` with its message. */
  datatype FieldError = FieldError(message: string)

  /** `check_fields` (pig_translator.py:63-66): the first field outside the
      whitelist raises, with the message left unformatted. */
  method CheckFields(fields: seq<string>) returns (r: Result<(), FieldError>)
    ensures r.Failure? <==> exists k :: 0 <= k < |fields| && fields[k] !in QueryField
    ensures r.Failure? ==> r.error == FieldError("field %s is not allowed")
  {
    var k := 0;
    while k < |fields|
      invariant 0 <= k <= |fields|
      invariant forall j :: 0 <= j < k ==> fields[j] in QueryField
    {
      if fields[k] !in QueryField {
        return Failure(FieldError("field %s is not allowed"));
      }
      k := k + 1;
    }
    return Success(());
  }

  /** The jars `gen_register` registers (pig_translator.py:106-118), in order. */
  const Jars: seq<string> := [
    "ambition-data.jar", "libthrift.jar", "mediavdailylog.jar", "mediav-pig-farm.jar",
    "mediav-session-log.jar", "elephant-bird.jar", "guava.jar", "hadoop-lzo.jar",
    "protobuf-java.jar", "slf4j-api.jar", "slf4j-log4j12.jar", "json-simple.jar",
    "commons-lang-2.5.jar"
  ]

  /** The directory every jar is registered from. */
  const LibDir: string := "/opt/pig/lib/"

  /** The block `gen_register` returns (pig_translator.py:104-120): a
      leading newline, one `register '<dir><jar>';` line per jar, and the
      indentation before the closing quotes. */
  const Register: string :=
    "\nregister '" + LibDir + Join("';\nregister '" + LibDir, Jars) + "';\n    "

  /** The clause order of `get_pig` after the registration block: load,
      filter, group, each builder drawing its symbols from the generator
      the previous one left. */
  function Pipeline(whereExpr: Option<Tree>, groupTerms: Option<seq<Tree>>): (r: seq<Option<string>>)
    requires whereExpr.Some? ==> NoPercent(Flatten(whereExpr.value))
    requires groupTerms.Some? ==> NoPercent(FlattenSeq(groupTerms.value))
    ensures |r| == 3 && r[0].Some?
    ensures r[1].Some? <==> whereExpr.Some?
    ensures r[2].Some? <==> groupTerms.Some?
  {
    var (g1, load) := BasicLoad(Fresh, None, None);
    var (g2, filter) := WhereFilter(g1, whereExpr);
    var (_, group) := GroupBy(g2, groupTerms);
    [Some(load), filter, group]
  }

  /** The first four symbols. */
  lemma FirstSymbols()
    ensures Symbol(1) == "A" && Symbol(2) == "B" && Symbol(3) == "C" && Symbol(4) == "D"
  {
  }

  /** The generator after `basic_load()` on a fresh one. */
  const Loaded: Generator := Generator(2, Some("B"), Some("A"), [])

  /** The generator after `basic_load()` and a `where_filter()` that emitted. */
  const Filtered: Generator := Generator(3, Some("C"), Some("B"), [])

  /** `basic_load()` on a fresh generator: symbols A and B, the FOREACH
      reading A, and no date in the path. */
  lemma LoadOnFresh()
    ensures BasicLoad(Fresh, None, None).0 == Loaded
    ensures BasicLoad(Fresh, None, None).1 == "A" + LoadPrefix + LoadSuffix + "B" + ForeachMiddle + "A" + ForeachSuffix
  {
    FirstSymbols();
    assert Consistent(Fresh) && DateSuffix(None, None) == "";
    assert Symbol(1) + LoadPrefix + "" == Symbol(1) + LoadPrefix;
  }

  /** `where_filter()` right after the load: it makes C from B. */
  lemma FilterAfterLoad(w: Option<Tree>)
    requires w.Some? ==> NoPercent(Flatten(w.value))
    ensures w.None? ==> WhereFilter(Loaded, w) == (Loaded, None)
    ensures w.Some? ==> WhereFilter(Loaded, w) == (Filtered, Some("C = FILTER B BY " + Join(" ", Flatten(w.value))))
  {
    FirstSymbols();
    assert Consistent(Loaded);
    assert "C" + " = FILTER " + "B" + " BY " == "C = FILTER B BY ";
  }

  /** `group_by()` with no filter before it: it makes C from B. */
  lemma GroupAfterLoad(gt: Option<seq<Tree>>)
    requires gt.Some? ==> NoPercent(FlattenSeq(gt.value))
    ensures gt.None? <==> GroupBy(Loaded, gt).1.None?
    ensures gt.Some? ==> GroupBy(Loaded, gt).1 == Some("C = GROUP B BY (" + Join(", ", FlattenSeq(gt.value)) + ");")
  {
    FirstSymbols();
    assert Consistent(Loaded);
    assert "C" + " = GROUP " + "B" + " BY (" == "C = GROUP B BY (";
  }

  /** `group_by()` after a filter: it makes D from C. */
  lemma GroupAfterFilter(gt: Option<seq<Tree>>)
    requires gt.Some? ==> NoPercent(FlattenSeq(gt.value))
    ensures gt.None? <==> GroupBy(Filtered, gt).1.None?
    ensures gt.Some? ==> GroupBy(Filtered, gt).1 == Some("D = GROUP C BY (" + Join(", ", FlattenSeq(gt.value)) + ");")
  {
    FirstSymbols();
    assert Consistent(Filtered);
    assert "D" + " = GROUP " + "C" + " BY (" == "D = GROUP C BY (";
  }

  /** What the translation emits, stated with the symbols spelled out:
      the load pair is A and B, the filter reads B, and the group reads the
      relation made just before it, so each statement's input is the
      previous statement's output; absent clauses emit nothing and take no
      symbol. */
  lemma PipelineStatements(w: Option<Tree>, gt: Option<seq<Tree>>)
    requires w.Some? ==> NoPercent(Flatten(w.value))
    requires gt.Some? ==> NoPercent(FlattenSeq(gt.value))
    ensures |Pipeline(w, gt)| == 3
    ensures Pipeline(w, gt)[0] == Some("A" + LoadPrefix + LoadSuffix + "B" + ForeachMiddle + "A" + ForeachSuffix)
    ensures Pipeline(w, gt)[1].None? <==> w.None?
    ensures w.Some? ==> Pipeline(w, gt)[1] == Some("C = FILTER B BY " + Join(" ", Flatten(w.value)))
    ensures Pipeline(w, gt)[2].None? <==> gt.None?
    ensures w.Some? && gt.Some? ==>
      Pipeline(w, gt)[2] == Some("D = GROUP C BY (" + Join(", ", FlattenSeq(gt.value)) + ");")
    ensures w.None? && gt.Some? ==>
      Pipeline(w, gt)[2] == Some("C = GROUP B BY (" + Join(", ", FlattenSeq(gt.value)) + ");")
  {
    LoadOnFresh();
    FilterAfterLoad(w);
    GroupAfterLoad(gt);
    GroupAfterFilter(gt);
  }

  /** A named result as the source reads it: pyparsing answers a name the
      parse never set with the empty string, which is not `None` and which
      `flatten` turns into no atoms at all. */
  function ReadName(t: Option<Tree>): (r: Tree)
    ensures t.None? ==> Flatten(r) == []
    ensures t.Some? ==> r == t.value
  {
    match t
    case None => Leaf("")
    case Some(v) => v
  }

  /** `ReadName` for the list-valued `group_terms`. */
  function ReadTerms(ts: Option<seq<Tree>>): (r: seq<Tree>)
    ensures ts.None? ==> FlattenSeq(r) == []
    ensures ts.Some? ==> r == ts.value
  {
    match ts
    case None => []
    case Some(v) => v
  }

  /** `where_filter` as written (pig_translator.py:85-92): its `None` test
      never holds for a name the parse did not set, so it always emits. */
  function WhereFilterAsWritten(g: Generator, whereExpr: Option<Tree>): (r: (Generator, Option<string>))
    requires whereExpr.Some? ==> NoPercent(Flatten(whereExpr.value))
    ensures r.1.Some? && r.0.symnum == g.symnum + 1
    ensures whereExpr.Some? ==> r == WhereFilter(g, whereExpr)
  {
    WhereFilter(g, Some(ReadName(whereExpr)))
  }

  /** `group_by` as written (pig_translator.py:94-102), likewise always emitting. */
  function GroupByAsWritten(g: Generator, groupTerms: Option<seq<Tree>>): (r: (Generator, Option<string>))
    requires groupTerms.Some? ==> NoPercent(FlattenSeq(groupTerms.value))
    ensures r.1.Some? && r.0.symnum == g.symnum + 1
    ensures groupTerms.Some? ==> r == GroupBy(g, groupTerms)
  {
    GroupBy(g, Some(ReadTerms(groupTerms)))
  }

  /** A query without WHERE gets a FILTER with an empty condition. */
  lemma EmptyFilterAsWritten()
    ensures WhereFilterAsWritten(Loaded, None) == (Filtered, Some("C = FILTER B BY "))
  {
    var v := ReadName(None);
    FilterAfterLoad(Some(v));
    assert Join(" ", Flatten(v)) == "";
    assert "C = FILTER B BY " + "" == "C = FILTER B BY ";
  }

  /** A query without GROUP BY, after that filter, gets a GROUP over an
      empty key list. */
  lemma EmptyGroupAsWritten()
    ensures WhereFilterAsWritten(Loaded, None).0 == Filtered
    ensures GroupByAsWritten(Filtered, None).1 == Some("D = GROUP C BY ();")
  {
    EmptyFilterAsWritten();
    var v := ReadTerms(None);
    GroupAfterFilter(Some(v));
    assert Join(", ", FlattenSeq(v)) == "";
    assert "D = GROUP C BY (" + "" + ");" == "D = GROUP C BY ();";
  }

  /** The clause order of `get_pig` (pig_translator.py:122-127) with the
      builders as written: the filter and the group are always emitted. */
  function PipelineAsWritten(whereExpr: Option<Tree>, groupTerms: Option<seq<Tree>>): (r: seq<Option<string>>)
    requires whereExpr.Some? ==> NoPercent(Flatten(whereExpr.value))
    requires groupTerms.Some? ==> NoPercent(FlattenSeq(groupTerms.value))
    ensures |r| == 3 && r[0].Some? && r[1].Some? && r[2].Some?
    ensures whereExpr.Some? ==> r[1] == Pipeline(whereExpr, groupTerms)[1]
  {
    var (g1, load) := BasicLoad(Fresh, None, None);
    var (g2, filter) := WhereFilterAsWritten(g1, whereExpr);
    var (_, group) := GroupByAsWritten(g2, groupTerms);
    [Some(load), filter, group]
  }

  /** What the builders as written emit: the same load pair, a filter on
      B whose condition is empty without a WHERE expression, and always a
      group of C into D, whose key list is empty without grouping terms. */
  lemma PipelineAsWrittenStatements(w: Option<Tree>, gt: Option<seq<Tree>>)
    requires w.Some? ==> NoPercent(Flatten(w.value))
    requires gt.Some? ==> NoPercent(FlattenSeq(gt.value))
    ensures PipelineAsWritten(w, gt)[0] == Pipeline(w, gt)[0]
    ensures PipelineAsWritten(w, gt)[1] == Some("C = FILTER B BY " + Join(" ", Flatten(ReadName(w))))
    ensures PipelineAsWritten(w, gt)[2] == Some("D = GROUP C BY (" + Join(", ", FlattenSeq(ReadTerms(gt))) + ");")
  {
    LoadOnFresh();
    FilterAfterLoad(Some(ReadName(w)));
    GroupAfterFilter(Some(ReadTerms(gt)));
  }
}

=== FILE: trees.dfy ===
/** The parse tree handed from the grammar to the translator, and the
    translator's `flatten` generator (pig_translator.py:25-31). */
module Trees {

  /** A parse result element: a string token, or a group of nested results
      (a pyparsing `Group`). */
  datatype Tree = Leaf(text: string) | Node(kids: seq<Tree>)

  /** `flatten` over a sequence of elements: each string element is yielded
      as one atom, each nested group is descended into, left to right, so
      there is exactly one atom per string leaf. */
  function FlattenSeq(ts: seq<Tree>): (r: seq<string>)
    ensures |r| == LeafCount(ts)
    decreases ts
  {
    if |ts| == 0 then []
    else
      var head := match ts[0]
        case Leaf(s) => [s]
        case Node(ks) => FlattenSeq(ks);
      head + FlattenSeq(ts[1..])
  }

  /** `flatten` applied to one parse value. A bare string is itself
      iterable, so it is yielded one character at a time. */
  function Flatten(t: Tree): (r: seq<string>)
    ensures t.Node? ==> r == FlattenSeq(t.kids)
    ensures t.Leaf? ==> |r| == |t.text|
    ensures t.Leaf? ==> forall k :: 0 <= k < |r| ==> r[k] == [t.text[k]]
  {
    match t
    case Leaf(s) => seq(|s|, k requires 0 <= k < |s| => [s[k]])
    case Node(ks) => FlattenSeq(ks)
  }

  /** Number of string leaves below a sequence of elements. */
  function LeafCount(ts: seq<Tree>): nat
    decreases ts
  {
    if |ts| == 0 then 0
    else
      var head := match ts[0]
        case Leaf(_) => 1
        case Node(ks) => LeafCount(ks);
      head + LeafCount(ts[1..])
  }

  /** Every leaf text of a sequence of elements, as a set (no order). */
  function LeafTexts(ts: seq<Tree>): set<string>
    decreases ts
  {
    if |ts| == 0 then {}
    else
      var head := match ts[0]
        case Leaf(s) => {s}
        case Node(ks) => LeafTexts(ks);
      head + LeafTexts(ts[1..])
  }

  /** Flattening distributes over concatenation of element sequences. */
  lemma {:induction false} FlattenSeqConcat(a: seq<Tree>, b: seq<Tree>)
    ensures FlattenSeq(a + b) == FlattenSeq(a) + FlattenSeq(b)
    decreases |a|
  {
    if |a| == 0 {
      assert a + b == b;
    } else {
      var head := match a[0]
        case Leaf(s) => [s]
        case Node(ks) => FlattenSeq(ks);
      assert (a + b)[0] == a[0];
      assert (a + b)[1..] == a[1..] + b;
      assert FlattenSeq(a + b) == head + FlattenSeq(a[1..] + b);
      FlattenSeqConcat(a[1..], b);
      var x, y := FlattenSeq(a[1..]), FlattenSeq(b);
      assert head + (x + y) == (head + x) + y;
      assert FlattenSeq(a) == head + x;
    }
  }

  /** A group boundary leaves no trace in the flattened output. */
  lemma FlattenGroup(ts: seq<Tree>)
    ensures FlattenSeq([Node(ts)]) == FlattenSeq(ts)
  {
    assert [Node(ts)][1..] == [];
  }

  /** The flattened output holds exactly the leaf texts: nothing is lost and
      nothing is invented. */
  lemma {:induction false} FlattenContents(ts: seq<Tree>)
    ensures forall s :: s in FlattenSeq(ts) <==> s in LeafTexts(ts)
    decreases ts
  {
    if |ts| > 0 {
      match ts[0] {
        case Leaf(_) =>
        case Node(ks) => FlattenContents(ks);
      }
      FlattenContents(ts[1..]);
    }
  }
}

=== FILE: wrappers.dfy ===
/** Failure-compatible wrappers shared by the parser and the translator. */
module Wrappers {

  /** An optional value; `None` plays the part of Python's `None` and of a
      failed parse alternative. */
  datatype Option<+T> = None | Some(value: T) {
    predicate IsFailure() { None? }

    function PropagateFailure<U>(): Option<U>
      requires None?
    {
      None
    }

    function Extract(): T
      requires Some?
    {
      value
    }
  }

  /** A value or an error, standing for a Python call that may raise. */
  datatype Result<+R, +E> = Success(value: R) | Failure(error: E) {
    predicate IsFailure() { Failure? }

    function PropagateFailure<U>(): Result<U, E>
      requires Failure?
    {
      Failure(error)
    }

    function Extract(): R
      requires Success?
    {
      value
    }
  }
}
